=== FILE: README.md ===
# Places API core in Dafny

A Dafny model of the core of a Django REST service that lists places (restaurants, beaches,
museums and so on) for a mobile app. Each place is a record with Boolean columns for
expectations, sorting tags and regions, a category and a JSON list of device ids that liked it.
It also holds opening hours per weekday.

The model covers:

- **Working hours** (`WorkingHours`). `Place.get_working_hours_status` takes the first opening row
  for today in `(day_of_week, open_time)` order. It decides whether the place is open now, what
  the status text says and when the status changes next, including windows that run past
  midnight.
- **The list filter** (`Filters`). `PlaceFilter` has category equality, a case-insensitive
  category-name match, and comma-separated expectation and sorting-tag keys. Each key goes
  through its own key-to-column map, and unknown keys are ignored.
- **The detail serializer** (`Presentation`). `get_expectations` and `get_sorting_tags` turn
  the place's true columns into entries labelled from definition records or, without one, from
  `key.title()`. `get_user_interaction` reads the caller's device id from the POST body or the
  query string.
- **Request validation** (`Requests`). These are the Django REST framework field rules that
  `LikeRequestSerializer` and `WheelSpinRequestSerializer` rely on: `CharField`,
  `IntegerField` and `ListField`.
- **The views** (`Views`). They cover the active-places queryset, the like toggle and the wheel
  spin, which picks one random matching active place.
- **The `auto_translate_content` command** (`AutoTranslate`). For each configured model and
  instance it translates each text field from the source language into every target language
  that needs it. It keeps the answers that differ from the source and saves the instances it
  changed.

Shared pieces:

- `Common` holds `Option`, `Result`, an order-preserving `Select` filter and the
  list-removal helpers.
- `PyText` holds the Python string operations the code uses:
  - `strip`, `split(',')`, ASCII `lower`/`title` and substring search;
  - `int()` on decimal text, and `str()` of an integer.

Places are immutable values. A queryset is a `seq<Place>` in database order, and an update
returns the new value. Outside inputs are parameters:

- the current time and weekday;
- the request;
- the random index chooser;
- the translation service;
- whether a save succeeds.

The model follows the code where its behaviour is easy to miss:

- **Display tables and filter maps.** The expectation display table has 17 rows including
  `alcohol`, while the expectation filter map has 16 keys and no `alcohol`. The sorting
  display table has 18 rows including `coffee`, while the sorting filter map has 17 keys and no
  `coffee`. So `alcohol` is shown as an expectation but cannot be filtered as one, and
  `coffee` likewise as a sorting tag.
- **The wheel spin's fallback.** When a key is not in the spin's own map, the spin still
  filters by any Boolean column whose name equals the key. This includes `alcohol` as an
  expectation key and even `is_active` as a region key. The spin's expectation map is the
  same as the list filter's map, so the model uses one definition of it.
- **Saving a like.** The like view saves the place without catching errors.
- **Query parameters are cleaned first.** The filter set's form strips every text parameter,
  so a `category_name` of spaces filters nothing and a padded name matches as its stripped
  text. A non-empty `category` must be the id of an existing category, read as `int()` reads
  it. A text parameter that still holds U+0000 after stripping is refused by the form field's
  null-character validator. Any failing parameter fails the whole filter set with a 400 that
  names every failing parameter, for the list and for `like` alike.
- **Null characters in request bodies.** Django REST framework's `CharField` refuses a string
  holding U+0000 once it is stripped, so such a `device_id` or list key is a 400.
- **Blank translations.** A translation answer made only of whitespace passes the command's
  acceptance test (it is non-empty and differs from the source once stripped), so it is
  written.

## Model

| member | source | states |
|---|---|---|
| `Places.NewPlace` | api/models.py:76-118 | A new place has every Boolean column. Only `currency_supported` and `is_active` start true; every expectation, sorting and region tag starts false. There are no likes and no opening hours. |
| `Places.CoffeeIsOneColumn` | api/models.py:85-98 | `coffee` is declared twice among the 36 Boolean declarations (positions 9 and 20) and is a single column. |
| `WorkingHours.ParseFormat` | api/models.py:149-160 | Reading back the `%H:%M` text of a time gives its minute of the day, so the seconds are dropped. |
| `WorkingHours.FormatDistinguishesMinutes` | api/models.py:149-160 | Two times render to the same `%H:%M` text exactly when they fall in the same minute. |
| `WorkingHours.TodaysHours` | api/models.py:139 | Nothing exactly when no row is for today. Otherwise it is a row for today with the smallest opening time among today's rows. |
| `WorkingHours.TodaysHoursIsFirstOfSorted` | api/models.py:191 | With rows in `(day_of_week, open_time)` order, the row taken is the first row for today. |
| `WorkingHours.Evaluate` | api/models.py:141-160 | Open exactly when "now" lies in the window from the opening time (inclusive) forward to the closing time (exclusive). Open reports `Open` with the closing time as next change. `Opens at` carries the opening time as both text and next change. `Closed` is the only status without a next change. |
| `WorkingHours.GetWorkingHoursStatus` | api/models.py:128-161 | Without a row for today the status is the closed default. It reports open only if a row for today contains "now", and exactly when today's first row does. |
| `WorkingHours.OnlyFirstRowCounts` | api/models.py:139 | A later row for the same day is ignored, even when it would say open. |
| `WorkingHours.SameDaySpan` | api/models.py:153-160 | When opening <= closing: open iff `open <= now < close`. Before opening it reports `Opens at`; after closing it reports the closed default. |
| `WorkingHours.OvernightSpan` | api/models.py:145-152 | When closing < opening: open iff `now >= open or now < close`, with the closing time as next change. Otherwise `close <= now < open` and the status is `Opens at` the opening time. |
| `WorkingHours.EqualTimesNeverOpen` | api/models.py:153-157 | A row whose opening and closing times are equal never reports open. |
| `WorkingHours.NextChangeIsNextFlip` | api/models.py:145-160 | The reported next change is the next moment the open state flips, and it stays put until then. The closed default means the window does not open again before midnight. |
| `Filters.KeyMapsNameColumns` | api/filters.py:33-64 | Every key of the expectation map and the sorting map names a Boolean column of `Place`. |
| `Filters.CoffeeAndAlcoholKeys` | api/filters.py:34-63 | `coffee` is an expectation key and not a sorting key; `alcohol` is a sorting key and not an expectation key. |
| `Filters.ParseKeys` | api/filters.py:30 | Every parsed key is non-empty, has no surrounding whitespace and contains no comma. |
| `Filters.ParseKeysSinglePiece` | api/filters.py:30 | A value without commas yields its stripped text as the only key, or no key when it is blank. |
| `Filters.ParseKeysConcat` | api/filters.py:30 | The keys of `a + "," + b` are the keys of `a` followed by the keys of `b`. |
| `Filters.NoKeysIffBlank` | api/filters.py:30-32 | No key is parsed exactly when the value holds only commas and whitespace. |
| `Filters.ParseCleanKey` | api/filters.py:30 | A clean key parses to itself alone. |
| `Filters.MatchesKeys` | api/filters.py:41-49 | The condition built key by key holds exactly when every recognised key's column is true. |
| `Filters.RecognisedAppendUnknown` | api/filters.py:43-47 | Appending unrecognised keys adds no condition. |
| `Filters.FilterByParsedKeys` | api/filters.py:41-49 | It keeps exactly the places that satisfy all recognised keys, and everything when there are no keys. |
| `Filters.FilterByKeys` | api/filters.py:28-49 | It keeps exactly the places whose columns for all recognised keys are true, and returns the queryset unchanged when no key is parsed. |
| `Filters.FilterByKeysIsSelect` | api/filters.py:28-49 | The key filter is an order-preserving selection by the conjunction of the recognised columns. |
| `Filters.FilterByKeysIdempotent` | api/filters.py:28-49 | Applying the same key filter twice gives the same result as applying it once. |
| `Filters.UnknownKeysIgnored` | api/filters.py:42-47 | Adding keys that no map knows leaves the result unchanged. |
| `Filters.AllUnknownKeepsAll` | api/filters.py:41-49 | When every key is unknown, the empty condition keeps every place. |
| `Filters.KeyOrderIrrelevant` | api/filters.py:42-45 | Swapping two comma-separated parts gives the same result. |
| `Filters.CoffeeIgnoredAsSortingTag` | api/filters.py:51-74 | Filtering sorting tags by `coffee` keeps every place. |
| `Filters.AlcoholIgnoredAsExpectation` | api/filters.py:28-49 | Filtering expectations by `alcohol` keeps every place. |
| `Filters.CategoryNameMatchesMeaning` | api/filters.py:26 | A match is a position where the lower-cased value occurs in one of the category's lower-cased names, in any language. |
| `Filters.FilterByCategoryName` | api/filters.py:20-26 | An empty value keeps everything. Otherwise it keeps exactly the places whose category name, in some language, contains the value ignoring case. |
| `Filters.CleanCategory` | api/filters.py:7 | An absent or empty `category` is no choice. Any other value is accepted exactly when `int()` (ASCII digits, no separators) reads it as the id of an existing category, and otherwise fails with an error on `category`. |
| `Filters.CleanText` | api/filters.py:8-14 | A text parameter is stripped of surrounding whitespace, and comes out empty exactly when it was all whitespace. |
| `Filters.CleanFilterParams` | api/filters.py:5-18 | The filter set is invalid exactly when `category` is invalid or a text parameter holds U+0000 after stripping. The errors then name exactly the failing parameters. Otherwise the category is an existing id and every text parameter is its stripped value. |
| `Filters.NullCharacterInvalidatesFilter` | api/filters.py:8 | A `category_name` holding U+0000 anywhere, even padded, fails the filter set, and only `category_name` is named. |
| `Filters.CleanedCategoryStage` | api/filters.py:7 | After cleaning, a non-empty `category` keeps exactly the places of the category whose id `int()` reads from it, and an absent or empty one keeps everything. |
| `Filters.CleanedCategoryNameStage` | api/filters.py:8-26 | After cleaning, a blank `category_name` keeps every place, and any other value keeps the places whose category name contains its stripped text, ignoring case. |
| `Filters.CategoryStageIsSelect` | api/filters.py:7 | On cleaned parameters, the `category` stage selects by category id, and its absence selects everything. |
| `Filters.CategoryNameStageIsSelect` | api/filters.py:8 | On cleaned parameters, the `category_name` stage is a selection by the name match, with empty or absent meaning no restriction. |
| `Filters.ExpectationsStageIsSelect` | api/filters.py:10-11 | The `expectations` stage is a selection by the recognised expectation columns. |
| `Filters.SortingTagsStageIsSelect` | api/filters.py:13-14 | The `sorting_tags` stage is a selection by the recognised sorting and region columns. |
| `Filters.ApplyPlaceFilterIsConjunction` | api/filters.py:5-74 | On cleaned parameters, the whole filter set keeps, in order, exactly the places that pass every present parameter. |
| `Presentation.ResolveTags` | api/serializers.py:150-166 | At most one entry per table row, and every row whose column is true yields one. Its label is the definition's name or `key.title()`, and its icon is the definition's icon or null. |
| `Presentation.ResolvedEntriesShown` | api/serializers.py:153-155 | Every entry comes from a table row whose column is true on the place. |
| `Presentation.ResolvedKeysFollowTable` | api/serializers.py:153-166 | The entry keys are exactly the keys of the true rows, in table order. |
| `Presentation.ResolvedKeysDistinct` | api/serializers.py:153-166 | When the table's keys are distinct, no key is emitted twice. |
| `Presentation.KeysIndependentOfDefinitions` | api/serializers.py:156-163 | Missing definitions change labels and icons, never which entries appear. |
| `Presentation.ExpectationKeysDistinct` | api/serializers.py:140-149 | The 17 expectation display keys are pairwise distinct. |
| `Presentation.SortingKeysDistinct` | api/serializers.py:170-178 | The 18 sorting display keys are pairwise distinct. |
| `Presentation.DisplayColumnsExist` | api/serializers.py:140-178 | Every column both display tables read exists, so the `getattr` default is never used. |
| `Presentation.ExpectationTablesAgree` | api/serializers.py:140-149 | Every expectation display row except `alcohol` is a key the filter maps to the same column; `alcohol` is not a filter key. |
| `Presentation.SortingTablesAgree` | api/serializers.py:170-178 | Every sorting display row except `coffee` is a key the filter maps to the same column; `coffee` is not a filter key. |
| `Presentation.ExpectationKeysAreWords` | api/serializers.py:140-149 | Every expectation display key is a non-empty run of ASCII letters, so it passes through the key parser unchanged. |
| `Presentation.SortingKeysAreWords` | api/serializers.py:170-178 | Every sorting display key is a non-empty run of ASCII letters. |
| `Presentation.DisplayedIffColumn` | api/serializers.py:153-166 | A row's key is among the entries exactly when the row's column is true. |
| `Presentation.ExpectationShownIffFiltered` | api/serializers.py:139-167 | For every expectation key but `alcohol`, the detail shows the key exactly when filtering by that key keeps the place. |
| `Presentation.SortingTagShownIffFiltered` | api/serializers.py:169-195 | For every sorting key but `coffee`, the detail shows the key exactly when filtering by that key keeps the place. |
| `Presentation.KeepsSingleIff` | api/filters.py:42-49 | Filtering a single place by one known key keeps it exactly when that key's column is true. |
| `Presentation.IsLiked` | api/serializers.py:226-238 | True exactly when the request sent a non-empty string device id that is in the liked list. The id comes from the body for POST and from the query string otherwise. |
| `Presentation.LikedReadsOneSource` | api/serializers.py:229-233 | A POST ignores the query string, and any other method ignores the body. |
| `Presentation.Detail` | api/serializers.py:71-98 | The detail shows the keys of the place's true columns in table order, each labelled from its definition. Its status is open exactly when today's first opening row contains "now". `is_liked` holds exactly when the request sent a non-empty device id that is on the liked list. |
| `Requests.CharField` | api/serializers.py:245-248 | Missing: required or left out. A string is stripped. It is rejected as blank exactly when it is all whitespace and blank is not allowed, and otherwise rejected exactly when the stripped text holds U+0000. An integer becomes its decimal text. Null is `None` or rejected. Booleans, lists and other values are invalid. |
| `Requests.IntegerItem` | api/serializers.py:244 | An integer is itself. A string is accepted exactly when `int()` reads it, giving that value; the framework's removal of a trailing `.0` is not modelled. Null is rejected. |
| `Requests.CharItems` | api/serializers.py:242-243 | The list validates exactly when every item does, and the values are the items' values in order. |
| `Requests.IntegerItems` | api/serializers.py:244 | The list validates exactly when every item does, and the values are the items' values in order. |
| `Requests.CharItemOfCleanString` | api/serializers.py:242-243 | A non-empty, already stripped string item without U+0000 is accepted as itself. |
| `Requests.CharList` | api/serializers.py:242-243 | A missing list defaults to empty, a non-list is rejected, and a list is validated item by item by the child `CharField`. Every accepted key is non-empty, stripped and free of U+0000. |
| `Requests.IntegerList` | api/serializers.py:244 | A missing list defaults to empty, a non-list is rejected, and a list is validated item by item by the child `IntegerField`, so `["5"]` gives `[5]`. A list of integers is accepted as itself. |
| `Requests.ValidateLike` | api/serializers.py:247-248 | A missing `device_id` is required, a null one is rejected as null, and a Boolean, list or other value is invalid. An integer id becomes its decimal text. A string id is accepted exactly when it is not blank and holds no U+0000 once stripped, and is stripped. Every accepted id is non-empty, stripped and free of U+0000. |
| `Requests.LikeRejectsNullCharacter` | api/serializers.py:248 | A string id holding U+0000 anywhere, even padded, is refused with the null-character error. |
| `Requests.ValidateWheelSpin` | api/serializers.py:240-245 | The request is valid exactly when each of its four fields validates on its own, and then it holds the fields' values. Otherwise the errors name exactly the failing fields. |
| `Requests.WheelSpinDefaults` | api/serializers.py:241-245 | Missing lists default to empty and a missing device id to none. Accepted keys are clean, and an empty body is valid. |
| `Requests.WheelSpinRejectsBlankKey` | api/serializers.py:241 | A `region_keys` list holding a blank string fails the request, and the errors name `region_keys`. |
| `Requests.WheelSpinRoundTrip` | api/serializers.py:241-245 | A body of clean string keys, integer category ids and no `device_id` validates to exactly those lists and no device. |
| `Requests.IntegersRoundTrip` | api/serializers.py:244 | A list of integers validates back to the same integers. |
| `Requests.LikeAcceptsCleanId` | api/serializers.py:248 | A non-empty, stripped string id without U+0000 is accepted unchanged. |
| `Requests.LikeAcceptsIntegerId` | api/serializers.py:248 | An integer id is accepted as its decimal text, which reads back as the integer. |
| `Requests.CleanKeysRoundTrip` | api/serializers.py:242-243 | Sending clean keys (non-empty, stripped, free of U+0000) as strings validates back to the same keys. |
| `PyText.Strip` | api/filters.py:30 | The result has no surrounding whitespace and is the middle slice of the input, with only whitespace cut from either end. |
| `PyText.StripEmptyIffBlank` | api/filters.py:30 | Stripping gives the empty string exactly when the text is all whitespace. |
| `PyText.JoinSplit` | api/filters.py:30 | Splitting on commas loses nothing: joining the pieces with commas gives back the value. |
| `PyText.SplitConcat` | api/filters.py:30 | Splitting `a + "," + b` gives the pieces of `a` followed by those of `b`. |
| `PyText.TitleShape` | api/serializers.py:160 | The title-cased text keeps its length. A letter starting a run of letters becomes its own upper-case form, later letters of the run become their own lower-case forms, and non-letters are unchanged. |
| `PyText.StripKeeps` | api/filters.py:30 | A character that is not whitespace occurs in the stripped text exactly when it occurs in the original. |
| `PyText.TitleIdempotent` | api/serializers.py:160 | Title-casing twice is the same as once. |
| `PyText.Contains` | api/filters.py:26 | Substring search holds exactly when the needle occurs at some position. |
| `PyText.ParseInt` | api/serializers.py:244 | `int()` reads a value exactly when, once stripped, it is an optional sign followed by at least one ASCII digit and nothing else (no digit separators). |
| `PyText.ParseIntRejects` | api/serializers.py:244 | A stripped value with a character that is neither an ASCII digit nor a leading sign, such as `abc`, `1x` or `1_0`, is refused. |
| `PyText.DecimalRoundTrip` | api/serializers.py:244 | Reading an integer's decimal text with `int()` gives the integer back. |
| `PyText.ParseUnsigned` | api/serializers.py:244 | `int()` of a run of decimal digits is the number they spell. |
| `PyText.ParseNegative` | api/serializers.py:244 | `int()` of a minus sign followed by digits is the negated number. |
| `Views.ActivePlaces` | api/views.py:47 | It keeps exactly the places with `is_active` set. |
| `Views.ListPlaces` | api/views.py:33-53 | An invalid filter set is a 400 naming exactly the failing parameters. Otherwise the list keeps exactly the active places that pass the cleaned filter set. |
| `Views.GetObject` | api/views.py:67 | None exactly when no place in the queryset has the key. Otherwise it is a queryset member with that key. |
| `Views.ToggleLike` | api/views.py:71-76 | A device not in the list is appended and reported liked. Otherwise its first occurrence is removed and the other entries keep their order, so the multiset loses one copy. |
| `Views.ToggleTwiceRestores` | api/views.py:72-76 | Liking then unliking restores the list and reports unliked. |
| `Views.ToggleKeepsNoDup` | api/views.py:72-76 | A duplicate-free list stays duplicate-free. |
| `Views.ToggleReportsMembership` | api/views.py:71-78 | On a duplicate-free list, the reported flag is exactly whether the device is in the new list. |
| `Views.ToggleWithRepeatKeepsDevice` | api/views.py:72-73 | A device listed twice is removed once, so it is still in the list after "unliking". |
| `Views.Like` | api/views.py:65-79 | An invalid filter parameter and then not found come before validation, and invalid input leaves the place alone. A found place with a valid id is always liked or unliked. Then the place is an active one with that key, and only its liked list changes: the id is appended, or its first occurrence is removed with the order kept. The flag says which, and the count is the new list's length. |
| `Views.LikeAgreesWithDetail` | api/views.py:72-78 | After a like, the detail's `is_liked` for the same device agrees with the reported flag. |
| `Views.SpinColumn` | api/views.py:118-131 | A mapped key selects its mapped column. Any other key selects itself exactly when it names a Boolean column, and nothing otherwise. |
| `Views.FilterEachKeyIsSelect` | api/views.py:118-131 | Filtering key by key selects exactly the places whose selected columns are all true. |
| `Views.SpinCandidatesAreMatches` | api/views.py:113-131 | The spin candidates are exactly the active places in an allowed category whose expectation and region columns hold, in order. An empty category list allows all. |
| `Views.SerializerContext` | api/views.py:82-87 | The context exists exactly when the base class defines `get_serializer_context`, and then it carries the request. |
| `Views.SpinWithContext` | api/views.py:108-141 | Invalid input gives 400 with the failing fields. For valid input a place is found exactly when some place matches, and it is a matching place's detail; otherwise the answer is the fixed no-match message. |
| `Views.SpinOnBase` | api/views.py:82-107 | On a view extending `APIView` every spin is a server error; on one extending `GenericAPIView` none is. |
| `Views.WheelSpinAsWritten` | api/views.py:82-107 | As written, every wheel-spin request ends in a server error. |
| `Views.WheelSpin` | api/views.py:105-141 | Invalid input gives 400 with the failing fields. A found place is a matching place's detail, serialized with the POST request, so `is_liked` says whether the body's device liked it. Not found happens exactly when valid input matches nothing, with the fixed message. It is never a server error. |
| `Views.DetailLikedIsSender` | api/serializers.py:229-238 | With the POST request in the context, `is_liked` holds exactly when the body's `device_id`, as sent, is a non-empty string on the liked list. |
| `Views.WheelSpinAlwaysFails` | api/views.py:82-107 | For every input the code as written answers differently from the intended view. |
| `Views.SpinHonoursAlcohol` | api/views.py:123-124 | As a wheel expectation key, `alcohol` filters the `alcohol` column through the fallback. |
| `Views.SpinHonoursIsActive` | api/views.py:130-131 | As a wheel region key, `is_active` is accepted through the fallback. |
| `Views.EmptySpinMatchesActive` | api/views.py:113-131 | A request naming nothing matches exactly the active places. |
| `AutoTranslate.TargetLanguages` | api/management/commands/auto_translate_content.py:50-62 | Targets are never the source and are always configured. Explicit codes give exactly the valid ones among them, in the order given, and fail with the fixed error exactly when none is valid. Without explicit codes, the targets are the configured codes except the source, in configured order. |
| `AutoTranslate.TranslateField` | api/management/commands/auto_translate_content.py:121-149 | At most one call per listed language. Only this field in the listed languages can change, and nothing changes unless something was written. |
| `AutoTranslate.FieldWritesAccepted` | api/management/commands/auto_translate_content.py:130-135 | Every changed value is the service's accepted answer for that language. |
| `AutoTranslate.FieldKeepsFilled` | api/management/commands/auto_translate_content.py:123-125 | Without `--force-update`, a translation that has non-blank text is never replaced. |
| `AutoTranslate.FieldWroteIff` | api/management/commands/auto_translate_content.py:125-135 | A write is reported exactly when some listed language needed translating and its answer was accepted. |
| `AutoTranslate.FieldHoldsAnswer` | api/management/commands/auto_translate_content.py:132-134 | Each such language ends up holding the accepted answer. |
| `AutoTranslate.FieldCallCount` | api/management/commands/auto_translate_content.py:125-128 | With no code listed twice, the calls equal the number of target languages that were blank, or all of them when forced. |
| `AutoTranslate.CaseVariantRejected` | api/management/commands/auto_translate_content.py:132 | An answer that equals the source once both are lower-cased (and neither has surrounding whitespace) is dropped. |
| `AutoTranslate.DifferentLengthAccepted` | api/management/commands/auto_translate_content.py:132 | A non-empty answer of a different length from the source is kept. |
| `AutoTranslate.DuplicateCodeSentOnce` | api/management/commands/auto_translate_content.py:121-135 | A code listed twice is sent once when the first answer is kept and is not blank. |
| `AutoTranslate.DuplicateCodeForcedTwice` | api/management/commands/auto_translate_content.py:125-128 | With `--force-update`, a code listed twice is sent twice. |
| `AutoTranslate.TranslateInstance` | api/management/commands/auto_translate_content.py:110-149 | At most one call per field and language. Only the configured fields in target languages can change, and nothing changes unless a save is needed. |
| `AutoTranslate.InstanceWritesAccepted` | api/management/commands/auto_translate_content.py:112-135 | Every changed value is in a target language for a field with non-blank source text, and is the accepted answer for that text. |
| `AutoTranslate.InstanceKeepsFilled` | api/management/commands/auto_translate_content.py:121-125 | Without `--force-update`, no non-blank translation of any field changes. |
| `AutoTranslate.InstanceHoldsAnswers` | api/management/commands/auto_translate_content.py:110-135 | With distinct fields, every field and target language that needs a translation and gets an accepted answer ends up holding that answer. |
| `AutoTranslate.InstanceWroteIff` | api/management/commands/auto_translate_content.py:110-135 | With distinct fields, the instance run reports a write exactly when some field and target language need a translation and get an accepted answer. |
| `AutoTranslate.BlankSourcesSkipped` | api/management/commands/auto_translate_content.py:113-119 | When every source text is missing or blank, there are no calls, no changes and no save. |
| `AutoTranslate.InstanceOutcome` | api/management/commands/auto_translate_content.py:101-157 | Out-of-scope instances are untouched. An instance is stored changed exactly when a field was written and its save succeeded; otherwise the stored instance stays as it was. |
| `AutoTranslate.TranslateModel` | api/management/commands/auto_translate_content.py:104-157 | Each stored instance is that instance's own outcome, whatever happened to the others. |
| `AutoTranslate.RunSavesCounted` | api/management/commands/auto_translate_content.py:151-157 | In any pass over instances, the save count is the number of instances whose outcome was a save. |
| `AutoTranslate.ModelSavesCounted` | api/management/commands/auto_translate_content.py:151-157 | The save count is the number of instances whose save went through. |
| `AutoTranslate.TranslateModels` | api/management/commands/auto_translate_content.py:89-104 | The store keeps its models and their instance counts, and a run over unknown keys only changes nothing. |
| `AutoTranslate.PassTotalsFrame` | api/management/commands/auto_translate_content.py:151-157 | The summed saves and calls depend only on the instances of the requested models. |
| `AutoTranslate.ModelsRunEach` | api/management/commands/auto_translate_content.py:89-104 | With no key requested twice, each known requested model ends up as its own pass over its original instances made it, and every other model is untouched. |
| `AutoTranslate.ModelsTotals` | api/management/commands/auto_translate_content.py:151-157 | With no key requested twice, the saves and calls are the sums over the passes of the known requested models. |
| `AutoTranslate.UnknownModelsIgnored` | api/management/commands/auto_translate_content.py:89-92 | A run is the same as the run over the known model keys alone. |
| `AutoTranslate.OtherLanguagesKept` | api/management/commands/auto_translate_content.py:121-134 | No text in a language that is not a target changes. |
| `AutoTranslate.ModelKeys` | api/management/commands/auto_translate_content.py:13-16 | `--models` values are lower-cased, and the four configured models are the default. |
| `AutoTranslate.Handle` | api/management/commands/auto_translate_content.py:49-160 | The command fails exactly when no target language is valid. Otherwise the store keeps its shape, only text in the chosen target languages can change, and no source-language text changes. With no model key given twice, each requested model is its own pass over its instances with the chosen targets, and the saves and calls are the sums over those passes. |
| `AutoTranslate.ModelFieldsDistinct` | api/management/commands/auto_translate_content.py:69-74 | No model lists a text field twice. |
| `AutoTranslate.HandleWritesAnswers` | api/management/commands/auto_translate_content.py:89-157 | After a successful run, an in-scope instance of a requested model whose run wrote and whose save went through holds the accepted answer for every field and target language that needed one. |

## Left out

- Storage, query evaluation, prefetching and the search and ordering back ends are left out.
  A queryset is a sequence in database order. The ordering of places by creation time and
  translated name is not modelled, and neither is the row duplication a join on translations
  can cause.
- Translation fallback (django-parler) is left out. A text is read in exactly the requested
  language, and a missing translation reads as nothing.
- Unicode case mapping is left out. `lower` and `title` map only ASCII letters, and every
  display key is ASCII letters, which `Presentation.ExpectationKeysAreWords` and
  `Presentation.SortingKeysAreWords` prove.
- `FilterOptionsView`, which shares the wheel spin's base class and so its context failure, the list and detail serializers' other fields (location, contact
  information, social media, icon keys), `retrieve` and the admin are left out. They only
  copy fields.
- The clock is left out: "now" and "today" are inputs of `WorkingHours.GetWorkingHoursStatus`.
  Times are whole seconds of the day, and sub-second precision is dropped.
- `WorkingHours.GetWorkingHoursStatus`: the status texts are their identities (`Open`,
  `Closed`, `Opens at <time>`), not their translations.
- Randomness is a parameter. `Views.WheelSpin` takes any chooser that returns an index in the
  range it is given, and the `count > 0` re-check after `exists()` is folded into one test.
- `Views.Like` does not model the save failing: the view does not catch it, so the request
  fails as a whole. Concurrent likes of the same place are not modelled either.
- `Views.SpinColumn` does not model a name that is a class attribute of `Place` but not a
  field. The source raises on such a key; here it simply selects nothing.
- `Requests.CharField` does not model maximum or minimum lengths, which the serializers do not
  set. A request body that is not a JSON object, form-encoded input and the error message
  texts are left out.
- `Requests.CharField` rejects a JSON float, while Django REST framework accepts it as
  `str()` of the float. Python's float-to-text formatting is floating point and is not
  modelled.
- `Requests.IntegerItem` does not model Django REST framework removing a trailing `.0`,
  `.` or `.00` (and the whitespace after it) before calling `int()`. So the strings `"5.0"` and
  `"7."` and the JSON float `5.0` are refused here, while the framework accepts them as 5 and
  7. It also refuses digit separators and non-ASCII digits, and does not enforce the input
  length limit.
- `PyText.ParseInt`, and with it `PyText.ParseIntRejects` and `Filters.CleanCategory`, reads
  ASCII digits only. Python's `int()` also accepts single underscores between digits
  (`int("1_0") == 10`) and any Unicode decimal digit (`int("١٢") == 12`). The model refuses
  those values, so it promises less than Python for them. The Unicode digit tables are not
  modelled.
- `PyText.ParseIntRejects` counts `_` and every non-ASCII digit as a rejecting character. So
  for `1_0` or `١٢` it claims a refusal that Python's `int()` does not make.
- `Filters.CleanCategory` reads the `category` value with the ASCII-only `PyText.ParseInt`. So
  a category id written with an underscore or with non-ASCII digits is refused, while the
  integer primary-key lookup would find the category.
- `Presentation.IsLiked` does not model a liked list holding values that are not strings. The
  like view only ever stores validated strings there.
- `Filters.FilterByCategoryName` does not model `.distinct()`. A place appears once in a
  sequence however many of its category names match.
- The command's `--delay` sleep, everything it writes to stdout and stderr, and the item
  identifier it prints are left out. The translation service is a parameter, and so is
  whether saving an instance succeeds; a failed save is counted as not saved.

## Findings

| source | as written | input that shows it | evidently intended | confidence | as-written member | corrected member |
|---|---|---|---|---|---|---|
| api/views.py:82-107 | `BaseParlerAPIView` extends `APIView` and its `get_serializer_context` calls `super().get_serializer_context()`, which `APIView` does not define. `WheelSpinView.post` calls it first, so every request raises AttributeError and is answered with a server error. | Any POST to the wheel spin, for example an empty body while one place is active. | The base class supplies the context, as `GenericAPIView` does. The spin then answers 400, the chosen place's detail serialized with the request, or the no-match message. | high, not executed | `Views.WheelSpinAsWritten`, shown by `Views.WheelSpinAlwaysFails` | `Views.WheelSpin` |

=== FILE: auto_translate.dfy ===
/** The `auto_translate_content` management command
    (api/management/commands/auto_translate_content.py): for each configured model and each
    instance, translate every text field from the source language into each target language
    that needs it, keep the translations that look real, and save the instance when something
    was written. The translation service and the outcome of saving are parameters. */
module AutoTranslate {
  import opened Common
  import opened PyText

  /** A translatable instance: its primary key and its text per (language, field). A missing
      entry is a missing translation or a null field. */
  datatype Instance = Instance(pk: int, text: map<(string, string), string>)

  /** `--models` when it is not given. */
  const DefaultModels: seq<string> := ["place", "category", "expectationdefinition", "sorttagdefinition"]

  /** `models_config`: the text fields translated for each model key. */
  const ModelFields: map<string, seq<string>> := map[
    "category" := ["name"],
    "place" := ["name", "description"],
    "expectationdefinition" := ["name"],
    "sorttagdefinition" := ["name"]]

  const NoTargetsError := "No valid target languages specified or all are source language. Check settings.LANGUAGES."

  /** An explicit code is a target when it is configured and is not the source. */
  function ValidTarget(source: string, configured: seq<string>): string -> bool {
    (lc: string) => lc != source && lc in configured
  }

  /** A configured code is a default target when it is not the source. */
  function NotSource(source: string): string -> bool {
    (c: string) => c != source
  }

  /** Target languages: the explicit codes that are configured and not the source, in the
      order given (an error when none is left), or every configured code except the source. An
      empty explicit list counts as not given. */
  function TargetLanguages(explicit: Option<seq<string>>, configured: seq<string>, source: string): (r: Result<seq<string>, string>)
    ensures r.Success? ==> forall i :: 0 <= i < |r.value| ==> r.value[i] != source && r.value[i] in configured
    ensures explicit.Some? && explicit.value != [] ==>
      (r.Failure? <==> forall lc :: lc in explicit.value ==> lc == source || lc !in configured)
    ensures explicit.Some? && explicit.value != [] && r.Success? ==>
      && (forall i :: 0 <= i < |r.value| ==> r.value[i] in explicit.value)
      && r.value == Select(explicit.value, ValidTarget(source, configured))
    ensures (explicit.None? || explicit.value == []) ==>
      r == Success(Select(configured, NotSource(source)))
    ensures r.Failure? ==> r.error == NoTargetsError
  {
    if explicit.Some? && explicit.value != [] then
      var valid := Select(explicit.value, ValidTarget(source, configured));
      if valid == [] then Failure(NoTargetsError)
      else
        assert valid[0] in explicit.value;
        Success(valid)
    else Success(Select(configured, NotSource(source)))
  }

  /** The text of `field` in `lang`, if there is any. */
  function Read(inst: Instance, lang: string, field: string): Option<string> {
    if (lang, field) in inst.text then Some(inst.text[(lang, field)]) else None
  }

  function Write(inst: Instance, lang: string, field: string, value: string): Instance {
    inst.(text := inst.text[(lang, field) := value])
  }

  /** `not x or not str(x).strip()`: missing, empty or whitespace only. */
  predicate Blank(v: Option<string>) {
    v.None? || AllSpace(v.value)
  }

  /** A field in a target language is sent for translation when forced or when it is blank. */
  predicate NeedsTranslation(force: bool, current: Option<string>) {
    force || Blank(current)
  }

  /** A translation is kept when the service returned a non-empty text that differs from the
      source once both are stripped and lower-cased. */
  predicate Accepted(t: Option<string>, source: string) {
    t.Some? && t.value != "" && Lower(Strip(t.value)) != Lower(Strip(source))
  }

  /** The translation service: (text, target language, source language) to a text, or nothing on failure. */
  type Translator = (string, string, string) -> Option<string>

  /** What processing a field or an instance produced. */
  datatype Run = Run(inst: Instance, calls: nat, wrote: bool)

  /** The loop over target languages for one field whose source text is `src`. Every attempt
      is one call; an accepted result is written at once, so a code listed twice sees the
      first occurrence's write. */
  function TranslateField(inst: Instance, field: string, src: string, source: string, langs: seq<string>, force: bool, translate: Translator): (r: Run)
    ensures r.calls <= |langs|
    ensures r.inst.pk == inst.pk
    ensures forall l, f :: l !in langs || f != field ==> Read(r.inst, l, f) == Read(inst, l, f)
    ensures !r.wrote ==> r.inst == inst
    decreases |langs|
  {
    if langs == [] then Run(inst, 0, false)
    else
      var lang := langs[0];
      if NeedsTranslation(force, Read(inst, lang, field)) then
        var t := translate(src, lang, source);
        var next := if Accepted(t, src) then Write(inst, lang, field, t.value) else inst;
        var rest := TranslateField(next, field, src, source, langs[1..], force, translate);
        Run(rest.inst, rest.calls + 1, Accepted(t, src) || rest.wrote)
      else
        var rest := TranslateField(inst, field, src, source, langs[1..], force, translate);
        Run(rest.inst, rest.calls, rest.wrote)
  }

  /** Whatever the loop changed holds the service's accepted answer for that language. */
  lemma {:induction false} FieldWritesAccepted(inst: Instance, field: string, src: string, source: string, langs: seq<string>, force: bool, translate: Translator)
    ensures var r := TranslateField(inst, field, src, source, langs, force, translate);
      forall l :: Read(r.inst, l, field) != Read(inst, l, field) ==>
        l in langs && Accepted(translate(src, l, source), src) && Read(r.inst, l, field) == translate(src, l, source)
    decreases |langs|
  {
    if langs != [] {
      var lang := langs[0];
      var t := translate(src, lang, source);
      var attempted := NeedsTranslation(force, Read(inst, lang, field));
      var next := if attempted && Accepted(t, src) then Write(inst, lang, field, t.value) else inst;
      FieldWritesAccepted(next, field, src, source, langs[1..], force, translate);
    }
  }

  /** Without `--force-update` a translation that already has text is neither sent nor replaced. */
  lemma {:induction false} FieldKeepsFilled(inst: Instance, field: string, src: string, source: string, langs: seq<string>, translate: Translator)
    ensures var r := TranslateField(inst, field, src, source, langs, false, translate);
      forall l :: !Blank(Read(inst, l, field)) ==> Read(r.inst, l, field) == Read(inst, l, field)
    decreases |langs|
  {
    if langs != [] {
      var lang := langs[0];
      var t := translate(src, lang, source);
      var attempted := NeedsTranslation(false, Read(inst, lang, field));
      var next := if attempted && Accepted(t, src) then Write(inst, lang, field, t.value) else inst;
      FieldKeepsFilled(next, field, src, source, langs[1..], translate);
    }
  }

  /** The loop reports a write exactly when some listed language needed a translation and the
      service's answer for it was accepted. */
  lemma {:induction false} FieldWroteIff(inst: Instance, field: string, src: string, source: string, langs: seq<string>, force: bool, translate: Translator)
    ensures TranslateField(inst, field, src, source, langs, force, translate).wrote
      <==> exists l :: l in langs && NeedsTranslation(force, Read(inst, l, field)) && Accepted(translate(src, l, source), src)
    decreases |langs|
  {
    if langs != [] {
      var lang := langs[0];
      var t := translate(src, lang, source);
      var attempted := NeedsTranslation(force, Read(inst, lang, field));
      var next := if attempted && Accepted(t, src) then Write(inst, lang, field, t.value) else inst;
      FieldWroteIff(next, field, src, source, langs[1..], force, translate);
      if !(attempted && Accepted(t, src)) {
        assert next == inst;
        forall l | l in langs && NeedsTranslation(force, Read(inst, l, field)) && Accepted(translate(src, l, source), src)
          ensures l in langs[1..]
        {
        }
      }
    }
  }

  /** A language that needed a translation and got an accepted answer ends up holding it. */
  lemma {:induction false} FieldHoldsAnswer(inst: Instance, field: string, src: string, source: string, langs: seq<string>, force: bool, translate: Translator)
    ensures var r := TranslateField(inst, field, src, source, langs, force, translate);
      forall l :: l in langs && NeedsTranslation(force, Read(inst, l, field)) && Accepted(translate(src, l, source), src) ==>
        Read(r.inst, l, field) == translate(src, l, source)
    decreases |langs|
  {
    if langs != [] {
      var lang := langs[0];
      var t := translate(src, lang, source);
      var attempted := NeedsTranslation(force, Read(inst, lang, field));
      var next := if attempted && Accepted(t, src) then Write(inst, lang, field, t.value) else inst;
      FieldHoldsAnswer(next, field, src, source, langs[1..], force, translate);
      FieldWritesAccepted(next, field, src, source, langs[1..], force, translate);
      forall l | l != lang ensures Read(next, l, field) == Read(inst, l, field) {
      }
      if attempted && Accepted(t, src) {
        assert Read(next, lang, field) == t;
      }
    }
  }

  /** With no code listed twice, the number of calls is the number of target languages the
      field needed a translation in when the run started. */
  lemma {:induction false} FieldCallCount(inst: Instance, field: string, src: string, source: string, langs: seq<string>, force: bool, translate: Translator)
    requires NoDup(langs)
    ensures TranslateField(inst, field, src, source, langs, force, translate).calls
      == |Select(langs, (l: string) => NeedsTranslation(force, Read(inst, l, field)))|
    decreases |langs|
  {
    if langs != [] {
      var lang := langs[0];
      var t := translate(src, lang, source);
      var attempted := NeedsTranslation(force, Read(inst, lang, field));
      var next := if attempted && Accepted(t, src) then Write(inst, lang, field, t.value) else inst;
      NoDupTail(langs);
      FieldCallCount(next, field, src, source, langs[1..], force, translate);
      NeedsUnchangedElsewhere(inst, next, field, force, lang, langs[1..]);
    }
  }

  /** A write to one language leaves which of the other languages need a translation as it was. */
  lemma NeedsUnchangedElsewhere(inst: Instance, next: Instance, field: string, force: bool, lang: string, others: seq<string>)
    requires lang !in others
    requires forall l :: l != lang ==> Read(next, l, field) == Read(inst, l, field)
    ensures Select(others, (l: string) => NeedsTranslation(force, Read(next, l, field)))
      == Select(others, (l: string) => NeedsTranslation(force, Read(inst, l, field)))
  {
    SelectCongruent(others, (l: string) => NeedsTranslation(force, Read(next, l, field)),
                    (l: string) => NeedsTranslation(force, Read(inst, l, field)));
  }

  /** An answer that differs from the source only in letter case is discarded. */
  lemma CaseVariantRejected(t: string, source: string)
    requires Trimmed(t) && Trimmed(source) && Lower(t) == Lower(source)
    ensures !Accepted(Some(t), source)
  {
    StripTrimmed(t);
    StripTrimmed(source);
  }

  /** A non-empty answer whose length differs from the source's, neither having surrounding
      whitespace, is kept. */
  lemma DifferentLengthAccepted(t: string, source: string)
    requires t != [] && Trimmed(t) && Trimmed(source) && |t| != |source|
    ensures Accepted(Some(t), source)
  {
    StripTrimmed(t);
    StripTrimmed(source);
    assert |Lower(t)| != |Lower(source)|;
  }

  /** A code listed twice is sent once when the first answer is kept and is not blank: the
      second occurrence then finds the field filled. */
  lemma DuplicateCodeSentOnce(inst: Instance, field: string, src: string, source: string, lang: string, translate: Translator)
    requires Blank(Read(inst, lang, field))
    requires Accepted(translate(src, lang, source), src) && !AllSpace(translate(src, lang, source).value)
    ensures TranslateField(inst, field, src, source, [lang, lang], false, translate).calls == 1
  {
    var next := Write(inst, lang, field, translate(src, lang, source).value);
    assert [lang, lang][1..] == [lang];
    assert !Blank(Read(next, lang, field));
    assert TranslateField(next, field, src, source, [lang], false, translate).calls == 0;
  }

  /** With `--force-update` a code listed twice is sent twice, whatever the field holds. */
  lemma DuplicateCodeForcedTwice(inst: Instance, field: string, src: string, source: string, lang: string, translate: Translator)
    ensures TranslateField(inst, field, src, source, [lang, lang], true, translate).calls == 2
  {
    assert [lang, lang][1..] == [lang];
  }

  /** One instance: each configured field whose source-language text is present and not blank
      goes through the language loop; the instance needs saving when any field was written. */
  function TranslateInstance(inst: Instance, fields: seq<string>, source: string, langs: seq<string>, force: bool, translate: Translator): (r: Run)
    ensures r.calls <= |fields| * |langs|
    ensures r.inst.pk == inst.pk
    ensures forall l, f :: l !in langs || f !in fields ==> Read(r.inst, l, f) == Read(inst, l, f)
    ensures !r.wrote ==> r.inst == inst
    decreases |fields|
  {
    if fields == [] then Run(inst, 0, false)
    else
      var src := Read(inst, source, fields[0]);
      if Blank(src) then
        var rest := TranslateInstance(inst, fields[1..], source, langs, force, translate);
        Run(rest.inst, rest.calls, rest.wrote)
      else
        var first := TranslateField(inst, fields[0], src.value, source, langs, force, translate);
        var rest := TranslateInstance(first.inst, fields[1..], source, langs, force, translate);
        assert |fields| * |langs| == |langs| + (|fields| - 1) * |langs|;
        Run(rest.inst, first.calls + rest.calls, first.wrote || rest.wrote)
  }

  /** Every value the instance run changed is an accepted answer for that field's source text,
      in a target language; the source language itself is never written. */
  lemma {:induction false} InstanceWritesAccepted(inst: Instance, fields: seq<string>, source: string, langs: seq<string>, force: bool, translate: Translator)
    requires source !in langs
    ensures var r := TranslateInstance(inst, fields, source, langs, force, translate);
      forall l, f :: Read(r.inst, l, f) != Read(inst, l, f) ==>
        l in langs && f in fields && !Blank(Read(inst, source, f))
        && Accepted(translate(Read(inst, source, f).value, l, source), Read(inst, source, f).value)
        && Read(r.inst, l, f) == translate(Read(inst, source, f).value, l, source)
    decreases |fields|
  {
    if fields != [] {
      var field := fields[0];
      var src := Read(inst, source, field);
      if Blank(src) {
        InstanceWritesAccepted(inst, fields[1..], source, langs, force, translate);
      } else {
        var first := TranslateField(inst, field, src.value, source, langs, force, translate);
        FieldWritesAccepted(inst, field, src.value, source, langs, force, translate);
        InstanceWritesAccepted(first.inst, fields[1..], source, langs, force, translate);
        forall f ensures Read(first.inst, source, f) == Read(inst, source, f) {
        }
      }
    }
  }

  /** Without `--force-update` no non-blank translation of any field changes. */
  lemma {:induction false} InstanceKeepsFilled(inst: Instance, fields: seq<string>, source: string, langs: seq<string>, translate: Translator)
    ensures var r := TranslateInstance(inst, fields, source, langs, false, translate);
      forall l, f :: !Blank(Read(inst, l, f)) ==> Read(r.inst, l, f) == Read(inst, l, f)
    decreases |fields|
  {
    if fields != [] {
      var field := fields[0];
      var src := Read(inst, source, field);
      if Blank(src) {
        InstanceKeepsFilled(inst, fields[1..], source, langs, translate);
      } else {
        var first := TranslateField(inst, field, src.value, source, langs, false, translate);
        FieldKeepsFilled(inst, field, src.value, source, langs, translate);
        InstanceKeepsFilled(first.inst, fields[1..], source, langs, translate);
      }
    }
  }

  /** Fields whose source text is missing or blank cost no call and change nothing. */
  lemma {:induction false} BlankSourcesSkipped(inst: Instance, fields: seq<string>, source: string, langs: seq<string>, force: bool, translate: Translator)
    requires forall f :: f in fields ==> Blank(Read(inst, source, f))
    ensures TranslateInstance(inst, fields, source, langs, force, translate) == Run(inst, 0, false)
    decreases |fields|
  {
    if fields != [] {
      assert fields[0] in fields;
      BlankSourcesSkipped(inst, fields[1..], source, langs, force, translate);
    }
  }

  /** Field `f` of `inst` gets translated into `l`: its source text is present and not blank,
      the target needs a translation, and the service's answer is accepted. */
  predicate Translatable(inst: Instance, f: string, l: string, source: string, force: bool, translate: Translator) {
    && !Blank(Read(inst, source, f))
    && NeedsTranslation(force, Read(inst, l, f))
    && Accepted(translate(Read(inst, source, f).value, l, source), Read(inst, source, f).value)
  }

  /** The service's answer for field `f` of `inst` in language `l`. */
  function Answer(inst: Instance, f: string, l: string, source: string, translate: Translator): Option<string>
    requires Read(inst, source, f).Some?
  {
    translate(Read(inst, source, f).value, l, source)
  }

  /** With distinct fields, every field and target language that needs a translation and gets
      an accepted answer ends up holding that answer after the instance run. */
  lemma {:induction false} InstanceHoldsAnswers(inst: Instance, fields: seq<string>, source: string, langs: seq<string>, force: bool, translate: Translator)
    requires NoDup(fields) && source !in langs
    ensures var r := TranslateInstance(inst, fields, source, langs, force, translate);
      forall f, l :: f in fields && l in langs && Translatable(inst, f, l, source, force, translate) ==>
        Read(r.inst, l, f) == Answer(inst, f, l, source, translate)
    decreases |fields|
  {
    if fields != [] {
      var field := fields[0];
      var src := Read(inst, source, field);
      NoDupTail(fields);
      if Blank(src) {
        InstanceHoldsAnswers(inst, fields[1..], source, langs, force, translate);
        forall f, l | f in fields && l in langs && Translatable(inst, f, l, source, force, translate)
          ensures f in fields[1..]
        {
        }
      } else {
        var first := TranslateField(inst, field, src.value, source, langs, force, translate);
        var r := TranslateInstance(inst, fields, source, langs, force, translate);
        assert r.inst == TranslateInstance(first.inst, fields[1..], source, langs, force, translate).inst;
        FieldHoldsAnswer(inst, field, src.value, source, langs, force, translate);
        InstanceHoldsAnswers(first.inst, fields[1..], source, langs, force, translate);
        forall f, l | f in fields && l in langs && Translatable(inst, f, l, source, force, translate)
          ensures Read(r.inst, l, f) == Answer(inst, f, l, source, translate)
        {
          assert Read(first.inst, source, f) == Read(inst, source, f);
          if f == field {
            assert f !in fields[1..];
          } else {
            assert f in fields[1..];
            assert Translatable(first.inst, f, l, source, force, translate);
          }
        }
      }
    }
  }

  /** With distinct fields, the instance run reports a write exactly when some field and target
      language need a translation and get an accepted answer. */
  lemma {:induction false} InstanceWroteIff(inst: Instance, fields: seq<string>, source: string, langs: seq<string>, force: bool, translate: Translator)
    requires NoDup(fields) && source !in langs
    ensures TranslateInstance(inst, fields, source, langs, force, translate).wrote <==>
      exists f, l :: f in fields && l in langs && Translatable(inst, f, l, source, force, translate)
    decreases |fields|
  {
    if fields != [] {
      var field := fields[0];
      var src := Read(inst, source, field);
      NoDupTail(fields);
      if Blank(src) {
        InstanceWroteIff(inst, fields[1..], source, langs, force, translate);
        if exists f, l :: f in fields && l in langs && Translatable(inst, f, l, source, force, translate) {
          var f, l :| f in fields && l in langs && Translatable(inst, f, l, source, force, translate);
          assert f in fields[1..];
        }
      } else {
        var first := TranslateField(inst, field, src.value, source, langs, force, translate);
        var r := TranslateInstance(inst, fields, source, langs, force, translate);
        assert r.wrote == (first.wrote || TranslateInstance(first.inst, fields[1..], source, langs, force, translate).wrote);
        FieldWroteIff(inst, field, src.value, source, langs, force, translate);
        InstanceWroteIff(first.inst, fields[1..], source, langs, force, translate);
        forall f, l | f != field
          ensures Read(first.inst, l, f) == Read(inst, l, f) && Read(first.inst, source, f) == Read(inst, source, f)
        {
        }
        if r.wrote {
          if first.wrote {
            var l :| l in langs && NeedsTranslation(force, Read(inst, l, field)) && Accepted(translate(src.value, l, source), src.value);
            assert Translatable(inst, field, l, source, force, translate);
          } else {
            var f, l :| f in fields[1..] && l in langs && Translatable(first.inst, f, l, source, force, translate);
            assert f != field;
            assert Translatable(inst, f, l, source, force, translate);
          }
        }
        if exists f, l :: f in fields && l in langs && Translatable(inst, f, l, source, force, translate) {
          var f, l :| f in fields && l in langs && Translatable(inst, f, l, source, force, translate);
          if f == field {
            assert l in langs && NeedsTranslation(force, Read(inst, l, field)) && Accepted(translate(src.value, l, source), src.value);
          } else {
            assert f in fields[1..];
            assert Translatable(first.inst, f, l, source, force, translate);
          }
        }
      }
    }
  }

  /** A queryset restricted by `--pks` when given. */
  predicate InScope(pks: Option<seq<int>>, pk: int) {
    pks.None? || pks.value == [] || pk in pks.value
  }

  /** The settings one run shares between all models. */
  datatype Settings = Settings(source: string, langs: seq<string>, force: bool, pks: Option<seq<int>>)

  /** What one instance becomes in the store: the translated instance when it needed saving and
      the save went through, the stored one otherwise (a failed save is reported and the run
      goes on). */
  datatype Outcome = Outcome(stored: Instance, calls: nat, saved: bool)

  function InstanceOutcome(model: string, inst: Instance, fields: seq<string>, s: Settings, translate: Translator, saveOk: (string, Instance) -> bool): (o: Outcome)
    ensures o.stored.pk == inst.pk
    ensures !InScope(s.pks, inst.pk) ==> o == Outcome(inst, 0, false)
    ensures o.saved ==>
      (InScope(s.pks, inst.pk)
       && o.stored == TranslateInstance(inst, fields, s.source, s.langs, s.force, translate).inst
       && saveOk(model, o.stored))
    ensures !o.saved ==> o.stored == inst
    ensures o.saved <==>
      (InScope(s.pks, inst.pk) && TranslateInstance(inst, fields, s.source, s.langs, s.force, translate).wrote
       && saveOk(model, TranslateInstance(inst, fields, s.source, s.langs, s.force, translate).inst))
  {
    if !InScope(s.pks, inst.pk) then Outcome(inst, 0, false)
    else
      var run := TranslateInstance(inst, fields, s.source, s.langs, s.force, translate);
      if run.wrote && saveOk(model, run.inst) then Outcome(run.inst, run.calls, true)
      else Outcome(inst, run.calls, false)
  }

  /** The stored instances of one model after its pass, with the calls and saves it made. */
  datatype ModelRun = ModelRun(stored: seq<Instance>, calls: nat, saves: nat)

  /** A pass over instances in queryset order, each handled by `outcome`; the calls and the
      successful saves are summed. */
  function RunInstances(instances: seq<Instance>, outcome: Instance -> Outcome): (r: ModelRun)
    ensures |r.stored| == |instances|
    ensures forall i :: 0 <= i < |instances| ==> r.stored[i] == outcome(instances[i]).stored
    ensures r.saves <= |instances|
  {
    if instances == [] then ModelRun([], 0, 0)
    else
      var o := outcome(instances[0]);
      var rest := RunInstances(instances[1..], outcome);
      assert forall i :: 1 <= i < |instances| ==> instances[i] == instances[1..][i - 1];
      ModelRun([o.stored] + rest.stored, o.calls + rest.calls, (if o.saved then 1 else 0) + rest.saves)
  }

  /** The saves of a pass are the instances whose outcome was a save. */
  lemma {:induction false} RunSavesCounted(instances: seq<Instance>, outcome: Instance -> Outcome)
    ensures RunInstances(instances, outcome).saves == |Select(instances, (inst: Instance) => outcome(inst).saved)|
  {
    if instances != [] {
      RunSavesCounted(instances[1..], outcome);
    }
  }

  /** `for instance in queryset`: every instance of one model goes through `InstanceOutcome`. */
  function TranslateModel(model: string, instances: seq<Instance>, fields: seq<string>, s: Settings, translate: Translator, saveOk: (string, Instance) -> bool): (r: ModelRun)
    ensures |r.stored| == |instances|
    ensures forall i :: 0 <= i < |instances| ==>
      r.stored[i] == InstanceOutcome(model, instances[i], fields, s, translate, saveOk).stored
    ensures r.saves <= |instances|
  {
    RunInstances(instances, (inst: Instance) => InstanceOutcome(model, inst, fields, s, translate, saveOk))
  }

  /** Whether an instance's save went through in the pass over `model`. */
  function SavedIn(model: string, fields: seq<string>, s: Settings, translate: Translator, saveOk: (string, Instance) -> bool): Instance -> bool {
    (inst: Instance) => InstanceOutcome(model, inst, fields, s, translate, saveOk).saved
  }

  /** Saves are counted once per instance whose save went through; a failed save costs the
      count nothing and does not stop the pass. */
  lemma ModelSavesCounted(model: string, instances: seq<Instance>, fields: seq<string>, s: Settings, translate: Translator, saveOk: (string, Instance) -> bool)
    ensures TranslateModel(model, instances, fields, s, translate, saveOk).saves
      == |Select(instances, SavedIn(model, fields, s, translate, saveOk))|
  {
    var outcome := (inst: Instance) => InstanceOutcome(model, inst, fields, s, translate, saveOk);
    RunSavesCounted(instances, outcome);
    SelectCongruent(instances, (inst: Instance) => outcome(inst).saved, SavedIn(model, fields, s, translate, saveOk));
  }

  /** The whole store: model key to its instances in queryset order. */
  type Store = map<string, seq<Instance>>

  datatype Report = Report(store: Store, calls: nat, saves: nat)

  /** The instances of `model` in the store; a key the store lacks has none. */
  function InstancesOf(store: Store, model: string): seq<Instance> {
    if model in store then store[model] else []
  }

  /** One known model's pass over its instances as they stand in `store`. */
  function ModelPass(store: Store, model: string, s: Settings, translate: Translator, saveOk: (string, Instance) -> bool): ModelRun
    requires model in ModelFields
  {
    TranslateModel(model, InstancesOf(store, model), ModelFields[model], s, translate, saveOk)
  }

  /** Reference totals over the requested keys: each known key's pass on the store as given,
      its saves and its calls summed. */
  function PassSaves(store: Store, models: seq<string>, s: Settings, translate: Translator, saveOk: (string, Instance) -> bool): nat {
    if models == [] then 0
    else
      var first := if models[0] in ModelFields then ModelPass(store, models[0], s, translate, saveOk).saves else 0;
      first + PassSaves(store, models[1..], s, translate, saveOk)
  }

  function PassCalls(store: Store, models: seq<string>, s: Settings, translate: Translator, saveOk: (string, Instance) -> bool): nat {
    if models == [] then 0
    else
      var first := if models[0] in ModelFields then ModelPass(store, models[0], s, translate, saveOk).calls else 0;
      first + PassCalls(store, models[1..], s, translate, saveOk)
  }

  /** The totals depend only on the instances of the requested keys. */
  lemma {:induction false} PassTotalsFrame(store: Store, next: Store, models: seq<string>, s: Settings, translate: Translator, saveOk: (string, Instance) -> bool)
    requires forall k :: k in models ==> InstancesOf(next, k) == InstancesOf(store, k)
    ensures PassSaves(next, models, s, translate, saveOk) == PassSaves(store, models, s, translate, saveOk)
    ensures PassCalls(next, models, s, translate, saveOk) == PassCalls(store, models, s, translate, saveOk)
    decreases |models|
  {
    if models != [] {
      assert models[0] in models;
      PassTotalsFrame(store, next, models[1..], s, translate, saveOk);
    }
  }

  /** The pass over the requested model keys in order; a key without configured fields is
      reported and skipped. */
  function TranslateModels(store: Store, models: seq<string>, s: Settings, translate: Translator, saveOk: (string, Instance) -> bool): (r: Report)
    ensures r.store.Keys == store.Keys
    ensures forall k :: k in store ==> |r.store[k]| == |store[k]|
    ensures (forall m :: m in models ==> m !in ModelFields) ==> r == Report(store, 0, 0)
    decreases |models|
  {
    if models == [] then Report(store, 0, 0)
    else
      var model := models[0];
      assert model in models;
      if model !in ModelFields then
        TranslateModels(store, models[1..], s, translate, saveOk)
      else
        var instances := InstancesOf(store, model);
        var run := TranslateModel(model, instances, ModelFields[model], s, translate, saveOk);
        var next := if model in store then store[model := run.stored] else store;
        var rest := TranslateModels(next, models[1..], s, translate, saveOk);
        Report(rest.store, run.calls + rest.calls, run.saves + rest.saves)
  }

  /** With no key requested twice, every known model in the store ends up as its own pass over
      its original instances made it, and every other model is untouched. */
  lemma {:induction false} ModelsRunEach(store: Store, models: seq<string>, s: Settings, translate: Translator, saveOk: (string, Instance) -> bool)
    requires NoDup(models)
    ensures var r := TranslateModels(store, models, s, translate, saveOk);
      forall k :: k in models && k in ModelFields && k in store ==> r.store[k] == ModelPass(store, k, s, translate, saveOk).stored
    ensures var r := TranslateModels(store, models, s, translate, saveOk);
      forall k :: k in store && (k !in models || k !in ModelFields) ==> r.store[k] == store[k]
    decreases |models|
  {
    if models != [] {
      var model := models[0];
      NoDupTail(models);
      var r := TranslateModels(store, models, s, translate, saveOk);
      if model !in ModelFields {
        ModelsRunEach(store, models[1..], s, translate, saveOk);
      } else {
        var run := ModelPass(store, model, s, translate, saveOk);
        var next := if model in store then store[model := run.stored] else store;
        assert r.store == TranslateModels(next, models[1..], s, translate, saveOk).store;
        ModelsRunEach(next, models[1..], s, translate, saveOk);
        forall k | k in models && k in ModelFields && k in store
          ensures r.store[k] == ModelPass(store, k, s, translate, saveOk).stored
        {
          if k != model {
            assert k in models[1..];
            assert InstancesOf(next, k) == InstancesOf(store, k);
          }
        }
      }
    }
  }

  /** With no key requested twice, the saves and calls are the sums over the passes of the
      known keys, each on its original instances. */
  lemma {:induction false} ModelsTotals(store: Store, models: seq<string>, s: Settings, translate: Translator, saveOk: (string, Instance) -> bool)
    requires NoDup(models)
    ensures TranslateModels(store, models, s, translate, saveOk).saves == PassSaves(store, models, s, translate, saveOk)
    ensures TranslateModels(store, models, s, translate, saveOk).calls == PassCalls(store, models, s, translate, saveOk)
    decreases |models|
  {
    if models != [] {
      var model := models[0];
      NoDupTail(models);
      if model !in ModelFields {
        ModelsTotals(store, models[1..], s, translate, saveOk);
      } else {
        var run := ModelPass(store, model, s, translate, saveOk);
        var next := if model in store then store[model := run.stored] else store;
        var rest := TranslateModels(next, models[1..], s, translate, saveOk);
        assert TranslateModels(store, models, s, translate, saveOk) == Report(rest.store, run.calls + rest.calls, run.saves + rest.saves);
        ModelsTotals(next, models[1..], s, translate, saveOk);
        assert forall k :: k in models[1..] ==> InstancesOf(next, k) == InstancesOf(store, k);
        PassTotalsFrame(store, next, models[1..], s, translate, saveOk);
      }
    }
  }

  /** Unknown model keys make no difference: the run is the run over the known keys alone. */
  lemma {:induction false} UnknownModelsIgnored(store: Store, models: seq<string>, s: Settings, translate: Translator, saveOk: (string, Instance) -> bool)
    ensures TranslateModels(store, models, s, translate, saveOk)
      == TranslateModels(store, Select(models, (m: string) => m in ModelFields), s, translate, saveOk)
    decreases |models|
  {
    if models != [] {
      var model := models[0];
      var known := (m: string) => m in ModelFields;
      var sm := Select(models, known);
      if model !in ModelFields {
        UnknownModelsIgnored(store, models[1..], s, translate, saveOk);
        assert sm == Select(models[1..], known);
      } else {
        var sel := Select(models[1..], known);
        assert sm == [model] + sel;
        assert sm[0] == model && sm[1..] == sel;
        var instances := InstancesOf(store, model);
        var run := TranslateModel(model, instances, ModelFields[model], s, translate, saveOk);
        var next := if model in store then store[model := run.stored] else store;
        UnknownModelsIgnored(next, models[1..], s, translate, saveOk);
      }
    }
  }

  /** The text in every language that is not a target is the same after the run; in
      particular the source text, as long as the source is not a target. */
  lemma {:induction false} OtherLanguagesKept(store: Store, models: seq<string>, s: Settings, translate: Translator, saveOk: (string, Instance) -> bool)
    ensures var r := TranslateModels(store, models, s, translate, saveOk);
      forall lang, k, i, f :: lang !in s.langs && k in store && 0 <= i < |store[k]| ==>
        Read(r.store[k][i], lang, f) == Read(store[k][i], lang, f)
    decreases |models|
  {
    if models != [] {
      var model := models[0];
      if model !in ModelFields {
        OtherLanguagesKept(store, models[1..], s, translate, saveOk);
      } else {
        var instances := InstancesOf(store, model);
        var run := TranslateModel(model, instances, ModelFields[model], s, translate, saveOk);
        var next := if model in store then store[model := run.stored] else store;
        OtherLanguagesKept(next, models[1..], s, translate, saveOk);
        forall lang, k, i, f | lang !in s.langs && k in store && 0 <= i < |store[k]|
          ensures Read(next[k][i], lang, f) == Read(store[k][i], lang, f)
        {
          if k == model {
            var o := InstanceOutcome(model, instances[i], ModelFields[model], s, translate, saveOk);
            assert next[k][i] == o.stored;
          }
        }
      }
    }
  }

  /** The options a run is started with; `None` stands for an option left out. */
  datatype Options = Options(
    models: Option<seq<string>>,
    languages: Option<seq<string>>,
    forceUpdate: bool,
    sourceLang: string,
    pks: Option<seq<int>>)

  /** `--models` values are lower-cased as they are parsed. */
  function ModelKeys(models: Option<seq<string>>): (r: seq<string>)
    ensures models.None? ==> r == DefaultModels
    ensures models.Some? ==> |r| == |models.value| && forall i :: 0 <= i < |r| ==> r[i] == Lower(models.value[i])
  {
    if models.None? then DefaultModels
    else seq(|models.value|, i requires 0 <= i < |models.value| => Lower(models.value[i]))
  }

  /** The settings a run with options `opts` and target languages `targets` shares between models. */
  function RunSettings(opts: Options, targets: seq<string>): Settings {
    Settings(opts.sourceLang, targets, opts.forceUpdate, opts.pks)
  }

  /** The configured fields of each model are distinct. */
  lemma ModelFieldsDistinct()
    ensures forall k :: k in ModelFields ==> NoDup(ModelFields[k])
  {
  }

  /** The command translates: after a successful run with no model key requested twice, an
      instance of a requested model that is in scope, whose run wrote something and whose save
      went through, holds the accepted answer for every field and target language that needed
      one. */
  lemma HandleWritesAnswers(opts: Options, configured: seq<string>, store: Store, translate: Translator, saveOk: (string, Instance) -> bool,
                            k: string, i: int, f: string, l: string)
    requires Handle(opts, configured, store, translate, saveOk).Success?
    requires NoDup(ModelKeys(opts.models)) && k in ModelKeys(opts.models) && k in ModelFields && k in store
    requires 0 <= i < |store[k]| && InScope(opts.pks, store[k][i].pk)
    requires var targets := TargetLanguages(opts.languages, configured, opts.sourceLang).value;
      var run := TranslateInstance(store[k][i], ModelFields[k], opts.sourceLang, targets, opts.forceUpdate, translate);
      run.wrote && saveOk(k, run.inst)
    requires f in ModelFields[k] && l in TargetLanguages(opts.languages, configured, opts.sourceLang).value
    requires Translatable(store[k][i], f, l, opts.sourceLang, opts.forceUpdate, translate)
    ensures Read(Handle(opts, configured, store, translate, saveOk).value.store[k][i], l, f)
      == Answer(store[k][i], f, l, opts.sourceLang, translate)
  {
    var targets := TargetLanguages(opts.languages, configured, opts.sourceLang).value;
    var s := RunSettings(opts, targets);
    assert opts.sourceLang !in targets by {
      forall j | 0 <= j < |targets| ensures targets[j] != opts.sourceLang { }
    }
    ModelFieldsDistinct();
    var inst := store[k][i];
    var o := InstanceOutcome(k, inst, ModelFields[k], s, translate, saveOk);
    assert Handle(opts, configured, store, translate, saveOk).value.store[k][i] == o.stored;
    InstanceHoldsAnswers(inst, ModelFields[k], opts.sourceLang, targets, opts.forceUpdate, translate);
  }

  /** The command: choose the target languages (an error when none is valid), then translate
      the requested models. */
  function Handle(opts: Options, configured: seq<string>, store: Store, translate: Translator, saveOk: (string, Instance) -> bool): (r: Result<Report, string>)
    ensures r.Failure? <==> TargetLanguages(opts.languages, configured, opts.sourceLang).Failure?
    ensures r.Success? ==> r.value.store.Keys == store.Keys
    ensures r.Success? ==> forall k :: k in store ==> |r.value.store[k]| == |store[k]|
    ensures r.Success? ==> forall lang, k, i, f ::
      lang !in TargetLanguages(opts.languages, configured, opts.sourceLang).value && k in store && 0 <= i < |store[k]| ==>
        Read(r.value.store[k][i], lang, f) == Read(store[k][i], lang, f)
    ensures r.Success? ==> forall k, i, f :: k in store && 0 <= i < |store[k]| ==>
      Read(r.value.store[k][i], opts.sourceLang, f) == Read(store[k][i], opts.sourceLang, f)
    ensures r.Success? && NoDup(ModelKeys(opts.models)) ==>
      var s := RunSettings(opts, TargetLanguages(opts.languages, configured, opts.sourceLang).value);
      && (forall k :: k in ModelKeys(opts.models) && k in ModelFields && k in store ==>
            r.value.store[k] == ModelPass(store, k, s, translate, saveOk).stored)
      && r.value.saves == PassSaves(store, ModelKeys(opts.models), s, translate, saveOk)
      && r.value.calls == PassCalls(store, ModelKeys(opts.models), s, translate, saveOk)
  {
    var targets := TargetLanguages(opts.languages, configured, opts.sourceLang);
    if targets.Failure? then Failure(targets.error)
    else
      var s := RunSettings(opts, targets.value);
      assert s.source !in s.langs by {
        forall i | 0 <= i < |s.langs| ensures s.langs[i] != s.source { }
      }
      OtherLanguagesKept(store, ModelKeys(opts.models), s, translate, saveOk);
      var r := TranslateModels(store, ModelKeys(opts.models), s, translate, saveOk);
      assert NoDup(ModelKeys(opts.models)) ==>
        && (forall k :: k in ModelKeys(opts.models) && k in ModelFields && k in store ==>
              r.store[k] == ModelPass(store, k, s, translate, saveOk).stored)
        && r.saves == PassSaves(store, ModelKeys(opts.models), s, translate, saveOk)
        && r.calls == PassCalls(store, ModelKeys(opts.models), s, translate, saveOk)
      by {
        if NoDup(ModelKeys(opts.models)) {
          ModelsRunEach(store, ModelKeys(opts.models), s, translate, saveOk);
          ModelsTotals(store, ModelKeys(opts.models), s, translate, saveOk);
        }
      }
      Success(r)
  }
}

=== FILE: common.dfy ===
/** Shared building blocks: optional and fallible values, and the order-preserving
    filter that stands in for a queryset `.filter(...)`. */
module Common {

  datatype Option<+T> = None | Some(value: T)

  datatype Result<+T, +E> = Success(value: T) | Failure(error: E)

  /** No element occurs twice. */
  predicate NoDup<T(==)>(s: seq<T>) {
    forall i, j :: 0 <= i < j < |s| ==> s[i] != s[j]
  }

  /** `NoDup` one element at a time: the head is not repeated and the tail has no repeats. */
  lemma NoDupCons<T>(x: T, s: seq<T>)
    ensures NoDup([x] + s) <==> x !in s && NoDup(s)
  {
    var t := [x] + s;
    assert forall i :: 0 <= i < |s| ==> t[i + 1] == s[i];
    if x !in s && NoDup(s) {
      forall i, j | 0 <= i < j < |t| ensures t[i] != t[j] {
        assert t[j] == s[j - 1];
        if i > 0 {
          assert t[i] == s[i - 1];
        }
      }
    }
    if NoDup(t) {
      forall k | 0 <= k < |s| ensures s[k] != x {
        assert t[0] != t[k + 1];
      }
      forall i, j | 0 <= i < j < |s| ensures s[i] != s[j] {
        assert t[i + 1] != t[j + 1];
      }
    }
  }

  /** The head of a list without repeats does not recur, and the tail has no repeats. */
  lemma NoDupTail<T>(s: seq<T>)
    requires s != [] && NoDup(s)
    ensures s[0] !in s[1..] && NoDup(s[1..])
  {
    assert s == [s[0]] + s[1..];
    NoDupCons(s[0], s[1..]);
  }

  /** The elements of `xs` whose flag is set, in order: the keys of a form's or a serializer's
      error dictionary, given which of its fields failed. */
  function Flagged<T(==)>(xs: seq<T>, flags: seq<bool>): (r: seq<T>)
    requires |xs| == |flags|
    ensures r == [] <==> forall i :: 0 <= i < |flags| ==> !flags[i]
    ensures forall i :: 0 <= i < |r| ==> r[i] in xs
    ensures NoDup(xs) ==> forall i :: 0 <= i < |xs| ==> (xs[i] in r <==> flags[i])
  {
    if xs == [] then []
    else
      var rest := Flagged(xs[1..], flags[1..]);
      assert forall i :: 1 <= i < |xs| ==> xs[i] == xs[1..][i - 1] && flags[i] == flags[1..][i - 1];
      (if flags[0] then [xs[0]] else []) + rest
  }

  /** `Flagged` over four distinct fields, one fact per field. */
  lemma FlaggedFour<T>(a: T, b: T, c: T, d: T, fa: bool, fb: bool, fc: bool, fd: bool)
    requires a != b && a != c && a != d && b != c && b != d && c != d
    ensures var r := Flagged([a, b, c, d], [fa, fb, fc, fd]);
      && (r == [] <==> !fa && !fb && !fc && !fd)
      && (a in r <==> fa) && (b in r <==> fb) && (c in r <==> fc) && (d in r <==> fd)
      && forall i :: 0 <= i < |r| ==> r[i] in [a, b, c, d]
  {
    var xs, flags := [a, b, c, d], [fa, fb, fc, fd];
    assert NoDup(xs);
    var r := Flagged(xs, flags);
    assert xs[0] == a && xs[1] == b && xs[2] == c && xs[3] == d;
    assert flags[0] == fa && flags[1] == fb && flags[2] == fc && flags[3] == fd;
  }

  /** Number of occurrences of `x` in `s`. */
  function Count<T(==)>(s: seq<T>, x: T): nat {
    multiset(s)[x]
  }

  /** The elements of `xs` that satisfy `keep`, in their original order. */
  function Select<T>(xs: seq<T>, keep: T -> bool): (r: seq<T>)
    ensures |r| <= |xs|
    ensures forall i :: 0 <= i < |r| ==> r[i] in xs && keep(r[i])
    ensures forall i :: 0 <= i < |xs| && keep(xs[i]) ==> xs[i] in r
  {
    if xs == [] then []
    else
      var rest := Select(xs[1..], keep);
      assert forall i :: 1 <= i < |xs| ==> xs[i] == xs[1..][i - 1];
      if keep(xs[0]) then [xs[0]] + rest else rest
  }

  /** The number of kept elements, one element at a time. */
  lemma SelectStep<T>(xs: seq<T>, keep: T -> bool)
    requires xs != []
    ensures |Select(xs, keep)| == (if keep(xs[0]) then 1 else 0) + |Select(xs[1..], keep)|
  {
  }

  /** Selecting with a predicate every element satisfies changes nothing. */
  lemma {:induction false} SelectAll<T>(xs: seq<T>, keep: T -> bool)
    requires forall x :: x in xs ==> keep(x)
    ensures Select(xs, keep) == xs
  {
    if xs != [] {
      assert xs[0] in xs;
      SelectAll(xs[1..], keep);
      assert xs == [xs[0]] + xs[1..];
    }
  }

  /** Two predicates that agree on every element of `xs` select the same elements. */
  lemma {:induction false} SelectCongruent<T>(xs: seq<T>, k1: T -> bool, k2: T -> bool)
    requires forall x :: x in xs ==> (k1(x) <==> k2(x))
    ensures Select(xs, k1) == Select(xs, k2)
  {
    if xs != [] {
      assert xs[0] in xs;
      forall x | x in xs[1..] ensures k1(x) <==> k2(x) {
        assert x in xs;
      }
      SelectCongruent(xs[1..], k1, k2);
    }
  }

  /** Filtering twice with the same predicate is filtering once. */
  lemma SelectIdempotent<T>(xs: seq<T>, keep: T -> bool)
    ensures Select(Select(xs, keep), keep) == Select(xs, keep)
  {
    SelectAll(Select(xs, keep), keep);
  }

  /** Two filters in a row keep what satisfies both. */
  lemma {:induction false} SelectSelect<T>(xs: seq<T>, a: T -> bool, b: T -> bool, both: T -> bool)
    requires forall i :: 0 <= i < |xs| ==> (both(xs[i]) <==> a(xs[i]) && b(xs[i]))
    ensures Select(Select(xs, a), b) == Select(xs, both)
  {
    if xs != [] {
      assert forall i :: 1 <= i < |xs| ==> xs[i] == xs[1..][i - 1];
      SelectSelect(xs[1..], a, b, both);
    }
  }

  /** Filtering distributes over concatenation. */
  lemma {:induction false} SelectAppend<T>(a: seq<T>, b: seq<T>, keep: T -> bool)
    ensures Select(a + b, keep) == Select(a, keep) + Select(b, keep)
  {
    if a == [] {
      assert a + b == b;
    } else {
      assert (a + b)[1..] == a[1..] + b;
      SelectAppend(a[1..], b, keep);
    }
  }

  /** Position of the first occurrence of `x` in `s`. */
  function IndexOf<T(==)>(s: seq<T>, x: T): (i: nat)
    requires x in s
    ensures i < |s| && s[i] == x && x !in s[..i]
  {
    if s[0] == x then 0
    else
      var j := IndexOf(s[1..], x);
      assert s[..j + 1] == [s[0]] + s[1..][..j];
      j + 1
  }

  /** Python's `list.remove(x)`: drop the first occurrence of `x` (the caller checks membership). */
  function RemoveFirst<T(==)>(s: seq<T>, x: T): (r: seq<T>)
    requires x in s
    ensures r == s[..IndexOf(s, x)] + s[IndexOf(s, x) + 1..]
  {
    if s[0] == x then s[1..]
    else
      assert s[1..][..IndexOf(s[1..], x)] == s[1..IndexOf(s, x)];
      [s[0]] + RemoveFirst(s[1..], x)
  }

  /** Position by position: before the removed occurrence nothing moves, after it everything
      shifts down by one. */
  lemma RemoveFirstAt<T>(s: seq<T>, x: T)
    requires x in s
    ensures |RemoveFirst(s, x)| == |s| - 1
    ensures forall k :: 0 <= k < |s| - 1 ==>
      RemoveFirst(s, x)[k] == if k < IndexOf(s, x) then s[k] else s[k + 1]
  {
  }

  /** Removing one occurrence lowers that element's count by one and keeps every other count. */
  lemma RemoveFirstCounts<T>(s: seq<T>, x: T)
    requires x in s
    ensures |RemoveFirst(s, x)| == |s| - 1
    ensures multiset(RemoveFirst(s, x)) == multiset(s) - multiset{x}
  {
    var i := IndexOf(s, x);
    var a, b := s[..i], s[i + 1..];
    assert s == a + [x] + b;
    assert RemoveFirst(s, x) == a + b;
    assert multiset(s) == multiset(a) + multiset{x} + multiset(b);
  }

  /** Removing an element from a list without repeats leaves a list without repeats. */
  lemma RemoveFirstKeepsNoDup<T>(s: seq<T>, x: T)
    requires x in s && NoDup(s)
    ensures NoDup(RemoveFirst(s, x))
  {
    var r := RemoveFirst(s, x);
    var i := IndexOf(s, x);
    forall a, b | 0 <= a < b < |r| ensures r[a] != r[b] {
      var a' := if a < i then a else a + 1;
      var b' := if b < i then b else b + 1;
      ShiftedIndex(s, x, a);
      ShiftedIndex(s, x, b);
      assert s[a'] != s[b'];
    }
  }

  /** Where the `k`-th element after a removal sat before it. */
  lemma ShiftedIndex<T>(s: seq<T>, x: T, k: int)
    requires x in s && 0 <= k < |s| - 1
    ensures RemoveFirst(s, x)[k] == s[if k < IndexOf(s, x) then k else k + 1]
  {
    var i := IndexOf(s, x);
    var left, right := s[..i], s[i + 1..];
    var r := RemoveFirst(s, x);
    assert r == left + right;
    if k < i {
      assert r[k] == left[k];
    } else {
      assert r[k] == right[k - i];
    }
  }

  /** Appending a new element to a list without repeats leaves a list without repeats. */
  lemma AppendKeepsNoDup<T>(s: seq<T>, x: T)
    requires x !in s && NoDup(s)
    ensures NoDup(s + [x])
  {
    var r := s + [x];
    forall a, b | 0 <= a < b < |r| ensures r[a] != r[b] {
      assert r[a] == s[a];
      if b < |s| {
        assert r[b] == s[b];
      }
    }
  }

  /** Removing the occurrence of an element that was appended last restores the list. */
  lemma {:induction false} RemoveFirstOfAppended<T>(s: seq<T>, x: T)
    requires x !in s
    ensures RemoveFirst(s + [x], x) == s
  {
    if s == [] {
    } else {
      assert (s + [x])[0] == s[0];
      assert (s + [x])[1..] == s[1..] + [x];
      RemoveFirstOfAppended(s[1..], x);
      assert s == [s[0]] + s[1..];
    }
  }
}

=== FILE: filters.dfy ===
/** `PlaceFilter` (api/filters.py): the query-string filters of the place list. A queryset is a
    sequence of places and `.filter(...)` keeps, in order, the places that satisfy a predicate. */
module Filters {
  import opened Common
  import opened PyText
  import opened Places

  /** `exp_map` of `filter_by_expectations`: request key to Boolean column. */
  const ExpectationKeyMap: map<string, string> := map[
    "outsideArea" := "outside_area", "kardPay" := "kard_pay", "coffee" := "coffee",
    "meatAndChicken" := "meat_and_chicken",
    "insideArea" := "inside_area", "reservation" := "reservation", "kidsMenu" := "kids_menu",
    "babySit" := "baby_sit", "cash" := "cash", "freeParkArea" := "free_park_area", "bar" := "bar",
    "dessert" := "dessert", "kitchen" := "kitchen",
    "WheelchairAccessibleEntrance" := "wheelchair_accessible_entrance", "petsAllow" := "pets_allow",
    "fish" := "fish"]

  /** `sort_map` of `filter_by_sorting_tags`: request key to Boolean column. It has no "coffee". */
  const SortingKeyMap: map<string, string> := map[
    "historicalPlaces" := "historical_places", "creativePlaces" := "creative_places",
    "hikingTrails" := "hiking_trails", "popular" := "popular", "alcohol" := "alcohol",
    "beach" := "beach", "castles" := "castles", "museum" := "museum", "parks" := "parks",
    "waterfalls" := "waterfalls",
    "kyrenia" := "kyrenia", "nicosia" := "nicosia", "famagusta" := "famagusta",
    "iskele" := "iskele", "guzelyurt" := "guzelyurt", "karpaz" := "karpaz", "lefke" := "lefke"]

  /** Both tables point only at real Boolean columns, so a lookup never hits the missing-column default. */
  lemma KeyMapsNameColumns()
    ensures forall k :: k in ExpectationKeyMap ==> ExpectationKeyMap[k] in BooleanFields
    ensures forall k :: k in SortingKeyMap ==> SortingKeyMap[k] in BooleanFields
  {
  }

  /** "coffee" is an expectation key only and "alcohol" a sorting-tag key only. */
  lemma CoffeeAndAlcoholKeys()
    ensures "coffee" in ExpectationKeyMap && "coffee" !in SortingKeyMap
    ensures "alcohol" in SortingKeyMap && "alcohol" !in ExpectationKeyMap
  {
  }

  /** A usable key: non-empty, no surrounding whitespace, no comma. */
  predicate CleanKey(k: string) {
    k != [] && Trimmed(k) && ',' !in k
  }

  /** `[p.strip() for p in pieces if p.strip()]`. */
  function KeysOf(pieces: seq<string>): (keys: seq<string>)
    requires forall j :: 0 <= j < |pieces| ==> ',' !in pieces[j]
    ensures |keys| <= |pieces|
    ensures forall k :: 0 <= k < |keys| ==> CleanKey(keys[k])
  {
    if pieces == [] then []
    else
      var k := Strip(pieces[0]);
      assert forall c :: c in k ==> c in pieces[0];
      if k == [] then KeysOf(pieces[1..]) else [k] + KeysOf(pieces[1..])
  }

  lemma {:induction false} KeysOfAppend(a: seq<string>, b: seq<string>)
    requires forall j :: 0 <= j < |a| ==> ',' !in a[j]
    requires forall j :: 0 <= j < |b| ==> ',' !in b[j]
    ensures KeysOf(a + b) == KeysOf(a) + KeysOf(b)
  {
    if a == [] {
      assert a + b == b;
    } else {
      assert (a + b)[1..] == a[1..] + b;
      KeysOfAppend(a[1..], b);
    }
  }

  /** No keys survive exactly when every piece is blank. */
  lemma {:induction false} KeysOfEmpty(pieces: seq<string>)
    requires forall j :: 0 <= j < |pieces| ==> ',' !in pieces[j]
    ensures KeysOf(pieces) == [] <==> AllPiecesBlank(pieces)
  {
    if pieces != [] {
      StripEmptyIffBlank(pieces[0]);
      KeysOfEmpty(pieces[1..]);
      assert forall j :: 1 <= j < |pieces| ==> pieces[j] == pieces[1..][j - 1];
    }
  }

  /** `[key.strip() for key in value.split(',') if key.strip()]`. */
  function ParseKeys(value: string): (keys: seq<string>)
    ensures forall k :: 0 <= k < |keys| ==> CleanKey(keys[k])
  {
    KeysOf(Split(value))
  }

  /** Parsing a comma-joined value parses each side. */
  lemma ParseKeysConcat(a: string, b: string)
    ensures ParseKeys(a + "," + b) == ParseKeys(a) + ParseKeys(b)
  {
    SplitConcat(a, b);
    KeysOfAppend(Split(a), Split(b));
  }

  predicate AllPiecesBlank(pieces: seq<string>) {
    forall j :: 0 <= j < |pieces| ==> AllSpace(pieces[j])
  }

  /** The value holds nothing but commas and whitespace. */
  predicate CommasAndSpaceOnly(value: string) {
    forall i :: 0 <= i < |value| ==> value[i] == ',' || IsSpace(value[i])
  }

  lemma AllSpaceCons(c: char, s: string)
    ensures AllSpace([c] + s) <==> IsSpace(c) && AllSpace(s)
  {
    var cs := [c] + s;
    assert cs[0] == c;
    assert forall i :: 0 <= i < |s| ==> cs[i + 1] == s[i];
    if IsSpace(c) && AllSpace(s) {
      forall i | 0 <= i < |cs| ensures IsSpace(cs[i]) {
        if i > 0 { assert cs[i] == s[i - 1]; }
      }
    }
  }

  lemma AllPiecesBlankCons(x: string, ys: seq<string>)
    ensures AllPiecesBlank([x] + ys) <==> AllSpace(x) && AllPiecesBlank(ys)
  {
    var xs := [x] + ys;
    assert xs[0] == x;
    assert forall j :: 0 <= j < |ys| ==> xs[j + 1] == ys[j];
    if AllSpace(x) && AllPiecesBlank(ys) {
      forall j | 0 <= j < |xs| ensures AllSpace(xs[j]) {
        if j > 0 { assert xs[j] == ys[j - 1]; }
      }
    }
  }

  /** Every piece of the split is blank exactly when the value holds only commas and whitespace. */
  lemma {:induction false} SplitAllBlank(value: string)
    ensures AllPiecesBlank(Split(value)) <==> CommasAndSpaceOnly(value)
  {
    if value != [] {
      SplitAllBlank(value[1..]);
      var rest := Split(value[1..]);
      var r := Split(value);
      assert CommasAndSpaceOnly(value) <==> (value[0] == ',' || IsSpace(value[0])) && CommasAndSpaceOnly(value[1..]) by {
        assert forall i :: 1 <= i < |value| ==> value[i] == value[1..][i - 1];
      }
      if value[0] == ',' {
        assert r == [""] + rest;
        AllPiecesBlankCons("", rest);
      } else {
        assert r == [[value[0]] + rest[0]] + rest[1..];
        assert rest == [rest[0]] + rest[1..];
        AllSpaceCons(value[0], rest[0]);
        AllPiecesBlankCons([value[0]] + rest[0], rest[1..]);
        AllPiecesBlankCons(rest[0], rest[1..]);
      }
    }
  }

  /** A value yields no key exactly when it is empty or made of commas and whitespace only. */
  lemma NoKeysIffBlank(value: string)
    ensures ParseKeys(value) == [] <==> CommasAndSpaceOnly(value)
  {
    KeysOfEmpty(Split(value));
    SplitAllBlank(value);
  }

  /** A key without comma or surrounding whitespace parses to itself. */
  lemma ParseCleanKey(k: string)
    requires CleanKey(k)
    ensures ParseKeys(k) == [k]
  {
    SplitNoComma(k);
    StripTrimmed(k);
  }

  /** A value without commas is one piece: its stripped text is the only key, unless it is blank. */
  lemma ParseKeysSinglePiece(s: string)
    requires ',' !in s
    ensures AllSpace(s) ==> ParseKeys(s) == []
    ensures !AllSpace(s) ==> ParseKeys(s) == [Strip(s)]
  {
    SplitNoComma(s);
    StripEmptyIffBlank(s);
  }

  lemma {:induction false} SplitNoComma(s: string)
    requires ',' !in s
    ensures Split(s) == [s]
  {
    if s != [] {
      SplitNoComma(s[1..]);
      assert s == [s[0]] + s[1..];
    }
  }

  /** Every recognised key's column is true on `p`. */
  predicate AllRecognisedTrue(keys: seq<string>, table: map<string, string>, p: Place) {
    forall i :: 0 <= i < |keys| && keys[i] in table ==> Flag(p, table[keys[i]])
  }

  /** The `Q()` built key by key: an unknown key adds nothing, a known key adds `field=True`. */
  function MatchesKeys(keys: seq<string>, table: map<string, string>, p: Place): (b: bool)
    ensures b <==> AllRecognisedTrue(keys, table, p)
  {
    if keys == [] then true
    else
      var rest := MatchesKeys(keys[1..], table, p);
      assert forall i :: 1 <= i < |keys| ==> keys[i] == keys[1..][i - 1];
      (if keys[0] in table then Flag(p, table[keys[0]]) else true) && rest
  }

  /** Keys beyond the table's reach do not weaken or strengthen the conjunction. */
  lemma RecognisedAppendUnknown(keys: seq<string>, extra: seq<string>, table: map<string, string>, p: Place)
    requires forall i :: 0 <= i < |extra| ==> extra[i] !in table
    ensures AllRecognisedTrue(keys + extra, table, p) <==> AllRecognisedTrue(keys, table, p)
  {
    var all := keys + extra;
    if AllRecognisedTrue(keys, table, p) {
      forall i | 0 <= i < |all| && all[i] in table ensures Flag(p, table[all[i]]) {
        if i < |keys| {
          assert all[i] == keys[i];
        }
      }
    }
    if AllRecognisedTrue(all, table, p) {
      forall i | 0 <= i < |keys| && keys[i] in table ensures Flag(p, table[keys[i]]) {
        assert all[i] == keys[i];
      }
    }
  }

  /** The conjunction depends only on which keys occur, not on their order or repetition. */
  lemma RecognisedSameKeys(k1: seq<string>, k2: seq<string>, table: map<string, string>, p: Place)
    requires forall i :: 0 <= i < |k2| ==> k2[i] in k1
    requires AllRecognisedTrue(k1, table, p)
    ensures AllRecognisedTrue(k2, table, p)
  {
    forall i | 0 <= i < |k2| && k2[i] in table ensures Flag(p, table[k2[i]]) {
      var j :| 0 <= j < |k1| && k1[j] == k2[i];
    }
  }

  /** Filtering by already-parsed keys; no keys keeps the queryset as it is. */
  function FilterByParsedKeys(places: seq<Place>, keys: seq<string>, table: map<string, string>): (r: seq<Place>)
    ensures forall i :: 0 <= i < |r| ==> r[i] in places && AllRecognisedTrue(keys, table, r[i])
    ensures forall i :: 0 <= i < |places| && AllRecognisedTrue(keys, table, places[i]) ==> places[i] in r
    ensures keys == [] ==> r == places
  {
    if keys == [] then places
    else Select(places, p => MatchesKeys(keys, table, p))
  }

  /** The shared body of `filter_by_expectations` and `filter_by_sorting_tags`: a place passes
      when every recognised key's column is true on it; unknown keys are ignored. */
  function FilterByKeys(places: seq<Place>, value: string, table: map<string, string>): (r: seq<Place>)
    ensures forall i :: 0 <= i < |r| ==> r[i] in places && AllRecognisedTrue(ParseKeys(value), table, r[i])
    ensures forall i :: 0 <= i < |places| && AllRecognisedTrue(ParseKeys(value), table, places[i]) ==> places[i] in r
    ensures ParseKeys(value) == [] ==> r == places
  {
    FilterByParsedKeys(places, ParseKeys(value), table)
  }

  function FilterByExpectations(places: seq<Place>, value: string): seq<Place> {
    FilterByKeys(places, value, ExpectationKeyMap)
  }

  function FilterBySortingTags(places: seq<Place>, value: string): seq<Place> {
    FilterByKeys(places, value, SortingKeyMap)
  }

  /** The key filter is an ordinary selection by the conjunction of the recognised columns. */
  lemma FilterByKeysIsSelect(places: seq<Place>, value: string, table: map<string, string>)
    ensures FilterByKeys(places, value, table) == Select(places, p => AllRecognisedTrue(ParseKeys(value), table, p))
  {
    var keys := ParseKeys(value);
    if keys == [] {
      SelectAll(places, p => AllRecognisedTrue(keys, table, p));
    } else {
      SelectCongruent(places, p => MatchesKeys(keys, table, p), p => AllRecognisedTrue(keys, table, p));
    }
  }

  /** Applying the same key filter twice is applying it once. */
  lemma FilterByKeysIdempotent(places: seq<Place>, value: string, table: map<string, string>)
    ensures FilterByKeys(FilterByKeys(places, value, table), value, table) == FilterByKeys(places, value, table)
  {
    var keep := p => AllRecognisedTrue(ParseKeys(value), table, p);
    FilterByKeysIsSelect(places, value, table);
    FilterByKeysIsSelect(FilterByKeys(places, value, table), value, table);
    SelectIdempotent(places, keep);
  }

  /** Appending keys the table does not know never changes the result. */
  lemma UnknownKeysIgnored(places: seq<Place>, value: string, extra: string, table: map<string, string>)
    requires forall i :: 0 <= i < |ParseKeys(extra)| ==> ParseKeys(extra)[i] !in table
    ensures FilterByKeys(places, value + "," + extra, table) == FilterByKeys(places, value, table)
  {
    ParseKeysConcat(value, extra);
    var keys := ParseKeys(value);
    var both := ParseKeys(value + "," + extra);
    forall p | p in places ensures AllRecognisedTrue(both, table, p) <==> AllRecognisedTrue(keys, table, p) {
      RecognisedAppendUnknown(keys, ParseKeys(extra), table, p);
    }
    FilterByKeysIsSelect(places, value + "," + extra, table);
    FilterByKeysIsSelect(places, value, table);
    SelectCongruent(places, p => AllRecognisedTrue(both, table, p), p => AllRecognisedTrue(keys, table, p));
  }

  /** When no key is recognised every place passes: the filter is not an empty result. */
  lemma AllUnknownKeepsAll(places: seq<Place>, value: string, table: map<string, string>)
    requires forall i :: 0 <= i < |ParseKeys(value)| ==> ParseKeys(value)[i] !in table
    ensures FilterByKeys(places, value, table) == places
  {
    FilterByKeysIsSelect(places, value, table);
    SelectAll(places, p => AllRecognisedTrue(ParseKeys(value), table, p));
  }

  /** The order of the keys is irrelevant: swapping two comma-separated groups keeps the result. */
  lemma KeyOrderIrrelevant(places: seq<Place>, a: string, b: string, table: map<string, string>)
    ensures FilterByKeys(places, a + "," + b, table) == FilterByKeys(places, b + "," + a, table)
  {
    ParseKeysConcat(a, b);
    ParseKeysConcat(b, a);
    var ka := ParseKeys(a);
    var kb := ParseKeys(b);
    var ab := ParseKeys(a + "," + b);
    var ba := ParseKeys(b + "," + a);
    SwappedHaveSameKeys(ka, kb);
    forall p | p in places ensures AllRecognisedTrue(ab, table, p) <==> AllRecognisedTrue(ba, table, p) {
      if AllRecognisedTrue(ab, table, p) { RecognisedSameKeys(ab, ba, table, p); }
      if AllRecognisedTrue(ba, table, p) { RecognisedSameKeys(ba, ab, table, p); }
    }
    FilterByKeysIsSelect(places, a + "," + b, table);
    FilterByKeysIsSelect(places, b + "," + a, table);
    SelectCongruent(places, p => AllRecognisedTrue(ab, table, p), p => AllRecognisedTrue(ba, table, p));
  }

  lemma SwappedHaveSameKeys(ka: seq<string>, kb: seq<string>)
    ensures forall i :: 0 <= i < |ka + kb| ==> (ka + kb)[i] in kb + ka
    ensures forall i :: 0 <= i < |kb + ka| ==> (kb + ka)[i] in ka + kb
  {
    forall i | 0 <= i < |ka + kb| ensures (ka + kb)[i] in kb + ka {
      if i < |ka| { assert (ka + kb)[i] == (kb + ka)[|kb| + i]; }
      else { assert (ka + kb)[i] == (kb + ka)[i - |ka|]; }
    }
    forall i | 0 <= i < |kb + ka| ensures (kb + ka)[i] in ka + kb {
      if i < |kb| { assert (kb + ka)[i] == (ka + kb)[|ka| + i]; }
      else { assert (kb + ka)[i] == (ka + kb)[i - |kb|]; }
    }
  }

  /** "coffee" is not a sorting-tag key, so asking for it filters nothing. */
  lemma CoffeeIgnoredAsSortingTag(places: seq<Place>)
    ensures FilterBySortingTags(places, "coffee") == places
  {
    CoffeeAndAlcoholKeys();
    ParseCleanKey("coffee");
    AllUnknownKeepsAll(places, "coffee", SortingKeyMap);
  }
  /** Likewise "alcohol" is shown among a place's expectations but is no expectation filter key. */
  lemma AlcoholIgnoredAsExpectation(places: seq<Place>)
    ensures FilterByExpectations(places, "alcohol") == places
  {
    CoffeeAndAlcoholKeys();
    ParseCleanKey("alcohol");
    AllUnknownKeepsAll(places, "alcohol", ExpectationKeyMap);
  }

  /** Some translation of the place's category name contains `value`, ignoring case
      (`category__translations__name__icontains`). */
  predicate CategoryNameMatches(p: Place, value: string) {
    exists i :: 0 <= i < |p.categoryNames| && ContainsIgnoreCase(p.categoryNames[i], value)
  }

  /** A match is a position where the lower-cased value occurs in a lower-cased name. */
  lemma CategoryNameMatchesMeaning(p: Place, value: string, i: int, k: int)
    requires 0 <= i < |p.categoryNames|
    ensures OccursAt(Lower(p.categoryNames[i]), Lower(value), k) ==> CategoryNameMatches(p, value)
    ensures ContainsIgnoreCase(p.categoryNames[i], value) ==>
      exists k' :: OccursAt(Lower(p.categoryNames[i]), Lower(value), k')
  {
  }

  /** `filter_by_category_translated_name`: an empty value keeps everything; otherwise a place is
      kept when a translation of its category's name contains the value, ignoring case. The
      join is followed by `.distinct()`, so no place is repeated. */
  function FilterByCategoryName(places: seq<Place>, value: string): (r: seq<Place>)
    ensures value == "" ==> r == places
    ensures value != "" ==> forall i :: 0 <= i < |r| ==> r[i] in places && CategoryNameMatches(r[i], value)
    ensures value != "" ==> forall i :: 0 <= i < |places| && CategoryNameMatches(places[i], value) ==> places[i] in r
  {
    if value == "" then places
    else Select(places, p => CategoryNameMatches(p, value))
  }

  /** The query-string values `PlaceFilter` reads, as sent; an absent parameter is `None`. */
  datatype QueryParams = QueryParams(
    category: Option<string>,
    categoryName: Option<string>,
    expectations: Option<string>,
    sortingTags: Option<string>)

  /** The parameter whose value the `category` field refuses: present and not empty, and either
      not an integer to `int()` or the id of no category. */
  predicate InvalidCategory(raw: Option<string>, categoryIds: set<int>) {
    && raw.Some? && raw.value != ""
    && (ParseInt(raw.value).None? || ParseInt(raw.value).value !in categoryIds)
  }

  /** The `category` form field (`ModelChoiceField` over every category): an empty value is no
      choice, and any other value must be the primary key of an existing category. The key is
      read the way the integer primary-key lookup reads it, with `int()`. */
  function CleanCategory(raw: Option<string>, categoryIds: set<int>): (r: Result<Option<int>, string>)
    ensures r.Failure? <==> InvalidCategory(raw, categoryIds)
    ensures r.Failure? ==> r.error == "category"
    ensures r.Success? ==> (r.value.Some? <==> raw.Some? && raw.value != "")
    ensures r.Success? && r.value.Some? ==>
      r.value.value in categoryIds && ParseInt(raw.value) == Some(r.value.value)
  {
    if raw.None? || raw.value == "" then Success(None)
    else
      match ParseInt(raw.value)
      case None => Failure("category")
      case Some(id) => if id in categoryIds then Success(Some(id)) else Failure("category")
  }

  /** A `CharFilter` form field: the value is stripped of surrounding whitespace. */
  function CleanText(raw: Option<string>): (r: Option<string>)
    ensures r.Some? <==> raw.Some?
    ensures r.Some? ==> Trimmed(r.value) && (r.value == "" <==> AllSpace(raw.value))
  {
    match raw
    case None => None
    case Some(v) =>
      StripEmptyIffBlank(v);
      Some(Strip(v))
  }

  /** A text parameter the form field's validator against null characters refuses: U+0000
      survives stripping. (An empty value skips the validators, and holds no U+0000 anyway.) */
  predicate TextRejected(raw: Option<string>) {
    raw.Some? && '\0' in Strip(raw.value)
  }

  /** Some parameter fails its form field, which makes the whole filter set invalid. */
  predicate InvalidFilter(raw: QueryParams, categoryIds: set<int>) {
    || InvalidCategory(raw.category, categoryIds)
    || TextRejected(raw.categoryName)
    || TextRejected(raw.expectations)
    || TextRejected(raw.sortingTags)
  }

  /** `errors` is the set of form errors of an invalid filter set: it names each failing
      parameter, and nothing else. */
  predicate NamesFailures(errors: seq<string>, raw: QueryParams, categoryIds: set<int>) {
    && errors != []
    && ("category" in errors <==> InvalidCategory(raw.category, categoryIds))
    && ("category_name" in errors <==> TextRejected(raw.categoryName))
    && ("expectations" in errors <==> TextRejected(raw.expectations))
    && ("sorting_tags" in errors <==> TextRejected(raw.sortingTags))
    && (forall i :: 0 <= i < |errors| ==> errors[i] in FilterNames)
  }

  /** The parameters of the filter set, in the order it declares them. */
  const FilterNames: seq<string> := ["category", "category_name", "expectations", "sorting_tags"]

  /** The cleaned parameters `PlaceFilter` filters by; an absent parameter filters nothing. */
  datatype FilterParams = FilterParams(
    category: Option<int>,
    categoryName: Option<string>,
    expectations: Option<string>,
    sortingTags: Option<string>)

  /** `filterset.is_valid()`: the form cleaning of every parameter. Any failing parameter fails
      the whole filter set, which the filter backend answers with a 400 whose errors name the
      failing parameters, in the order the filter set declares them. */
  function CleanFilterParams(raw: QueryParams, categoryIds: set<int>): (r: Result<FilterParams, seq<string>>)
    ensures r.Failure? <==> InvalidFilter(raw, categoryIds)
    ensures r.Failure? ==> NamesFailures(r.error, raw, categoryIds)
    ensures r.Success? ==> r.value.category.Some? ==> r.value.category.value in categoryIds
    ensures r.Success? ==> r.value.categoryName == CleanText(raw.categoryName)
    ensures r.Success? ==> r.value.expectations == CleanText(raw.expectations)
    ensures r.Success? ==> r.value.sortingTags == CleanText(raw.sortingTags)
  {
    var category := CleanCategory(raw.category, categoryIds);
    var flags := [category.Failure?, TextRejected(raw.categoryName), TextRejected(raw.expectations), TextRejected(raw.sortingTags)];
    var errors := Flagged(FilterNames, flags);
    FlaggedFour("category", "category_name", "expectations", "sorting_tags",
      category.Failure?, TextRejected(raw.categoryName), TextRejected(raw.expectations), TextRejected(raw.sortingTags));
    if errors == [] then
      Success(FilterParams(category.value, CleanText(raw.categoryName), CleanText(raw.expectations), CleanText(raw.sortingTags)))
    else Failure(errors)
  }

  /** A U+0000 anywhere in `category_name`, even padded, invalidates the filter set, and the
      errors name that parameter alone. */
  lemma NullCharacterInvalidatesFilter(name: string, categoryIds: set<int>)
    requires '\0' in name
    ensures CleanFilterParams(QueryParams(None, Some(name), None, None), categoryIds) == Failure(["category_name"])
  {
    StripKeeps(name, '\0');
    assert Flagged(FilterNames, [false, true, false, false]) == ["category_name"];
  }

  predicate CategoryPasses(p: Place, q: FilterParams) {
    q.category.Some? ==> p.categoryId == q.category.value
  }

  predicate CategoryNamePasses(p: Place, q: FilterParams) {
    q.categoryName.Some? && q.categoryName.value != "" ==> CategoryNameMatches(p, q.categoryName.value)
  }

  predicate ExpectationsPass(p: Place, q: FilterParams) {
    q.expectations.Some? ==> AllRecognisedTrue(ParseKeys(q.expectations.value), ExpectationKeyMap, p)
  }

  predicate SortingTagsPass(p: Place, q: FilterParams) {
    q.sortingTags.Some? ==> AllRecognisedTrue(ParseKeys(q.sortingTags.value), SortingKeyMap, p)
  }

  /** What one place must satisfy to pass every present parameter. */
  predicate PassesFilter(p: Place, q: FilterParams) {
    CategoryPasses(p, q) && CategoryNamePasses(p, q) && ExpectationsPass(p, q) && SortingTagsPass(p, q)
  }

  /** The `category` model-choice filter: equality on the category id. */
  function FilterByCategory(places: seq<Place>, q: FilterParams): seq<Place> {
    if q.category.Some? then Select(places, p => CategoryPasses(p, q)) else places
  }

  function CategoryNameStage(places: seq<Place>, q: FilterParams): seq<Place> {
    if q.categoryName.Some? then FilterByCategoryName(places, q.categoryName.value) else places
  }

  function ExpectationsStage(places: seq<Place>, q: FilterParams): seq<Place> {
    if q.expectations.Some? then FilterByExpectations(places, q.expectations.value) else places
  }

  function SortingTagsStage(places: seq<Place>, q: FilterParams): seq<Place> {
    if q.sortingTags.Some? then FilterBySortingTags(places, q.sortingTags.value) else places
  }

  /** The whole filter set: each present parameter narrows the previous result in turn. */
  function ApplyPlaceFilter(places: seq<Place>, q: FilterParams): seq<Place> {
    SortingTagsStage(ExpectationsStage(CategoryNameStage(FilterByCategory(places, q), q), q), q)
  }

  lemma CategoryStageIsSelect(places: seq<Place>, q: FilterParams)
    ensures FilterByCategory(places, q) == Select(places, p => CategoryPasses(p, q))
  {
    if q.category.None? {
      SelectAll(places, p => CategoryPasses(p, q));
    }
  }

  lemma CategoryNameStageIsSelect(places: seq<Place>, q: FilterParams)
    ensures CategoryNameStage(places, q) == Select(places, p => CategoryNamePasses(p, q))
  {
    if q.categoryName.Some? && q.categoryName.value != "" {
      SelectCongruent(places, p => CategoryNameMatches(p, q.categoryName.value), p => CategoryNamePasses(p, q));
    } else {
      SelectAll(places, p => CategoryNamePasses(p, q));
    }
  }

  lemma ExpectationsStageIsSelect(places: seq<Place>, q: FilterParams)
    ensures ExpectationsStage(places, q) == Select(places, p => ExpectationsPass(p, q))
  {
    if q.expectations.Some? {
      FilterByKeysIsSelect(places, q.expectations.value, ExpectationKeyMap);
      SelectCongruent(places, p => AllRecognisedTrue(ParseKeys(q.expectations.value), ExpectationKeyMap, p), p => ExpectationsPass(p, q));
    } else {
      SelectAll(places, p => ExpectationsPass(p, q));
    }
  }

  lemma SortingTagsStageIsSelect(places: seq<Place>, q: FilterParams)
    ensures SortingTagsStage(places, q) == Select(places, p => SortingTagsPass(p, q))
  {
    if q.sortingTags.Some? {
      FilterByKeysIsSelect(places, q.sortingTags.value, SortingKeyMap);
      SelectCongruent(places, p => AllRecognisedTrue(ParseKeys(q.sortingTags.value), SortingKeyMap, p), p => SortingTagsPass(p, q));
    } else {
      SelectAll(places, p => SortingTagsPass(p, q));
    }
  }

  /** An accepted `category` keeps the places of the category whose id `int()` reads from it. */
  lemma CleanedCategoryStage(places: seq<Place>, raw: QueryParams, categoryIds: set<int>)
    requires CleanFilterParams(raw, categoryIds).Success?
    ensures raw.category.None? || raw.category.value == "" ==>
      FilterByCategory(places, CleanFilterParams(raw, categoryIds).value) == places
    ensures raw.category.Some? && raw.category.value != "" ==>
      ParseInt(raw.category.value).Some? &&
      FilterByCategory(places, CleanFilterParams(raw, categoryIds).value) ==
        Select(places, (p: Place) => p.categoryId == ParseInt(raw.category.value).value)
  {
    var q := CleanFilterParams(raw, categoryIds).value;
    if raw.category.Some? && raw.category.value != "" {
      SelectCongruent(places, (p: Place) => CategoryPasses(p, q), (p: Place) => p.categoryId == ParseInt(raw.category.value).value);
    }
  }

  /** `category_name` is stripped first: a blank value keeps every place, and a padded value
      matches as its stripped text does. */
  lemma CleanedCategoryNameStage(places: seq<Place>, raw: QueryParams, categoryIds: set<int>)
    requires CleanFilterParams(raw, categoryIds).Success? && raw.categoryName.Some?
    ensures AllSpace(raw.categoryName.value) ==>
      CategoryNameStage(places, CleanFilterParams(raw, categoryIds).value) == places
    ensures !AllSpace(raw.categoryName.value) ==>
      CategoryNameStage(places, CleanFilterParams(raw, categoryIds).value) ==
        Select(places, (p: Place) => CategoryNameMatches(p, Strip(raw.categoryName.value)))
  {
    StripEmptyIffBlank(raw.categoryName.value);
  }

  /** The filters are combined with AND: the chain keeps, in order, exactly the places that pass
      every parameter. */
  lemma ApplyPlaceFilterIsConjunction(places: seq<Place>, q: FilterParams)
    ensures ApplyPlaceFilter(places, q) == Select(places, p => PassesFilter(p, q))
  {
    var c1 := (p: Place) => CategoryPasses(p, q);
    var c12 := (p: Place) => CategoryPasses(p, q) && CategoryNamePasses(p, q);
    var c123 := (p: Place) => CategoryPasses(p, q) && CategoryNamePasses(p, q) && ExpectationsPass(p, q);
    var s1 := FilterByCategory(places, q);
    CategoryStageIsSelect(places, q);
    var s2 := CategoryNameStage(s1, q);
    CategoryNameStageIsSelect(s1, q);
    SelectSelect(places, c1, p => CategoryNamePasses(p, q), c12);
    var s3 := ExpectationsStage(s2, q);
    ExpectationsStageIsSelect(s2, q);
    SelectSelect(places, c12, p => ExpectationsPass(p, q), c123);
    SortingTagsStageIsSelect(s3, q);
    SelectSelect(places, c123, p => SortingTagsPass(p, q), p => PassesFilter(p, q));
  }
}

=== FILE: places.dfy ===
/** The `Place` record of `api/models.py`: its Boolean columns, their defaults, and the
    opening-hour rows attached to it. Non-Boolean columns that no modelled operation reads
    (address, coordinates, contact and social links, timestamps) are not represented. */
module Places {
  import opened Common

  /** Seconds since midnight: a `TimeField` value. */
  type TimeOfDay = t: int | 0 <= t < 86400

  /** `day_of_week`: 0 is Monday, 6 is Sunday. */
  type Weekday = d: int | 0 <= d < 7

  /** One `OpeningHour` row; `closeTime < openTime` is a span that runs past midnight. */
  datatype OpeningHour = OpeningHour(dayOfWeek: Weekday, openTime: TimeOfDay, closeTime: TimeOfDay)

  /** `OpeningHour.Meta.ordering`: by day of week, then by opening time. */
  predicate HourBefore(a: OpeningHour, b: OpeningHour) {
    a.dayOfWeek < b.dayOfWeek || (a.dayOfWeek == b.dayOfWeek && a.openTime <= b.openTime)
  }

  predicate SortedHours(rows: seq<OpeningHour>) {
    forall i, j :: 0 <= i < j < |rows| ==> HourBefore(rows[i], rows[j])
  }

  /** The expectation columns, in declaration order. */
  const ExpectationFields: seq<string> := [
    "outside_area", "inside_area", "reservation", "kids_menu", "baby_sit", "kard_pay", "cash",
    "free_park_area", "bar", "coffee", "dessert", "kitchen", "wheelchair_accessible_entrance",
    "pets_allow", "fish", "meat_and_chicken"]

  /** The sorting-tag columns, in declaration order; `coffee` is declared here a second time. */
  const SortingFields: seq<string> := [
    "popular", "historical_places", "alcohol", "beach", "coffee", "creative_places", "castles",
    "museum", "parks", "waterfalls", "hiking_trails"]

  const RegionFields: seq<string> := [
    "kyrenia", "nicosia", "famagusta", "iskele", "guzelyurt", "karpaz", "lefke"]

  /** Every `BooleanField` declaration of the class body, duplicates included. */
  const DeclaredBooleanFields: seq<string> :=
    ExpectationFields + SortingFields + RegionFields + ["currency_supported", "is_active"]

  /** The Boolean columns the model actually has: a repeated declaration is one column. */
  const BooleanFields: set<string> := set f | f in DeclaredBooleanFields

  /** A place. `flags` maps each Boolean column name to its value; `categoryNames` holds the
      category's name in every language it is translated into. */
  datatype Place = Place(
    id: int,
    categoryId: int,
    categoryNames: seq<string>,
    flags: map<string, bool>,
    likedByDevices: seq<string>,
    openTimes: seq<OpeningHour>)

  /** A stored place has exactly the declared Boolean columns. */
  predicate WellFormed(p: Place) {
    p.flags.Keys == BooleanFields
  }

  /** `getattr(place, field, False)`: a column that does not exist reads as false. */
  predicate Flag(p: Place, field: string) {
    field in p.flags && p.flags[field]
  }

  predicate IsActive(p: Place) {
    Flag(p, "is_active")
  }

  /** The column default: `currency_supported` and `is_active` start true, every tag false. */
  predicate DefaultFlag(field: string) {
    field == "currency_supported" || field == "is_active"
  }

  /** A freshly created place: defaults for every Boolean column, no likes, no opening hours. */
  function NewPlace(id: int, categoryId: int, categoryNames: seq<string>): (p: Place)
    ensures WellFormed(p) && IsActive(p) && Flag(p, "currency_supported")
    ensures forall f :: f in ExpectationFields || f in SortingFields || f in RegionFields ==> !Flag(p, f)
    ensures p.likedByDevices == [] && p.openTimes == []
    ensures p.id == id && p.categoryId == categoryId && p.categoryNames == categoryNames
  {
    TagsDefaultFalse();
    DefaultTrueColumns();
    Place(id, categoryId, categoryNames, map f | f in BooleanFields :: DefaultFlag(f), [], [])
  }

  /** The two columns that start true are declared columns. */
  lemma DefaultTrueColumns()
    ensures "currency_supported" in BooleanFields && "is_active" in BooleanFields
  {
    var n := |DeclaredBooleanFields|;
    assert DeclaredBooleanFields[n - 2] == "currency_supported";
    assert DeclaredBooleanFields[n - 1] == "is_active";
  }

  /** Every expectation, sorting and region column is a column that starts false. */
  lemma TagsDefaultFalse()
    ensures forall f :: f in ExpectationFields || f in SortingFields || f in RegionFields ==>
      f in BooleanFields && !DefaultFlag(f)
  {
    var tags := ExpectationFields + SortingFields + RegionFields;
    assert forall i :: 0 <= i < |tags| ==> tags[i] == DeclaredBooleanFields[i];
    assert forall i :: 0 <= i < |tags| ==> !DefaultFlag(tags[i]);
  }

  /** `coffee` is declared twice (positions 9 and 20 of the declarations) yet is one column. */
  lemma CoffeeIsOneColumn()
    ensures |DeclaredBooleanFields| == 36
    ensures DeclaredBooleanFields[9] == "coffee" && DeclaredBooleanFields[20] == "coffee"
    ensures forall i :: 0 <= i < |DeclaredBooleanFields| && DeclaredBooleanFields[i] == "coffee" ==> i == 9 || i == 20
    ensures "coffee" in BooleanFields
  {
    assert DeclaredBooleanFields[9] in DeclaredBooleanFields;
  }
}

=== FILE: presentation.dfy ===
/** The computed parts of `PlaceDetailSerializer` (api/serializers.py) — resolved expectations,
    resolved sorting tags, the like status of the requesting device — and the request
    serializers of the like and wheel-spin endpoints. Definitions arrive already resolved to the
    request language, as a key-to-definition map. */
module Presentation {
  import opened Common
  import opened PyText
  import opened Places
  import opened WorkingHours
  import opened Requests
  import Filters

  /** An `ExpectationDefinition` or `SortTagDefinition` in the current language. */
  datatype Definition = Definition(name: string, iconKey: Option<string>)

  /** One emitted item: `{key: True, "label": caption, "icon_key": iconKey}`. */
  datatype TagEntry = TagEntry(key: string, caption: string, iconKey: Option<string>)

  /** `field_to_key_map` of `get_expectations`, in insertion order: (column, display key). */
  const ExpectationDisplayTable: seq<(string, string)> := [
    ("outside_area", "outsideArea"), ("inside_area", "insideArea"),
    ("kard_pay", "kardPay"), ("kids_menu", "kidsMenu"), ("baby_sit", "babySit"),
    ("free_park_area", "freeParkArea"),
    ("wheelchair_accessible_entrance", "WheelchairAccessibleEntrance"),
    ("pets_allow", "petsAllow"),
    ("reservation", "reservation"), ("cash", "cash"), ("bar", "bar"),
    ("coffee", "coffee"), ("alcohol", "alcohol"),
    ("dessert", "dessert"), ("kitchen", "kitchen"), ("fish", "fish"),
    ("meat_and_chicken", "meatAndChicken")]

  /** `field_to_key_map` of `get_sorting_tags`, in insertion order: 11 general/amenity, 7 regions. */
  const SortingDisplayTable: seq<(string, string)> := [
    ("popular", "popular"), ("historical_places", "historicalPlaces"), ("alcohol", "alcohol"),
    ("beach", "beach"), ("coffee", "coffee"),
    ("creative_places", "creativePlaces"), ("castles", "castles"),
    ("museum", "museum"), ("parks", "parks"), ("waterfalls", "waterfalls"),
    ("hiking_trails", "hikingTrails"),
    ("kyrenia", "kyrenia"), ("nicosia", "nicosia"), ("famagusta", "famagusta"),
    ("iskele", "iskele"), ("guzelyurt", "guzelyurt"), ("karpaz", "karpaz"), ("lefke", "lefke")]

  function TableKeys(table: seq<(string, string)>): (keys: seq<string>)
    ensures |keys| == |table| && forall i :: 0 <= i < |table| ==> keys[i] == table[i].1
  {
    if table == [] then [] else [table[0].1] + TableKeys(table[1..])
  }

  function EntryKeys(entries: seq<TagEntry>): (keys: seq<string>)
    ensures |keys| == |entries| && forall i :: 0 <= i < |entries| ==> keys[i] == entries[i].key
  {
    if entries == [] then [] else [entries[0].key] + EntryKeys(entries[1..])
  }

  /** The label: the definition's name, or `key.title()` when there is no definition. */
  function Label(key: string, defs: map<string, Definition>): string {
    if key in defs then defs[key].name else Title(key)
  }

  /** The icon: the definition's icon key, or null when there is no definition. */
  function Icon(key: string, defs: map<string, Definition>): Option<string> {
    if key in defs then defs[key].iconKey else None
  }

  /** The loop shared by `get_expectations` and `get_sorting_tags`: one entry per table row whose
      column is true on the place, in table order. A missing definition still yields an entry. */
  function ResolveTags(table: seq<(string, string)>, p: Place, defs: map<string, Definition>): (r: seq<TagEntry>)
    ensures |r| <= |table|
    ensures forall i :: 0 <= i < |table| && Flag(p, table[i].0) ==> table[i].1 in EntryKeys(r)
    ensures forall j :: 0 <= j < |r| ==> r[j].caption == Label(r[j].key, defs) && r[j].iconKey == Icon(r[j].key, defs)
  {
    if table == [] then []
    else
      var rest := ResolveTags(table[1..], p, defs);
      assert forall i :: 1 <= i < |table| ==> table[i] == table[1..][i - 1];
      if Flag(p, table[0].0) then
        var key := table[0].1;
        var r := [TagEntry(key, Label(key, defs), Icon(key, defs))] + rest;
        assert EntryKeys(r) == [key] + EntryKeys(rest);
        r
      else rest
  }

  function GetExpectations(p: Place, defs: map<string, Definition>): seq<TagEntry> {
    ResolveTags(ExpectationDisplayTable, p, defs)
  }

  function GetSortingTags(p: Place, defs: map<string, Definition>): seq<TagEntry> {
    ResolveTags(SortingDisplayTable, p, defs)
  }

  /** `key` is the display key of some row whose column is true on `p`. */
  predicate ShownKey(table: seq<(string, string)>, p: Place, key: string) {
    exists i :: 0 <= i < |table| && table[i].1 == key && Flag(p, table[i].0)
  }

  /** Every emitted entry comes from a table row whose column is true on the place. */
  lemma {:induction false} ResolvedEntriesShown(table: seq<(string, string)>, p: Place, defs: map<string, Definition>)
    ensures forall j :: 0 <= j < |ResolveTags(table, p, defs)| ==> ShownKey(table, p, ResolveTags(table, p, defs)[j].key)
  {
    if table != [] {
      ResolvedEntriesShown(table[1..], p, defs);
      var r := ResolveTags(table, p, defs);
      var rest := ResolveTags(table[1..], p, defs);
      forall j | 0 <= j < |r| ensures ShownKey(table, p, r[j].key) {
        if Flag(p, table[0].0) && j == 0 {
          assert table[0].1 == r[0].key;
        } else {
          var k := if Flag(p, table[0].0) then j - 1 else j;
          assert r[j] == rest[k];
          assert ShownKey(table[1..], p, rest[k].key);
          var i :| 0 <= i < |table[1..]| && table[1..][i].1 == rest[k].key && Flag(p, table[1..][i].0);
          assert table[i + 1] == table[1..][i];
        }
      }
    }
  }

  /** The rows of a table whose column is true on `p`. */
  function ShownRows(table: seq<(string, string)>, p: Place): seq<(string, string)> {
    Select(table, (row: (string, string)) => Flag(p, row.0))
  }

  /** The emitted keys are exactly the keys of the shown rows, in table order. */
  lemma {:induction false} ResolvedKeysFollowTable(table: seq<(string, string)>, p: Place, defs: map<string, Definition>)
    ensures EntryKeys(ResolveTags(table, p, defs)) == TableKeys(ShownRows(table, p))
  {
    if table != [] {
      ResolvedKeysFollowTable(table[1..], p, defs);
      var rest := ResolveTags(table[1..], p, defs);
      if Flag(p, table[0].0) {
        assert EntryKeys(ResolveTags(table, p, defs)) == [table[0].1] + EntryKeys(rest);
        assert ShownRows(table, p) == [table[0]] + ShownRows(table[1..], p);
        assert TableKeys(ShownRows(table, p)) == [table[0].1] + TableKeys(ShownRows(table[1..], p));
      }
    }
  }

  /** No display key occurs in two rows of the table. */
  predicate DistinctKeys(table: seq<(string, string)>) {
    forall i, j :: 0 <= i < j < |table| ==> table[i].1 != table[j].1
  }

  /** With distinct display keys in the table, no key is emitted twice. */
  lemma {:induction false} ResolvedKeysDistinct(table: seq<(string, string)>, p: Place, defs: map<string, Definition>)
    requires DistinctKeys(table)
    ensures NoDup(EntryKeys(ResolveTags(table, p, defs)))
  {
    if table != [] {
      assert forall i :: 1 <= i < |table| ==> table[i] == table[1..][i - 1];
      ResolvedKeysDistinct(table[1..], p, defs);
      var rest := ResolveTags(table[1..], p, defs);
      if Flag(p, table[0].0) {
        assert table[0].1 !in EntryKeys(rest) by {
          forall j | 0 <= j < |rest| ensures rest[j].key != table[0].1 {
            ResolvedEntriesShown(table[1..], p, defs);
            assert ShownKey(table[1..], p, rest[j].key);
            var i :| 0 <= i < |table[1..]| && table[1..][i].1 == rest[j].key && Flag(p, table[1..][i].0);
            assert table[i + 1].1 == rest[j].key;
          }
        }
        assert EntryKeys(ResolveTags(table, p, defs)) == [table[0].1] + EntryKeys(rest);
        NoDupCons(table[0].1, EntryKeys(rest));
      }
    }
  }

  /** Which keys are emitted does not depend on the definitions: a missing definition changes only
      the label and icon, never whether the entry appears. */
  lemma {:induction false} KeysIndependentOfDefinitions(table: seq<(string, string)>, p: Place, d1: map<string, Definition>, d2: map<string, Definition>)
    ensures EntryKeys(ResolveTags(table, p, d1)) == EntryKeys(ResolveTags(table, p, d2))
  {
    if table != [] {
      KeysIndependentOfDefinitions(table[1..], p, d1, d2);
      var r1 := ResolveTags(table[1..], p, d1);
      var r2 := ResolveTags(table[1..], p, d2);
      if Flag(p, table[0].0) {
        assert EntryKeys(ResolveTags(table, p, d1)) == [table[0].1] + EntryKeys(r1);
        assert EntryKeys(ResolveTags(table, p, d2)) == [table[0].1] + EntryKeys(r2);
      }
    }
  }

  /** Display keys are distinct in both tables, so neither serializer emits a key twice. */
  lemma ExpectationKeysDistinct()
    ensures DistinctKeys(ExpectationDisplayTable)
  {
  }

  lemma SortingKeysDistinct()
    ensures DistinctKeys(SortingDisplayTable)
  {
  }

  /** Every display row names a stored Boolean column. */
  lemma DisplayColumnsExist()
    ensures forall i :: 0 <= i < |ExpectationDisplayTable| ==> ExpectationDisplayTable[i].0 in BooleanFields
    ensures forall i :: 0 <= i < |SortingDisplayTable| ==> SortingDisplayTable[i].0 in BooleanFields
  {
  }

  /** The expectation display table agrees with the filter's key map: every display key the filter
      accepts maps to the column displayed under it, and "alcohol" is the one display key the filter
      does not accept. */
  lemma ExpectationTablesAgree()
    ensures forall i :: 0 <= i < |ExpectationDisplayTable| ==>
      if ExpectationDisplayTable[i].1 == "alcohol" then ExpectationDisplayTable[i].1 !in Filters.ExpectationKeyMap
      else (ExpectationDisplayTable[i].1 in Filters.ExpectationKeyMap &&
            Filters.ExpectationKeyMap[ExpectationDisplayTable[i].1] == ExpectationDisplayTable[i].0)
  {
  }

  /** Likewise for sorting tags, where "coffee" is the one display key the filter does not accept. */
  lemma SortingTablesAgree()
    ensures forall i :: 0 <= i < |SortingDisplayTable| ==>
      if SortingDisplayTable[i].1 == "coffee" then SortingDisplayTable[i].1 !in Filters.SortingKeyMap
      else (SortingDisplayTable[i].1 in Filters.SortingKeyMap &&
            Filters.SortingKeyMap[SortingDisplayTable[i].1] == SortingDisplayTable[i].0)
  {
  }

  /** A camel-case display key: non-empty and made of ASCII letters only. */
  predicate LetterKey(k: string) {
    k != [] && forall c :: c in k ==> IsLetter(c)
  }

  lemma LetterKeyClean(k: string)
    requires LetterKey(k)
    ensures Filters.CleanKey(k)
  {
    assert k[0] in k && k[|k| - 1] in k;
  }

  /** Every display key is a camel-case word. */
  lemma ExpectationKeysAreWords()
    ensures forall i :: 0 <= i < |ExpectationDisplayTable| ==> LetterKey(ExpectationDisplayTable[i].1)
  {
    assert forall i :: 0 <= i < 8 ==> LetterKey(ExpectationDisplayTable[i].1);
    assert forall i :: 8 <= i < |ExpectationDisplayTable| ==> LetterKey(ExpectationDisplayTable[i].1);
  }

  lemma SortingKeysAreWords()
    ensures forall i :: 0 <= i < |SortingDisplayTable| ==> LetterKey(SortingDisplayTable[i].1)
  {
  }

  /** A display key with distinct keys is emitted exactly when its row's column is true. */
  lemma DisplayedIffColumn(table: seq<(string, string)>, p: Place, defs: map<string, Definition>, i: int)
    requires DistinctKeys(table) && 0 <= i < |table|
    ensures table[i].1 in EntryKeys(ResolveTags(table, p, defs)) <==> Flag(p, table[i].0)
  {
    var r := ResolveTags(table, p, defs);
    if table[i].1 in EntryKeys(r) {
      var j :| 0 <= j < |r| && EntryKeys(r)[j] == table[i].1;
      ResolvedEntriesShown(table, p, defs);
      assert ShownKey(table, p, r[j].key);
      var i' :| 0 <= i' < |table| && table[i'].1 == r[j].key && Flag(p, table[i'].0);
      assert i' == i;
    }
  }

  /** The detail view and the list filter agree: a place lists expectation `k` exactly when
      `?expectations=k` keeps it. "alcohol" is the exception: it is listed but not filterable. */
  lemma ExpectationShownIffFiltered(p: Place, defs: map<string, Definition>, i: int)
    requires 0 <= i < |ExpectationDisplayTable| && ExpectationDisplayTable[i].1 != "alcohol"
    ensures ExpectationDisplayTable[i].1 in EntryKeys(GetExpectations(p, defs)) <==>
      p in Filters.FilterByExpectations([p], ExpectationDisplayTable[i].1)
  {
    var k := ExpectationDisplayTable[i].1;
    ExpectationTablesAgree();
    ExpectationKeysDistinct();
    ExpectationKeysAreWords();
    LetterKeyClean(k);
    Filters.ParseCleanKey(k);
    DisplayedIffColumn(ExpectationDisplayTable, p, defs, i);
    KeepsSingleIff(p, k, Filters.ExpectationKeyMap);
  }

  /** Likewise for sorting tags, where "coffee" is listed but not filterable. */
  lemma SortingTagShownIffFiltered(p: Place, defs: map<string, Definition>, i: int)
    requires 0 <= i < |SortingDisplayTable| && SortingDisplayTable[i].1 != "coffee"
    ensures SortingDisplayTable[i].1 in EntryKeys(GetSortingTags(p, defs)) <==>
      p in Filters.FilterBySortingTags([p], SortingDisplayTable[i].1)
  {
    var k := SortingDisplayTable[i].1;
    SortingTablesAgree();
    SortingKeysDistinct();
    SortingKeysAreWords();
    LetterKeyClean(k);
    Filters.ParseCleanKey(k);
    DisplayedIffColumn(SortingDisplayTable, p, defs, i);
    KeepsSingleIff(p, k, Filters.SortingKeyMap);
  }

  /** Filtering one place by one recognised key keeps it exactly when that key's column is true. */
  lemma KeepsSingleIff(p: Place, k: string, table: map<string, string>)
    requires k in table && Filters.ParseKeys(k) == [k]
    ensures p in Filters.FilterByKeys([p], k, table) <==> Flag(p, table[k])
  {
    var r := Filters.FilterByKeys([p], k, table);
    assert Filters.AllRecognisedTrue([k], table, p) <==> Flag(p, table[k]);
    if p in r {
      var j :| 0 <= j < |r| && r[j] == p;
    }
  }

  /** `get_user_interaction`: whether the requesting device has liked the place. A device id that
      is missing, empty or not a string never counts. */
  function IsLiked(request: Option<Request>, liked: seq<string>): (b: bool)
    ensures b <==> exists d :: d in liked && d != "" && SentDeviceId(request, d)
  {
    match RequestDeviceId(request)
    case Some(JString(d)) => d != "" && d in liked
    case _ => false
  }

  /** A POST is judged by its body alone and any other method by its query string alone. */
  lemma LikedReadsOneSource(req: Request, data: map<string, Json>, query: map<string, string>, liked: seq<string>)
    ensures req.verb == Post ==> IsLiked(Some(req), liked) == IsLiked(Some(req.(query := query)), liked)
    ensures req.verb != Post ==> IsLiked(Some(req), liked) == IsLiked(Some(req.(data := data)), liked)
  {
  }

  /** The serialized detail of a place, limited to the computed fields. */
  datatype PlaceDetail = PlaceDetail(
    id: int,
    expectations: seq<TagEntry>,
    sortingTags: seq<TagEntry>,
    workingHours: WorkingHoursStatus,
    isLiked: bool)

  /** What the serializer reads besides the place: the clock, the definitions in the request
      language, and the request. */
  datatype Context = Context(
    now: TimeOfDay,
    today: Weekday,
    expectationDefs: map<string, Definition>,
    sortTagDefs: map<string, Definition>,
    request: Option<Request>)

  /** `PlaceDetailSerializer(place).data`, computed fields only: the keys shown are those of the
      place's true columns in table order, each labelled from its definition; the working-hours
      status is open exactly when today's first row contains the current time; and `is_liked`
      says whether the requesting device is on the liked list. */
  function Detail(p: Place, ctx: Context): (d: PlaceDetail)
    ensures d.id == p.id
    ensures EntryKeys(d.expectations) == TableKeys(ShownRows(ExpectationDisplayTable, p))
    ensures EntryKeys(d.sortingTags) == TableKeys(ShownRows(SortingDisplayTable, p))
    ensures forall j :: 0 <= j < |d.expectations| ==>
      d.expectations[j].caption == Label(d.expectations[j].key, ctx.expectationDefs)
    ensures forall j :: 0 <= j < |d.sortingTags| ==>
      d.sortingTags[j].caption == Label(d.sortingTags[j].key, ctx.sortTagDefs)
    ensures d.workingHours.isOpenNow <==>
      TodaysHours(p.openTimes, ctx.today).Some? && InWindow(TodaysHours(p.openTimes, ctx.today).value, ctx.now)
    ensures d.isLiked <==> exists dev :: dev in p.likedByDevices && dev != "" && SentDeviceId(ctx.request, dev)
  {
    ResolvedKeysFollowTable(ExpectationDisplayTable, p, ctx.expectationDefs);
    ResolvedKeysFollowTable(SortingDisplayTable, p, ctx.sortTagDefs);
    PlaceDetail(
      p.id,
      GetExpectations(p, ctx.expectationDefs),
      GetSortingTags(p, ctx.sortTagDefs),
      GetWorkingHoursStatus(p.openTimes, ctx.now, ctx.today),
      IsLiked(ctx.request, p.likedByDevices))
  }
}

=== FILE: pytext.dfy ===
/** The Python string operations the core relies on: `str.strip()`, `str.split(',')`,
    `str.lower()`, `str.title()` and substring containment. Case mapping covers the
    ASCII letters only. */
module PyText {
  import opened Common

  /** Python's `str.isspace()` for one character: the Unicode whitespace that `strip()` removes. */
  predicate IsSpace(c: char) {
    || '\t' <= c <= '\r'
    || '\U{1C}' <= c <= ' '
    || c == '\U{85}' || c == '\U{A0}' || c == '\U{1680}'
    || '\U{2000}' <= c <= '\U{200A}'
    || c == '\U{2028}' || c == '\U{2029}' || c == '\U{202F}' || c == '\U{205F}' || c == '\U{3000}'
  }

  predicate AllSpace(s: string) {
    forall i :: 0 <= i < |s| ==> IsSpace(s[i])
  }

  /** Neither end of `s` is whitespace. */
  predicate Trimmed(s: string) {
    s == [] || (!IsSpace(s[0]) && !IsSpace(s[|s| - 1]))
  }

  /** Number of whitespace characters at the start of `s` (what `str.lstrip()` drops). */
  function LeadingSpace(s: string): (k: nat)
    ensures k <= |s|
    ensures forall i :: 0 <= i < k ==> IsSpace(s[i])
    ensures k < |s| ==> !IsSpace(s[k])
  {
    if s == [] || !IsSpace(s[0]) then 0
    else
      var k := LeadingSpace(s[1..]);
      assert forall i :: 1 <= i < |s| ==> s[i] == s[1..][i - 1];
      1 + k
  }

  /** Number of whitespace characters at the end of `s` (what `str.rstrip()` drops). */
  function TrailingSpace(s: string): (k: nat)
    ensures k <= |s|
    ensures forall i :: |s| - k <= i < |s| ==> IsSpace(s[i])
    ensures k < |s| ==> !IsSpace(s[|s| - k - 1])
  {
    if s == [] || !IsSpace(s[|s| - 1]) then 0
    else
      var k := TrailingSpace(s[..|s| - 1]);
      assert forall i :: 0 <= i < |s| - 1 ==> s[i] == s[..|s| - 1][i];
      1 + k
  }

  /** `str.strip()`: `s` with whitespace removed from both ends; what is kept is the
      contiguous run of `s` starting after its leading whitespace, and what is removed
      on either side is all whitespace. */
  function Strip(s: string): (r: string)
    ensures Trimmed(r)
    ensures LeadingSpace(s) + |r| <= |s|
    ensures r == s[LeadingSpace(s)..LeadingSpace(s) + |r|]
    ensures AllSpace(s[..LeadingSpace(s)]) && AllSpace(s[LeadingSpace(s) + |r|..])
  {
    var a := LeadingSpace(s);
    var t := TrailingSpace(s[a..]);
    StripSlice(s, a, t);
    s[a..|s| - t]
  }

  lemma StripSlice(s: string, a: nat, t: nat)
    requires a <= |s| && (a < |s| ==> !IsSpace(s[a]))
    requires forall i :: 0 <= i < a ==> IsSpace(s[i])
    requires t == TrailingSpace(s[a..])
    ensures a + t <= |s|
    ensures Trimmed(s[a..|s| - t])
    ensures AllSpace(s[..a]) && AllSpace(s[|s| - t..])
  {
    var rest := s[a..];
    var head := s[..a];
    forall i | 0 <= i < |head|
      ensures IsSpace(head[i])
    {
      assert head[i] == s[i];
    }
    var tail := s[|s| - t..];
    forall i | 0 <= i < |tail|
      ensures IsSpace(tail[i])
    {
      assert tail[i] == rest[|rest| - t + i];
    }
    var r := s[a..|s| - t];
    if r != [] {
      assert r[0] == s[a];
      assert r[|r| - 1] == rest[|rest| - t - 1];
    }
  }

  /** A string is blank (Python: `not s.strip()`) exactly when it is all whitespace. */
  lemma StripEmptyIffBlank(s: string)
    ensures Strip(s) == [] <==> AllSpace(s)
  {
    var n := LeadingSpace(s);
    var r := Strip(s);
    if r == [] {
      assert s == s[..n] + s[n..];
    } else {
      assert r[0] == s[n];
    }
  }

  /** Stripping removes whitespace only: a character that is not whitespace occurs in the
      stripped string exactly when it occurs in the original. */
  lemma StripKeeps(s: string, c: char)
    requires !IsSpace(c)
    ensures c in Strip(s) <==> c in s
  {
    var a := LeadingSpace(s);
    var r := Strip(s);
    forall k | a + |r| <= k < |s|
      ensures IsSpace(s[k])
    {
      assert s[a + |r|..][k - a - |r|] == s[k];
    }
    if c in s {
      var i :| 0 <= i < |s| && s[i] == c;
      assert r[i - a] == c;
    }
    if c in r {
      var j :| 0 <= j < |r| && r[j] == c;
      assert s[a + j] == c;
    }
  }

  /** Stripping a string that has no whitespace at either end leaves it alone. */
  lemma StripTrimmed(s: string)
    requires Trimmed(s)
    ensures Strip(s) == s
  {
  }

  /** `s.split(',')`: the pieces between commas; always at least one piece. */
  function Split(s: string): (r: seq<string>)
    ensures |r| >= 1
    ensures forall k :: 0 <= k < |r| ==> ',' !in r[k]
  {
    if s == [] then [""]
    else
      var rest := Split(s[1..]);
      if s[0] == ',' then [""] + rest
      else [[s[0]] + rest[0]] + rest[1..]
  }

  /** `','.join(pieces)`. */
  function Join(pieces: seq<string>): string
    requires |pieces| >= 1
  {
    if |pieces| == 1 then pieces[0] else pieces[0] + "," + Join(pieces[1..])
  }

  /** Splitting and re-joining on the separator gives back the original string. */
  lemma {:induction false} JoinSplit(s: string)
    ensures Join(Split(s)) == s
  {
    if s != [] {
      JoinSplit(s[1..]);
      var rest := Split(s[1..]);
      if s[0] == ',' {
        assert Split(s)[1..] == rest;
        assert s == "," + s[1..];
      } else {
        var r := Split(s);
        assert r[0] == [s[0]] + rest[0];
        if |rest| == 1 {
          assert s == [s[0]] + rest[0];
        } else {
          assert r[1..] == rest[1..];
          assert Join(r) == ([s[0]] + rest[0]) + "," + Join(rest[1..]);
          assert s == [s[0]] + s[1..];
        }
      }
    }
  }

  /** Splitting a comma-joined pair splits each side. */
  lemma {:induction false} SplitConcat(a: string, b: string)
    ensures Split(a + "," + b) == Split(a) + Split(b)
  {
    if a == [] {
      assert a + "," + b == "," + b;
      assert ("," + b)[1..] == b;
    } else {
      assert (a + "," + b)[1..] == a[1..] + "," + b;
      SplitConcat(a[1..], b);
    }
  }

  predicate IsUpper(c: char) { 'A' <= c <= 'Z' }
  predicate IsLower(c: char) { 'a' <= c <= 'z' }
  predicate IsLetter(c: char) { IsUpper(c) || IsLower(c) }

  function ToLower(c: char): (d: char)
    ensures IsUpper(c) ==> IsLower(d)
    ensures !IsUpper(c) ==> d == c
  {
    if IsUpper(c) then (c as int + 32) as char else c
  }

  function ToUpper(c: char): (d: char)
    ensures IsLower(c) ==> IsUpper(d)
    ensures !IsLower(c) ==> d == c
  {
    if IsLower(c) then (c as int - 32) as char else c
  }

  /** `str.lower()` on ASCII letters. */
  function Lower(s: string): (r: string)
    ensures |r| == |s|
    ensures forall i :: 0 <= i < |s| ==> r[i] == ToLower(s[i])
  {
    if s == [] then [] else [ToLower(s[0])] + Lower(s[1..])
  }

  /** `str.title()`: a letter that follows a letter is lowered, any other letter is raised,
      other characters are kept. `afterLetter` says whether the preceding character was a letter. */
  function TitleFrom(s: string, afterLetter: bool): string
  {
    if s == [] then []
    else
      var c := if !IsLetter(s[0]) then s[0] else if afterLetter then ToLower(s[0]) else ToUpper(s[0]);
      [c] + TitleFrom(s[1..], IsLetter(s[0]))
  }

  function Title(s: string): string {
    TitleFrom(s, false)
  }

  /** Character-by-character reading of `Title`: position `i` depends only on `s[i]` and `s[i - 1]`. */
  lemma {:induction false} TitleAt(s: string, after: bool, i: int)
    requires 0 <= i < |s|
    ensures |TitleFrom(s, after)| == |s|
    ensures TitleFrom(s, after)[i] ==
      if !IsLetter(s[i]) then s[i]
      else if (if i == 0 then after else IsLetter(s[i - 1])) then ToLower(s[i])
      else ToUpper(s[i])
  {
    TitleLength(s, after);
    if i > 0 {
      TitleAt(s[1..], IsLetter(s[0]), i - 1);
    }
  }

  lemma {:induction false} TitleLength(s: string, after: bool)
    ensures |TitleFrom(s, after)| == |s|
  {
    if s != [] {
      TitleLength(s[1..], IsLetter(s[0]));
    }
  }

  /** `title()` keeps the length, raises the letter that starts every run of letters and
      lowers the rest of the run; non-letters pass through. */
  lemma TitleShape(s: string)
    ensures |Title(s)| == |s|
    ensures forall i :: 0 <= i < |s| && IsLetter(s[i]) && (i == 0 || !IsLetter(s[i - 1])) ==>
      Title(s)[i] == ToUpper(s[i]) && IsUpper(Title(s)[i])
    ensures forall i :: 0 < i < |s| && IsLetter(s[i]) && IsLetter(s[i - 1]) ==>
      Title(s)[i] == ToLower(s[i]) && IsLower(Title(s)[i])
    ensures forall i :: 0 <= i < |s| && !IsLetter(s[i]) ==> Title(s)[i] == s[i]
  {
    TitleLength(s, false);
    forall i | 0 <= i < |s|
      ensures IsLetter(s[i]) && (i == 0 || !IsLetter(s[i - 1])) ==> Title(s)[i] == ToUpper(s[i]) && IsUpper(Title(s)[i])
      ensures 0 < i && IsLetter(s[i]) && IsLetter(s[i - 1]) ==> Title(s)[i] == ToLower(s[i]) && IsLower(Title(s)[i])
      ensures !IsLetter(s[i]) ==> Title(s)[i] == s[i]
    {
      TitleAt(s, false, i);
    }
  }

  /** Title-casing an already title-cased string changes nothing. */
  lemma TitleIdempotent(s: string)
    ensures Title(Title(s)) == Title(s)
  {
    var t := Title(s);
    TitleShape(s);
    TitleLength(t, false);
    forall i | 0 <= i < |t| ensures Title(t)[i] == t[i] {
      TitleAt(t, false, i);
      TitleAt(s, false, i);
      if i > 0 {
        TitleAt(s, false, i - 1);
      }
    }
  }

  /** `needle` occurs in `hay` starting at position `i`. */
  predicate OccursAt(hay: string, needle: string, i: int) {
    0 <= i && i + |needle| <= |hay| && hay[i..i + |needle|] == needle
  }

  /** Python's `needle in hay` for strings. */
  function Contains(hay: string, needle: string): (b: bool)
    ensures b <==> exists i :: OccursAt(hay, needle, i)
    decreases |hay|
  {
    if |needle| <= |hay| && hay[..|needle|] == needle then
      assert OccursAt(hay, needle, 0);
      true
    else if hay == [] then
      false
    else
      var b := Contains(hay[1..], needle);
      if b then
        var i :| OccursAt(hay[1..], needle, i);
        assert OccursAt(hay, needle, i + 1);
        true
      else
        assert forall i :: OccursAt(hay, needle, i) ==> i == 0 || OccursAt(hay[1..], needle, i - 1);
        false
  }

  /** Case-insensitive containment, as SQL's `UPPER(hay) LIKE UPPER('%needle%')` on ASCII. */
  predicate ContainsIgnoreCase(hay: string, needle: string)
  {
    Contains(Lower(hay), Lower(needle))
  }

  function Digit(d: int): (c: char)
    requires 0 <= d < 10
  {
    ('0' as int + d) as char
  }

  predicate IsDigit(c: char) { '0' <= c <= '9' }

  function DigitValue(c: char): int
    requires IsDigit(c)
  {
    c as int - '0' as int
  }

  predicate AllDigits(s: string) {
    forall i :: 0 <= i < |s| ==> IsDigit(s[i])
  }

  /** Value of a run of decimal digits. */
  function DigitsValue(s: string): nat
    requires AllDigits(s)
  {
    if s == [] then 0 else 10 * DigitsValue(s[..|s| - 1]) + DigitValue(s[|s| - 1])
  }

  /** `str(n)` for a natural number: its decimal digits, most significant first, no leading zero. */
  function NatString(n: nat): (s: string)
    ensures s != [] && AllDigits(s)
    ensures |s| > 1 ==> s[0] != '0'
  {
    if n < 10 then [Digit(n)] else NatString(n / 10) + [Digit(n % 10)]
  }

  /** Python's `str(i)` for an integer. */
  function DecimalString(i: int): string {
    if i < 0 then "-" + NatString(-i) else NatString(i)
  }

  predicate IsSign(c: char) { c == '-' || c == '+' }

  /** The shape `int()` reads once the whitespace is stripped: an optional sign, then at least
      one digit and nothing else. */
  predicate SignedDigits(t: string) {
    && t != []
    && (IsSign(t[0]) ==> |t| > 1 && AllDigits(t[1..]))
    && (!IsSign(t[0]) ==> AllDigits(t))
  }

  /** Python's `int(s)` on decimal text: surrounding whitespace, an optional sign, then digits. */
  function ParseInt(s: string): (r: Option<int>)
    ensures r.Some? <==> SignedDigits(Strip(s))
    ensures r.Some? ==> !AllSpace(s)
  {
    var t := Strip(s);
    var negative := t != [] && t[0] == '-';
    var digits := if t != [] && (t[0] == '-' || t[0] == '+') then t[1..] else t;
    if digits != [] && AllDigits(digits) then
      assert !AllSpace(s) by {
        StripEmptyIffBlank(s);
      }
      var v: int := DigitsValue(digits);
      Some(if negative then -v else v)
    else None
  }

  lemma {:induction false} NatStringValue(n: nat)
    ensures DigitsValue(NatString(n)) == n
  {
    if n >= 10 {
      NatStringValue(n / 10);
      var s := NatString(n);
      assert s[..|s| - 1] == NatString(n / 10);
    }
  }

  /** Reading back the rendering of an integer gives the integer. */
  lemma DecimalRoundTrip(i: int)
    ensures ParseInt(DecimalString(i)) == Some(i)
  {
    var n: nat := if i < 0 then -i else i;
    NatStringValue(n);
    if i < 0 {
      var s := DecimalString(i);
      assert s[1..] == NatString(n);
      ParseNegative(s);
    } else {
      ParseUnsigned(NatString(n));
    }
  }

  /** `int()` of a run of digits is its value. */
  lemma ParseUnsigned(d: string)
    requires d != [] && AllDigits(d)
    ensures ParseInt(d) == Some(DigitsValue(d) as int)
  {
    assert IsDigit(d[0]) && IsDigit(d[|d| - 1]);
    StripTrimmed(d);
  }

  /** `int()` of a minus sign followed by a run of digits is the negated value. */
  lemma ParseNegative(s: string)
    requires |s| >= 2 && s[0] == '-' && AllDigits(s[1..])
    ensures ParseInt(s) == Some(-(DigitsValue(s[1..]) as int))
  {
    assert IsDigit(s[1..][|s| - 2]);
    StripTrimmed(s);
  }

  /** `int()` refuses text with a character that is neither a digit nor a leading sign, such as
      `"abc"` or `"1x"`. */
  lemma ParseIntRejects(s: string, k: int)
    requires 0 <= k < |Strip(s)| && !IsDigit(Strip(s)[k]) && !(k == 0 && IsSign(Strip(s)[0]))
    ensures ParseInt(s).None?
  {
    var t := Strip(s);
    if k > 0 {
      assert t[1..][k - 1] == t[k];
    }
  }

  /** A rendered integer is never blank. */
  lemma DecimalStringNotBlank(i: int)
    ensures !AllSpace(DecimalString(i)) && Trimmed(DecimalString(i)) && '\0' !in DecimalString(i)
  {
    var s := DecimalString(i);
    assert !IsSpace(s[0]);
  }
}

=== FILE: requests.dfy ===
/** Request bodies and the Django REST framework field rules the request serializers of
    api/serializers.py rely on: `CharField`, `IntegerField` and `ListField`, then
    `LikeRequestSerializer` and `WheelSpinRequestSerializer`. A request body is a JSON object. */
module Requests {
  import opened Common
  import opened PyText

  /** A decoded JSON value. Floats and nested objects are `JOther`. */
  datatype Json = JNull | JBool(b: bool) | JInt(i: int) | JString(s: string) | JList(items: seq<Json>) | JOther

  /** A request: its method, its decoded body and its query-string parameters. */
  datatype Method = Get | Post | OtherMethod
  datatype Request = Request(verb: Method, data: map<string, Json>, query: map<string, string>)

  /** Why a field was rejected. `NullCharacter` is the refusal of a string holding U+0000. */
  datatype FieldError = Required | NullValue | Blank | NullCharacter | Invalid | NotAList | BadItem(index: nat, item: FieldError)

  /** `data.get(name)`: the field's value, or nothing when it is missing. */
  function Field(data: map<string, Json>, name: string): Option<Json> {
    if name in data then Some(data[name]) else None
  }

  /** A string a required, non-blank `CharField` returns unchanged: non-empty, stripped and
      free of U+0000. */
  predicate CleanString(s: string) {
    s != [] && Trimmed(s) && '\0' !in s
  }

  /** `str(v).strip() == ''`: only a string can render blank. */
  predicate RendersBlank(v: Json) {
    v.JString? && AllSpace(v.s)
  }

  /** A `CharField` with whitespace trimming and its validator against null characters: a
      blank string is settled before the validators run, and any other string is stripped and
      then refused when it holds U+0000. `raw` is `None` when the field is missing; the result
      is `Success(None)` when the field is left out of the validated data or is null. */
  function CharField(raw: Option<Json>, required: bool, allowBlank: bool, allowNull: bool): (r: Result<Option<string>, FieldError>)
    ensures raw.None? ==> r == (if required then Failure(Required) else Success(None))
    ensures raw.Some? && raw.value.JString? ==>
      (r.Success? <==> (allowBlank || !AllSpace(raw.value.s)) && '\0' !in Strip(raw.value.s)) &&
      (r.Success? ==> r.value == Some(Strip(raw.value.s)))
    ensures raw.Some? && raw.value.JString? && !AllSpace(raw.value.s) && '\0' in Strip(raw.value.s) ==>
      r == Failure(NullCharacter)
    ensures raw.Some? && raw.value.JInt? ==> r == Success(Some(DecimalString(raw.value.i)))
    ensures raw.Some? && raw.value == JNull ==> r == (if allowNull then Success(None) else Failure(NullValue))
    ensures raw.Some? && (raw.value.JBool? || raw.value.JList? || raw.value == JOther) ==> r == Failure(Invalid)
    ensures r.Success? && r.value.Some? ==> Trimmed(r.value.value) && '\0' !in r.value.value && (r.value.value == "" ==> allowBlank)
  {
    match raw
    case None => if required then Failure(Required) else Success(None)
    case Some(v) =>
      if RendersBlank(v) then
        StripEmptyIffBlank(v.s);
        if allowBlank then Success(Some("")) else Failure(Blank)
      else
        match v
        case JNull => if allowNull then Success(None) else Failure(NullValue)
        case JString(s) =>
          StripEmptyIffBlank(s);
          if '\0' in Strip(s) then Failure(NullCharacter) else Success(Some(Strip(s)))
        case JInt(i) =>
          DecimalStringNotBlank(i);
          Success(Some(DecimalString(i)))
        case _ => Failure(Invalid)
  }

  /** A present `CharField()` list item: required, not blank, not null. */
  function CharItem(v: Json): Result<string, FieldError> {
    match CharField(Some(v), true, false, false)
    case Success(s) => if s.Some? then Success(s.value) else Failure(NullValue)
    case Failure(e) => Failure(e)
  }

  /** An `IntegerField()` list item: an integer, or a string that reads as one. */
  function IntegerItem(v: Json): (r: Result<int, FieldError>)
    ensures v.JInt? ==> r == Success(v.i)
    ensures v.JString? ==> (r.Success? <==> ParseInt(v.s).Some?) && (r.Success? ==> r.value == ParseInt(v.s).value)
    ensures v == JNull ==> r == Failure(NullValue)
  {
    match v
    case JNull => Failure(NullValue)
    case JInt(i) => Success(i)
    case JString(s) => if ParseInt(s).Some? then Success(ParseInt(s).value) else Failure(Invalid)
    case _ => Failure(Invalid)
  }

  /** The items of a list validated one by one; the first bad item is reported. */
  function CharItems(items: seq<Json>): (r: Result<seq<string>, FieldError>)
    ensures r.Success? <==> forall i :: 0 <= i < |items| ==> CharItem(items[i]).Success?
    ensures r.Success? ==> (|r.value| == |items| &&
      forall i :: 0 <= i < |items| ==> r.value[i] == CharItem(items[i]).value)
  {
    if items == [] then Success([])
    else
      assert forall i :: 1 <= i < |items| ==> items[i] == items[1..][i - 1];
      match CharItem(items[0])
      case Failure(e) => Failure(BadItem(0, e))
      case Success(s) =>
        match CharItems(items[1..])
        case Failure(e) => Failure(if e.BadItem? then BadItem(e.index + 1, e.item) else e)
        case Success(rest) => Success([s] + rest)
  }

  function IntegerItems(items: seq<Json>): (r: Result<seq<int>, FieldError>)
    ensures r.Success? <==> forall i :: 0 <= i < |items| ==> IntegerItem(items[i]).Success?
    ensures r.Success? ==> (|r.value| == |items| &&
      forall i :: 0 <= i < |items| ==> r.value[i] == IntegerItem(items[i]).value)
  {
    if items == [] then Success([])
    else
      assert forall i :: 1 <= i < |items| ==> items[i] == items[1..][i - 1];
      match IntegerItem(items[0])
      case Failure(e) => Failure(BadItem(0, e))
      case Success(n) =>
        match IntegerItems(items[1..])
        case Failure(e) => Failure(if e.BadItem? then BadItem(e.index + 1, e.item) else e)
        case Success(rest) => Success([n] + rest)
  }

  /** A non-blank trimmed string without U+0000 is accepted by a list's `CharField` child as itself. */
  lemma CharItemOfCleanString(s: string)
    requires CleanString(s)
    ensures CharItem(JString(s)) == Success(s)
  {
    StripTrimmed(s);
    StripEmptyIffBlank(s);
  }

  /** `ListField(child=CharField(), required=False, default=list)`: a missing field is the empty list. */
  function CharList(raw: Option<Json>): (r: Result<seq<string>, FieldError>)
    ensures raw.None? ==> r == Success([])
    ensures r.Success? ==> forall i :: 0 <= i < |r.value| ==> CleanString(r.value[i])
    ensures raw.Some? && raw.value.JList? ==> r == CharItems(raw.value.items)
    ensures raw.Some? && !raw.value.JList? ==> r.Failure?
  {
    match raw
    case None => Success([])
    case Some(JNull) => Failure(NullValue)
    case Some(JList(items)) =>
      var r := CharItems(items);
      assert r.Success? ==> forall i :: 0 <= i < |items| ==> CharField(Some(items[i]), true, false, false).value.Some?;
      r
    case Some(_) => Failure(NotAList)
  }

  /** `ListField(child=IntegerField(), required=False, default=list)`. */
  function IntegerList(raw: Option<Json>): (r: Result<seq<int>, FieldError>)
    ensures raw.None? ==> r == Success([])
    ensures raw.Some? && raw.value.JList? && (forall i :: 0 <= i < |raw.value.items| ==> raw.value.items[i].JInt?) ==>
      r.Success? && |r.value| == |raw.value.items| &&
      forall i :: 0 <= i < |r.value| ==> r.value[i] == raw.value.items[i].i
    ensures raw.Some? && raw.value.JList? ==> r == IntegerItems(raw.value.items)
    ensures raw.Some? && !raw.value.JList? ==> r.Failure?
  {
    match raw
    case None => Success([])
    case Some(JNull) => Failure(NullValue)
    case Some(JList(items)) => IntegerItems(items)
    case Some(_) => Failure(NotAList)
  }

  /** `LikeRequestSerializer`: `device_id` is a required, non-blank string without U+0000 (or
      an integer, which is rendered as its decimal text). */
  function ValidateLike(data: map<string, Json>): (r: Result<string, FieldError>)
    ensures "device_id" !in data ==> r == Failure(Required)
    ensures "device_id" in data && data["device_id"] == JNull ==> r == Failure(NullValue)
    ensures "device_id" in data && !(data["device_id"].JString? || data["device_id"].JInt? || data["device_id"] == JNull) ==>
      r == Failure(Invalid)
    ensures "device_id" in data && data["device_id"].JInt? ==> r == Success(DecimalString(data["device_id"].i))
    ensures r.Success? ==> CleanString(r.value)
    ensures "device_id" in data && data["device_id"].JString? ==>
      (r.Success? <==> !AllSpace(data["device_id"].s) && '\0' !in Strip(data["device_id"].s)) &&
      (r.Success? ==> r.value == Strip(data["device_id"].s))
    ensures "device_id" in data && data["device_id"].JString? ==>
      !AllSpace(data["device_id"].s) && '\0' in Strip(data["device_id"].s) ==> r == Failure(NullCharacter)
  {
    var c := CharField(Field(data, "device_id"), true, false, false);
    if c.Success? && c.value.Some? then Success(c.value.value)
    else if c.Success? then Failure(NullValue)
    else Failure(c.error)
  }

  /** The validated wheel-spin request. */
  datatype WheelSpinRequest = WheelSpinRequest(regionKeys: seq<string>, expectationKeys: seq<string>, categoryIds: seq<int>, deviceId: Option<string>)

  /** The fields of `WheelSpinRequestSerializer`, in the order it declares them. */
  const WheelSpinFields: seq<string> := ["region_keys", "expectation_keys", "category_ids", "device_id"]

  /** The optional, nullable, possibly blank `device_id` of a wheel spin. */
  function SpinDeviceId(data: map<string, Json>): Result<Option<string>, FieldError> {
    CharField(Field(data, "device_id"), false, true, true)
  }

  /** `WheelSpinRequestSerializer`: three optional lists that default to empty and an optional,
      nullable, possibly blank `device_id`. Every field is validated on its own; the request is
      valid exactly when all four are, and otherwise the errors name exactly the rejected
      fields, in declaration order. */
  function ValidateWheelSpin(data: map<string, Json>): (r: Result<WheelSpinRequest, seq<string>>)
    ensures r.Success? <==>
      && CharList(Field(data, "region_keys")).Success?
      && CharList(Field(data, "expectation_keys")).Success?
      && IntegerList(Field(data, "category_ids")).Success?
      && SpinDeviceId(data).Success?
    ensures r.Success? ==> r.value == WheelSpinRequest(
      CharList(Field(data, "region_keys")).value,
      CharList(Field(data, "expectation_keys")).value,
      IntegerList(Field(data, "category_ids")).value,
      SpinDeviceId(data).value)
    ensures r.Failure? ==>
      && r.error != []
      && ("region_keys" in r.error <==> CharList(Field(data, "region_keys")).Failure?)
      && ("expectation_keys" in r.error <==> CharList(Field(data, "expectation_keys")).Failure?)
      && ("category_ids" in r.error <==> IntegerList(Field(data, "category_ids")).Failure?)
      && ("device_id" in r.error <==> SpinDeviceId(data).Failure?)
      && forall i :: 0 <= i < |r.error| ==> r.error[i] in WheelSpinFields
  {
    var regions := CharList(Field(data, "region_keys"));
    var expectations := CharList(Field(data, "expectation_keys"));
    var categories := IntegerList(Field(data, "category_ids"));
    var device := SpinDeviceId(data);
    var errors := Flagged(WheelSpinFields, [regions.Failure?, expectations.Failure?, categories.Failure?, device.Failure?]);
    FlaggedFour("region_keys", "expectation_keys", "category_ids", "device_id",
      regions.Failure?, expectations.Failure?, categories.Failure?, device.Failure?);
    if errors == [] then
      Success(WheelSpinRequest(regions.value, expectations.value, categories.value, device.value))
    else Failure(errors)
  }

  /** Missing lists default to empty and a missing `device_id` to none, accepted keys are
      clean, and an empty body is valid. */
  lemma WheelSpinDefaults(data: map<string, Json>)
    ensures var r := ValidateWheelSpin(data);
      r.Success? ==>
        && ("region_keys" !in data ==> r.value.regionKeys == [])
        && ("expectation_keys" !in data ==> r.value.expectationKeys == [])
        && ("category_ids" !in data ==> r.value.categoryIds == [])
        && ("device_id" !in data ==> r.value.deviceId.None?)
    ensures var r := ValidateWheelSpin(data);
      r.Success? ==>
        && (forall i :: 0 <= i < |r.value.regionKeys| ==> CleanString(r.value.regionKeys[i]))
        && (forall i :: 0 <= i < |r.value.expectationKeys| ==> CleanString(r.value.expectationKeys[i]))
    ensures "region_keys" !in data && "expectation_keys" !in data && "category_ids" !in data && "device_id" !in data ==>
      ValidateWheelSpin(data) == Success(WheelSpinRequest([], [], [], None))
  {
  }

  /** A body of clean string keys, integer category ids and no `device_id` validates to exactly
      those lists and no device. */
  lemma WheelSpinRoundTrip(regions: seq<string>, expectations: seq<string>, categories: seq<int>)
    requires forall i :: 0 <= i < |regions| ==> CleanString(regions[i])
    requires forall i :: 0 <= i < |expectations| ==> CleanString(expectations[i])
    ensures ValidateWheelSpin(map[
        "region_keys" := JList(Strings(regions)),
        "expectation_keys" := JList(Strings(expectations)),
        "category_ids" := JList(Integers(categories))]) ==
      Success(WheelSpinRequest(regions, expectations, categories, None))
  {
    var data := map[
      "region_keys" := JList(Strings(regions)),
      "expectation_keys" := JList(Strings(expectations)),
      "category_ids" := JList(Integers(categories))];
    CleanKeysRoundTrip(regions);
    CleanKeysRoundTrip(expectations);
    IntegersRoundTrip(categories);
    assert Field(data, "region_keys") == Some(JList(Strings(regions)));
    assert Field(data, "expectation_keys") == Some(JList(Strings(expectations)));
    assert Field(data, "category_ids") == Some(JList(Integers(categories)));
    assert "device_id" !in data;
  }

  /** A key list holding a blank string fails the wheel spin, and the errors name that list. */
  lemma WheelSpinRejectsBlankKey(data: map<string, Json>, s: string)
    requires "region_keys" in data && data["region_keys"] == JList([JString(s)]) && AllSpace(s)
    ensures ValidateWheelSpin(data).Failure? && "region_keys" in ValidateWheelSpin(data).error
  {
    assert CharItem(JString(s)) == Failure(Blank);
  }

  /** The `device_id` a request carries: from the body for POST, from the query string otherwise. */
  function RequestDeviceId(request: Option<Request>): Option<Json> {
    match request
    case None => None
    case Some(req) =>
      if req.verb == Post then Field(req.data, "device_id")
      else if "device_id" in req.query then Some(JString(req.query["device_id"]))
      else None
  }

  /** The request sent device id `d`, in the place the method reads it from. */
  predicate SentDeviceId(request: Option<Request>, d: string) {
    && request.Some?
    && (if request.value.verb == Post
        then "device_id" in request.value.data && request.value.data["device_id"] == JString(d)
        else "device_id" in request.value.query && request.value.query["device_id"] == d)
  }

  /** A trimmed, non-empty device id without U+0000 sent as a string is accepted as itself. */
  lemma LikeAcceptsCleanId(data: map<string, Json>, s: string)
    requires "device_id" in data && data["device_id"] == JString(s)
    requires CleanString(s)
    ensures ValidateLike(data) == Success(s)
  {
    StripTrimmed(s);
    StripEmptyIffBlank(s);
  }

  /** A device id holding U+0000 anywhere, even padded, is refused. */
  lemma LikeRejectsNullCharacter(data: map<string, Json>, s: string)
    requires "device_id" in data && data["device_id"] == JString(s)
    requires '\0' in s
    ensures ValidateLike(data) == Failure(NullCharacter)
  {
    StripKeeps(s, '\0');
    var i :| 0 <= i < |s| && s[i] == '\0';
    assert !AllSpace(s) by { assert !IsSpace(s[i]); }
  }

  /** An integer device id is accepted as its decimal text, which reads back as the integer. */
  lemma LikeAcceptsIntegerId(data: map<string, Json>, i: int)
    requires "device_id" in data && data["device_id"] == JInt(i)
    ensures ValidateLike(data).Success? && ParseInt(ValidateLike(data).value) == Some(i)
  {
    DecimalRoundTrip(i);
  }

  /** A list of clean keys passes through list validation unchanged. */
  lemma CleanKeysRoundTrip(keys: seq<string>)
    requires forall i :: 0 <= i < |keys| ==> CleanString(keys[i])
    ensures CharList(Some(JList(Strings(keys)))) == Success(keys)
  {
    var items := Strings(keys);
    CleanItemsAccepted(keys, items);
    var r := CharItems(items);
    assert r.Success? && |r.value| == |keys|;
    assert forall i :: 0 <= i < |keys| ==> r.value[i] == keys[i];
    assert r.value == keys;
    assert CharList(Some(JList(items))) == r;
  }

  lemma CleanItemsAccepted(keys: seq<string>, items: seq<Json>)
    requires forall i :: 0 <= i < |keys| ==> CleanString(keys[i])
    requires |items| == |keys| && forall i :: 0 <= i < |keys| ==> items[i] == JString(keys[i])
    ensures forall i :: 0 <= i < |items| ==> CharItem(items[i]) == Success(keys[i])
  {
    forall i | 0 <= i < |items| ensures CharItem(items[i]) == Success(keys[i]) {
      CharItemOfCleanString(keys[i]);
    }
  }

  /** A list of integers passes through list validation unchanged. */
  lemma IntegersRoundTrip(ns: seq<int>)
    ensures IntegerList(Some(JList(Integers(ns)))) == Success(ns)
  {
    var r := IntegerList(Some(JList(Integers(ns))));
    assert r.value == ns;
  }

  /** The JSON list of the given integers. */
  function Integers(ns: seq<int>): (items: seq<Json>)
    ensures |items| == |ns| && forall i :: 0 <= i < |ns| ==> items[i] == JInt(ns[i])
  {
    if ns == [] then [] else [JInt(ns[0])] + Integers(ns[1..])
  }

  /** The JSON list of the given strings. */
  function Strings(keys: seq<string>): (items: seq<Json>)
    ensures |items| == |keys| && forall i :: 0 <= i < |keys| ==> items[i] == JString(keys[i])
  {
    if keys == [] then [] else [JString(keys[0])] + Strings(keys[1..])
  }
}

=== FILE: views.dfy ===
/** The endpoints of api/views.py that hold logic: the active-place queryset behind listing and
    retrieval, the like toggle, and the wheel spin. The database is the sequence of places in
    queryset order; the random index generator is a parameter. */
module Views {
  import opened Common
  import opened PyText
  import opened Places
  import opened Requests
  import opened Presentation
  import Filters

  /** `PlaceViewSet.get_queryset`: active places only, in order. */
  function ActivePlaces(places: seq<Place>): (r: seq<Place>)
    ensures forall i :: 0 <= i < |r| ==> r[i] in places && IsActive(r[i])
    ensures forall i :: 0 <= i < |places| && IsActive(places[i]) ==> places[i] in r
  {
    Select(places, IsActive)
  }

  /** `filter_queryset(get_queryset())`, behind the list endpoint and `get_object`: the active
      places narrowed by `PlaceFilter`, or the invalid parameter the 400 names. */
  function ListPlaces(places: seq<Place>, raw: Filters.QueryParams, categoryIds: set<int>): (r: Result<seq<Place>, seq<string>>)
    ensures r.Failure? <==> Filters.InvalidFilter(raw, categoryIds)
    ensures r.Failure? ==> Filters.NamesFailures(r.error, raw, categoryIds)
    ensures r.Success? ==> var q := Filters.CleanFilterParams(raw, categoryIds).value;
      && (forall i :: 0 <= i < |r.value| ==> r.value[i] in places && IsActive(r.value[i]) && Filters.PassesFilter(r.value[i], q))
      && (forall i :: 0 <= i < |places| && IsActive(places[i]) && Filters.PassesFilter(places[i], q) ==> places[i] in r.value)
  {
    match Filters.CleanFilterParams(raw, categoryIds)
    case Failure(e) => Failure(e)
    case Success(q) =>
      var active := ActivePlaces(places);
      Filters.ApplyPlaceFilterIsConjunction(active, q);
      assert forall i :: 0 <= i < |places| && IsActive(places[i]) ==> places[i] in active;
      Success(Filters.ApplyPlaceFilter(active, q))
  }

  /** `get_object()`: the place with primary key `pk` among the filtered active places, if any. */
  function GetObject(queryset: seq<Place>, pk: int): (r: Option<Place>)
    ensures r.None? <==> forall i :: 0 <= i < |queryset| ==> queryset[i].id != pk
    ensures r.Some? ==> r.value in queryset && r.value.id == pk
  {
    if queryset == [] then None
    else if queryset[0].id == pk then Some(queryset[0])
    else
      assert forall i :: 1 <= i < |queryset| ==> queryset[i] == queryset[1..][i - 1];
      GetObject(queryset[1..], pk)
  }

  /** The list update of `like`: remove the first occurrence of a device that has liked the place,
      otherwise append it. The flag says whether the action was a like. */
  function ToggleLike(liked: seq<string>, d: string): (r: (seq<string>, bool))
    ensures r.1 <==> d !in liked
    ensures r.1 ==> r.0 == liked + [d]
    ensures !r.1 ==> var i := IndexOf(liked, d); r.0 == liked[..i] + liked[i + 1..]
    ensures !r.1 ==> |r.0| == |liked| - 1 && multiset(r.0) == multiset(liked) - multiset{d}
    ensures |r.0| == if r.1 then |liked| + 1 else |liked| - 1
  {
    if d in liked then
      RemoveFirstCounts(liked, d);
      (RemoveFirst(liked, d), false)
    else
      assert multiset(liked + [d]) == multiset(liked) + multiset{d};
      (liked + [d], true)
  }

  /** Liking and then unliking with a device that had not liked the place restores the list. */
  lemma ToggleTwiceRestores(liked: seq<string>, d: string)
    requires d !in liked
    ensures ToggleLike(ToggleLike(liked, d).0, d) == (liked, false)
  {
    RemoveFirstOfAppended(liked, d);
  }

  /** A list without repeats keeps that shape through any toggle. */
  lemma ToggleKeepsNoDup(liked: seq<string>, d: string)
    requires NoDup(liked)
    ensures NoDup(ToggleLike(liked, d).0)
  {
    if d in liked {
      RemoveFirstKeepsNoDup(liked, d);
    } else {
      AppendKeepsNoDup(liked, d);
    }
  }

  /** Without repeats, the reported `is_liked` is whether the device is on the list afterwards. */
  lemma ToggleReportsMembership(liked: seq<string>, d: string)
    requires NoDup(liked)
    ensures ToggleLike(liked, d).1 <==> d in ToggleLike(liked, d).0
  {
    if d in liked {
      var i := IndexOf(liked, d);
      var r := ToggleLike(liked, d).0;
      RemoveFirstAt(liked, d);
      forall k | 0 <= k < |r| ensures r[k] != d {
        var k' := if k < i then k else k + 1;
        assert r[k] == liked[k'] && k' != i;
      }
    }
  }

  /** With a repeated entry, unliking removes only one copy: `is_liked` is reported false while
      the device is still on the list. */
  lemma ToggleWithRepeatKeepsDevice(d: string)
    ensures ToggleLike([d, d], d) == ([d], false)
  {
  }

  /** The like response. */
  datatype LikeResponse =
    | LikeInvalidFilter(parameters: seq<string>)
    | LikeNotFound
    | LikeBadRequest(error: FieldError)
    | LikeOk(isLiked: bool, likeCount: nat)

  /** The place `like` acts on: `get_object()` over the filtered queryset. */
  function LikeTarget(places: seq<Place>, raw: Filters.QueryParams, categoryIds: set<int>, pk: int): Option<Place> {
    match ListPlaces(places, raw, categoryIds)
    case Failure(_) => None
    case Success(qs) => GetObject(qs, pk)
  }

  /** What a like by device `d` does to place `p`: only the liked list changes. A device not on
      the list is appended and the action is a like; otherwise its first occurrence is removed,
      the rest keeping their order. The count is the new list's length. */
  predicate Toggled(p: Place, d: string, isLiked: bool, likeCount: nat, saved: Place) {
    && saved == p.(likedByDevices := saved.likedByDevices)
    && (isLiked <==> d !in p.likedByDevices)
    && (isLiked ==> saved.likedByDevices == p.likedByDevices + [d])
    && (!isLiked ==> var i := IndexOf(p.likedByDevices, d);
          saved.likedByDevices == p.likedByDevices[..i] + p.likedByDevices[i + 1..])
    && likeCount == |saved.likedByDevices|
  }

  /** `PlaceViewSet.like`: look the place up through the filtered queryset (an invalid filter
      parameter is a 400, a missing place a 404, both before validation), validate the body (a
      400 leaves the place alone), toggle and save. Returns the response and the saved place. */
  function Like(places: seq<Place>, raw: Filters.QueryParams, categoryIds: set<int>, pk: int, data: map<string, Json>): (r: (LikeResponse, Option<Place>))
    ensures Filters.InvalidFilter(raw, categoryIds) ==>
      r.0.LikeInvalidFilter? && r.1.None? && Filters.NamesFailures(r.0.parameters, raw, categoryIds)
    ensures !Filters.InvalidFilter(raw, categoryIds) && LikeTarget(places, raw, categoryIds, pk).None? ==>
      r == (LikeNotFound, None)
    ensures LikeTarget(places, raw, categoryIds, pk).Some? && ValidateLike(data).Failure? ==>
      r == (LikeBadRequest(ValidateLike(data).error), None)
    ensures r.0.LikeOk? <==> r.1.Some?
    ensures LikeTarget(places, raw, categoryIds, pk).Some? && ValidateLike(data).Success? ==> r.0.LikeOk?
    ensures r.0.LikeOk? ==>
      && LikeTarget(places, raw, categoryIds, pk).Some? && ValidateLike(data).Success?
      && Toggled(LikeTarget(places, raw, categoryIds, pk).value, ValidateLike(data).value, r.0.isLiked, r.0.likeCount, r.1.value)
    ensures LikeTarget(places, raw, categoryIds, pk).Some? ==>
      var p := LikeTarget(places, raw, categoryIds, pk).value;
      p in places && IsActive(p) && p.id == pk
  {
    match ListPlaces(places, raw, categoryIds)
    case Failure(e) => (LikeInvalidFilter(e), None)
    case Success(qs) =>
      var found := GetObject(qs, pk);
      if found.None? then (LikeNotFound, None)
      else
        var p := found.value;
        match ValidateLike(data)
        case Failure(e) => (LikeBadRequest(e), None)
        case Success(d) =>
          var (updated, isLiked) := ToggleLike(p.likedByDevices, d);
          (LikeOk(isLiked, |updated|), Some(p.(likedByDevices := updated)))
  }

  /** After a successful like, a detail request from the same device (as a query parameter)
      reports the same `is_liked` the like response did, as long as the list has no repeats. */
  lemma LikeAgreesWithDetail(places: seq<Place>, raw: Filters.QueryParams, categoryIds: set<int>, pk: int, data: map<string, Json>, query: map<string, string>)
    requires Like(places, raw, categoryIds, pk, data).0.LikeOk?
    requires NoDup(LikeTarget(places, raw, categoryIds, pk).value.likedByDevices)
    requires "device_id" in query && query["device_id"] == ValidateLike(data).value
    ensures var (response, saved) := Like(places, raw, categoryIds, pk, data);
      IsLiked(Some(Request(Get, map[], query)), saved.value.likedByDevices) == response.isLiked
  {
    var p := LikeTarget(places, raw, categoryIds, pk).value;
    var d := ValidateLike(data).value;
    ToggleReportsMembership(p.likedByDevices, d);
    var liked := ToggleLike(p.likedByDevices, d).0;
    if d in liked {
      assert SentDeviceId(Some(Request(Get, map[], query)), d);
    }
  }

  /** `field_mapping` of the region loop: each region key names its own column. */
  const RegionKeyMap: map<string, string> := map[
    "kyrenia" := "kyrenia", "nicosia" := "nicosia", "famagusta" := "famagusta", "iskele" := "iskele",
    "guzelyurt" := "guzelyurt", "karpaz" := "karpaz", "lefke" := "lefke"]

  /** The column a wheel-spin key filters: its mapped column, else the key itself when it names a
      Boolean column of the place, else none (the key is ignored). */
  function SpinColumn(key: string, table: map<string, string>): (c: Option<string>)
    ensures key in table ==> c == Some(table[key])
    ensures key !in table ==> (c.Some? <==> key in BooleanFields) && (c.Some? ==> c.value == key)
  {
    if key in table then Some(table[key])
    else if key in BooleanFields then Some(key)
    else None
  }

  /** Every key that selects a column finds that column true on `p`. */
  predicate SpinKeysHold(keys: seq<string>, table: map<string, string>, p: Place) {
    forall i :: 0 <= i < |keys| && SpinColumn(keys[i], table).Some? ==> Flag(p, SpinColumn(keys[i], table).value)
  }

  /** The loop over one list of keys: one `.filter(column=True)` per key that selects a column. */
  function FilterEachKey(qs: seq<Place>, keys: seq<string>, table: map<string, string>): seq<Place>
    decreases |keys|
  {
    if keys == [] then qs
    else
      var narrowed := match SpinColumn(keys[0], table)
        case Some(c) => Select(qs, (p: Place) => Flag(p, c))
        case None => qs;
      FilterEachKey(narrowed, keys[1..], table)
  }

  /** The key loop is one selection by the conjunction of the selected columns. */
  lemma {:induction false} FilterEachKeyIsSelect(qs: seq<Place>, keys: seq<string>, table: map<string, string>)
    ensures FilterEachKey(qs, keys, table) == Select(qs, (p: Place) => SpinKeysHold(keys, table, p))
    decreases |keys|
  {
    var all := (p: Place) => SpinKeysHold(keys, table, p);
    if keys == [] {
      SelectAll(qs, all);
    } else {
      var rest := (p: Place) => SpinKeysHold(keys[1..], table, p);
      assert forall p: Place :: all(p) <==> (SpinColumn(keys[0], table).Some? ==> Flag(p, SpinColumn(keys[0], table).value)) && rest(p) by {
        forall p: Place
          ensures all(p) <==> (SpinColumn(keys[0], table).Some? ==> Flag(p, SpinColumn(keys[0], table).value)) && rest(p)
        {
          assert forall i :: 1 <= i < |keys| ==> keys[i] == keys[1..][i - 1];
        }
      }
      match SpinColumn(keys[0], table)
      case Some(c) =>
        var first := (p: Place) => Flag(p, c);
        FilterEachKeyIsSelect(Select(qs, first), keys[1..], table);
        SelectSelect(qs, first, rest, all);
      case None =>
        FilterEachKeyIsSelect(qs, keys[1..], table);
        SelectCongruent(qs, rest, all);
    }
  }

  /** A place the wheel may land on for a validated request. */
  predicate SpinMatches(p: Place, req: WheelSpinRequest) {
    && IsActive(p)
    && (req.categoryIds == [] || p.categoryId in req.categoryIds)
    && SpinKeysHold(req.expectationKeys, Filters.ExpectationKeyMap, p)
    && SpinKeysHold(req.regionKeys, RegionKeyMap, p)
  }

  predicate CategoryAllowed(p: Place, req: WheelSpinRequest) {
    req.categoryIds == [] || p.categoryId in req.categoryIds
  }

  /** The wheel-spin queryset: active places, then the category restriction when the list is
      non-empty, then one filter per expectation key and per region key. */
  function SpinCandidates(places: seq<Place>, req: WheelSpinRequest): seq<Place> {
    var active := ActivePlaces(places);
    var byCategory := if req.categoryIds != [] then Select(active, (p: Place) => p.categoryId in req.categoryIds) else active;
    FilterEachKey(FilterEachKey(byCategory, req.expectationKeys, Filters.ExpectationKeyMap), req.regionKeys, RegionKeyMap)
  }

  /** The candidates are exactly the matching places, in order. */
  lemma SpinCandidatesAreMatches(places: seq<Place>, req: WheelSpinRequest)
    ensures SpinCandidates(places, req) == Select(places, (p: Place) => SpinMatches(p, req))
  {
    var active := ActivePlaces(places);
    var cat := (p: Place) => CategoryAllowed(p, req);
    var c1 := (p: Place) => IsActive(p) && CategoryAllowed(p, req);
    var byCategory := if req.categoryIds != [] then Select(active, (p: Place) => p.categoryId in req.categoryIds) else active;
    if req.categoryIds != [] {
      SelectCongruent(active, (p: Place) => p.categoryId in req.categoryIds, cat);
    } else {
      SelectAll(active, cat);
    }
    SelectSelect(places, IsActive, cat, c1);
    assert byCategory == Select(places, c1);
    var exp := (p: Place) => SpinKeysHold(req.expectationKeys, Filters.ExpectationKeyMap, p);
    var reg := (p: Place) => SpinKeysHold(req.regionKeys, RegionKeyMap, p);
    var c12 := (p: Place) => c1(p) && exp(p);
    FilterEachKeyIsSelect(byCategory, req.expectationKeys, Filters.ExpectationKeyMap);
    SelectSelect(places, c1, exp, c12);
    var afterExp := FilterEachKey(byCategory, req.expectationKeys, Filters.ExpectationKeyMap);
    assert afterExp == Select(places, c12);
    FilterEachKeyIsSelect(afterExp, req.regionKeys, RegionKeyMap);
    SelectSelect(places, c12, reg, (p: Place) => SpinMatches(p, req));
  }

  /** The wheel-spin response; a server error is an exception that escapes the view. */
  datatype SpinResponse =
    | SpinBadRequest(fields: seq<string>)
    | SpinFound(detail: PlaceDetail)
    | SpinNotFound(message: string)
    | SpinServerError

  const NoMatchMessage := "No places found matching your criteria."

  /** A stand-in for `random.randint`: it returns a value within the inclusive bounds. */
  ghost predicate RandIntWithin(randint: (int, int) -> int) {
    forall a, b :: a <= b ==> a <= randint(a, b) <= b
  }

  /** The Django REST framework class a view extends, as far as the serializer context goes:
      `APIView` has no `get_serializer_context`, while `GenericAPIView` has one that puts the
      request in the context. */
  datatype ViewBase = PlainAPIView | GenericAPIView

  /** `BaseParlerAPIView.get_serializer_context`: the parent's context with the request put in
      it, or `None` when the parent has no such method and `super()` raises AttributeError.
      The clock and the definitions come from the environment `env`. */
  function SerializerContext(base: ViewBase, request: Request, env: Context): (r: Option<Context>)
    ensures r.Some? <==> base == GenericAPIView
    ensures r.Some? ==> r.value == env.(request := Some(request))
  {
    match base
    case PlainAPIView => None
    case GenericAPIView => Some(env.(request := Some(request)))
  }

  /** The rest of `WheelSpinView.post` once the context is built: validate, narrow the active
      places, and serialize a randomly chosen match with the context `ctx`. */
  function SpinWithContext(places: seq<Place>, data: map<string, Json>, ctx: Context, randint: (int, int) -> int): (r: SpinResponse)
    requires RandIntWithin(randint)
    ensures ValidateWheelSpin(data).Failure? ==> r == SpinBadRequest(ValidateWheelSpin(data).error)
    ensures ValidateWheelSpin(data).Success? ==>
      (r.SpinFound? <==> exists i :: 0 <= i < |places| && SpinMatches(places[i], ValidateWheelSpin(data).value))
    ensures ValidateWheelSpin(data).Success? && !r.SpinFound? ==> r == SpinNotFound(NoMatchMessage)
    ensures r.SpinFound? ==>
      exists i :: 0 <= i < |places| && SpinMatches(places[i], ValidateWheelSpin(data).value) && r.detail == Detail(places[i], ctx)
  {
    match ValidateWheelSpin(data)
    case Failure(fields) => SpinBadRequest(fields)
    case Success(req) =>
      var m := SpinCandidates(places, req);
      SpinCandidatesAreMatches(places, req);
      if |m| > 0 then
        var i := randint(0, |m| - 1);
        var j :| 0 <= j < |places| && places[j] == m[i];
        SpinFound(Detail(m[i], ctx))
      else
        assert forall i :: 0 <= i < |places| ==> !SpinMatches(places[i], req);
        SpinNotFound(NoMatchMessage)
  }

  /** `WheelSpinView.post` on a view whose base class is `base`. */
  function SpinOnBase(base: ViewBase, places: seq<Place>, data: map<string, Json>, query: map<string, string>, env: Context, randint: (int, int) -> int): (r: SpinResponse)
    requires RandIntWithin(randint)
    ensures base == PlainAPIView ==> r == SpinServerError
    ensures base == GenericAPIView ==> r != SpinServerError
  {
    match SerializerContext(base, Request(Post, data, query), env)
    case None => SpinServerError
    case Some(ctx) => SpinWithContext(places, data, ctx, randint)
  }

  /** `WheelSpinView.post` as it is written: `BaseParlerAPIView` extends `APIView`, so building
      the context raises before the body is even validated. */
  function WheelSpinAsWritten(places: seq<Place>, data: map<string, Json>, query: map<string, string>, env: Context, randint: (int, int) -> int): (r: SpinResponse)
    requires RandIntWithin(randint)
    ensures r == SpinServerError
  {
    SpinOnBase(PlainAPIView, places, data, query, env, randint)
  }

  /** The body names a device that liked place `p`: `get_user_interaction` reads `device_id`
      from the body of a POST, as sent. */
  predicate SenderLiked(data: map<string, Json>, p: Place) {
    && "device_id" in data && data["device_id"].JString?
    && data["device_id"].s != "" && data["device_id"].s in p.likedByDevices
  }

  /** `WheelSpinView.post` as intended: the base class supplies `get_serializer_context`, so
      the chosen place is serialized with the POST request in its context. */
  function WheelSpin(places: seq<Place>, data: map<string, Json>, query: map<string, string>, env: Context, randint: (int, int) -> int): (r: SpinResponse)
    requires RandIntWithin(randint)
    ensures ValidateWheelSpin(data).Failure? <==> r.SpinBadRequest?
    ensures ValidateWheelSpin(data).Failure? ==> r == SpinBadRequest(ValidateWheelSpin(data).error)
    ensures r.SpinFound? ==>
      exists i :: (0 <= i < |places| && SpinMatches(places[i], ValidateWheelSpin(data).value) &&
        r.detail == Detail(places[i], env.(request := Some(Request(Post, data, query)))) &&
        (r.detail.isLiked <==> SenderLiked(data, places[i])))
    ensures r.SpinNotFound? <==> (ValidateWheelSpin(data).Success? &&
      forall i :: 0 <= i < |places| ==> !SpinMatches(places[i], ValidateWheelSpin(data).value))
    ensures r.SpinNotFound? ==> r.message == NoMatchMessage
    ensures r != SpinServerError
  {
    DetailLikedIsSender(data, query, env);
    SpinOnBase(GenericAPIView, places, data, query, env, randint)
  }

  /** With the POST request in the context, a detail's `is_liked` is whether the body's device
      liked the place. */
  lemma DetailLikedIsSender(data: map<string, Json>, query: map<string, string>, env: Context)
    ensures forall p: Place :: Detail(p, env.(request := Some(Request(Post, data, query)))).isLiked <==> SenderLiked(data, p)
  {
    var request := Some(Request(Post, data, query));
    forall p: Place ensures Detail(p, env.(request := request)).isLiked <==> SenderLiked(data, p) {
      if SenderLiked(data, p) {
        assert SentDeviceId(request, data["device_id"].s);
      }
    }
  }

  /** Every wheel-spin request fails with a server error as written, while the intended view
      answers each one with a 400, the detail of a match, or the no-match message. */
  lemma WheelSpinAlwaysFails(places: seq<Place>, data: map<string, Json>, query: map<string, string>, env: Context, randint: (int, int) -> int)
    requires RandIntWithin(randint)
    ensures WheelSpinAsWritten(places, data, query, env, randint) == SpinServerError
    ensures WheelSpinAsWritten(places, data, query, env, randint) != WheelSpin(places, data, query, env, randint)
  {
  }

  /** The spin's fallback honours any Boolean column by name: `alcohol` narrows the spin as an
      expectation key, where the list filter ignores it (`Filters.AlcoholIgnoredAsExpectation`). */
  lemma SpinHonoursAlcohol()
    ensures SpinColumn("alcohol", Filters.ExpectationKeyMap) == Some("alcohol")
  {
    Filters.CoffeeAndAlcoholKeys();
    assert DeclaredBooleanFields[18] == "alcohol";
  }

  /** Even `is_active` is accepted as a region key. */
  lemma SpinHonoursIsActive()
    ensures SpinColumn("is_active", RegionKeyMap) == Some("is_active")
  {
    assert DeclaredBooleanFields[35] == "is_active";
  }

  /** A request that names nothing spins over every active place. */
  lemma EmptySpinMatchesActive(p: Place, deviceId: Option<string>)
    ensures SpinMatches(p, WheelSpinRequest([], [], [], deviceId)) <==> IsActive(p)
  {
  }
}

=== FILE: working_hours.dfy ===
/** `Place.get_working_hours_status` (api/models.py): whether a place is open at a given
    time of a given weekday, judged from the first opening-hour row of that weekday. The
    clock reading is a parameter. */
module WorkingHours {
  import opened Common
  import opened PyText
  import opened Places

  const DaySeconds: int := 86400

  /** The status text before localisation: "Open", "Opens at HH:MM" or "Closed". */
  datatype StatusText = Open | OpensAt(time: string) | Closed

  /** The dictionary the method returns. */
  datatype WorkingHoursStatus = WorkingHoursStatus(isOpenNow: bool, statusText: StatusText, nextChangeTime: Option<string>)

  /** The value the method starts from and returns when nothing changes it. */
  const ClosedStatus := WorkingHoursStatus(false, Closed, None)

  /** `time.strftime("%H:%M")`: two-digit hour, a colon, two-digit minute; seconds are dropped. */
  function FormatHHMM(t: TimeOfDay): (s: string)
    ensures |s| == 5 && s[2] == ':'
  {
    var h := t / 3600;
    var m := (t % 3600) / 60;
    [Digit(h / 10), Digit(h % 10), ':', Digit(m / 10), Digit(m % 10)]
  }

  /** Reads an "HH:MM" string back as minutes since midnight. */
  function ParseHHMM(s: string): (r: Option<int>)
    ensures r.Some? ==> 0 <= r.value < 24 * 60
  {
    if |s| == 5 && IsDigit(s[0]) && IsDigit(s[1]) && s[2] == ':' && IsDigit(s[3]) && IsDigit(s[4]) then
      var h := 10 * DigitValue(s[0]) + DigitValue(s[1]);
      var m := 10 * DigitValue(s[3]) + DigitValue(s[4]);
      if h < 24 && m < 60 then Some(60 * h + m) else None
    else None
  }

  /** The rendered time names the minute the time of day falls in. */
  lemma ParseFormat(t: TimeOfDay)
    ensures ParseHHMM(FormatHHMM(t)) == Some(t / 60)
  {
    var h := t / 3600;
    var m := (t % 3600) / 60;
    var s := FormatHHMM(t);
    assert DigitValue(s[0]) == h / 10 && DigitValue(s[1]) == h % 10;
    assert DigitValue(s[3]) == m / 10 && DigitValue(s[4]) == m % 10;
    assert 10 * (h / 10) + h % 10 == h;
    assert 10 * (m / 10) + m % 10 == m;
    assert t / 60 == 60 * h + m;
  }

  /** Distinct minutes render differently. */
  lemma FormatDistinguishesMinutes(a: TimeOfDay, b: TimeOfDay)
    ensures FormatHHMM(a) == FormatHHMM(b) <==> a / 60 == b / 60
  {
    if FormatHHMM(a) == FormatHHMM(b) {
      ParseFormat(a);
      ParseFormat(b);
    }
    if a / 60 == b / 60 {
      MinuteParts(a);
      MinuteParts(b);
    }
  }

  /** The hour and minute fields of a time depend only on its minute since midnight. */
  lemma MinuteParts(t: TimeOfDay)
    ensures t / 3600 == (t / 60) / 60 && (t % 3600) / 60 == (t / 60) % 60
  {
    var q := t / 60;
    var h := q / 60;
    var m := q % 60;
    var r := t % 60;
    assert t == 3600 * h + (60 * m + r);
    DivUnique(t, 3600, h, 60 * m + r);
    DivUnique(60 * m + r, 60, m, r);
  }

  /** Quotient and remainder are the unique such pair. */
  lemma DivUnique(x: int, d: int, q: int, r: int)
    requires d > 0 && x == d * q + r && 0 <= r < d
    ensures x / d == q && x % d == r
  {
    var k := x / d - q;
    assert d * k == r - x % d;
  }

  /** `self.open_times.filter(day_of_week=today).first()`: with rows ordered by opening time
      within a day, the row of `today` with the earliest opening time (the earliest stored
      such row on a tie). */
  function TodaysHours(rows: seq<OpeningHour>, today: Weekday): (r: Option<OpeningHour>)
    ensures r.None? <==> forall i :: 0 <= i < |rows| ==> rows[i].dayOfWeek != today
    ensures r.Some? ==> r.value in rows && r.value.dayOfWeek == today
    ensures r.Some? ==> forall i :: 0 <= i < |rows| && rows[i].dayOfWeek == today ==> r.value.openTime <= rows[i].openTime
  {
    if rows == [] then None
    else
      var rest := TodaysHours(rows[1..], today);
      assert forall i :: 1 <= i < |rows| ==> rows[i] == rows[1..][i - 1];
      if rows[0].dayOfWeek != today then rest
      else if rest.None? || rows[0].openTime <= rest.value.openTime then Some(rows[0])
      else rest
  }

  /** On rows kept in `OpeningHour.Meta.ordering`, the chosen row is the first row of `today`,
      which is what `.first()` on the ordered queryset returns. */
  lemma {:induction false} TodaysHoursIsFirstOfSorted(rows: seq<OpeningHour>, today: Weekday, i: int)
    requires SortedHours(rows)
    requires 0 <= i < |rows| && rows[i].dayOfWeek == today
    requires forall j :: 0 <= j < i ==> rows[j].dayOfWeek != today
    ensures TodaysHours(rows, today) == Some(rows[i])
  {
    assert forall j :: 1 <= j < |rows| ==> rows[j] == rows[1..][j - 1];
    if i > 0 {
      TodaysHoursIsFirstOfSorted(rows[1..], today, i - 1);
    } else {
      var rest := TodaysHours(rows[1..], today);
      if rest.Some? {
        var k :| 0 <= k < |rows[1..]| && rows[1..][k] == rest.value;
        assert HourBefore(rows[0], rows[k + 1]);
      }
    }
  }

  /** Seconds a clock needs to run forward from `a` to show `b`, wrapping at midnight. */
  function Forward(a: TimeOfDay, b: TimeOfDay): (d: int)
    ensures 0 <= d < DaySeconds
    ensures (a + d) % DaySeconds == b
  {
    if a <= b then b - a else b - a + DaySeconds
  }

  /** Whether `t` lies in the row's window: the half-open span that starts at the opening
      time and lasts until the clock next shows the closing time. Stated as a clock distance,
      independently of how the method compares times. */
  predicate InWindow(h: OpeningHour, t: TimeOfDay) {
    Forward(h.openTime, t) < Forward(h.openTime, h.closeTime)
  }

  /** The case analysis applied to today's row. */
  function Evaluate(h: OpeningHour, now: TimeOfDay): (r: WorkingHoursStatus)
    ensures r.isOpenNow <==> InWindow(h, now)
    ensures r.isOpenNow ==> r.statusText == Open && r.nextChangeTime == Some(FormatHHMM(h.closeTime))
    ensures r.statusText.OpensAt? ==> r.statusText.time == FormatHHMM(h.openTime) && r.nextChangeTime == Some(FormatHHMM(h.openTime))
    ensures r.statusText == Closed <==> r.nextChangeTime.None?
  {
    var open := h.openTime;
    var close := h.closeTime;
    if close < open then
      if now >= open || now < close then WorkingHoursStatus(true, Open, Some(FormatHHMM(close)))
      else if now < open then WorkingHoursStatus(false, OpensAt(FormatHHMM(open)), Some(FormatHHMM(open)))
      else ClosedStatus
    else
      if open <= now < close then WorkingHoursStatus(true, Open, Some(FormatHHMM(close)))
      else if now < open then WorkingHoursStatus(false, OpensAt(FormatHHMM(open)), Some(FormatHHMM(open)))
      else ClosedStatus
  }

  /** `Place.get_working_hours_status` for a place whose opening-hour rows are `rows`, read at
      time `now` on weekday `today`. */
  function GetWorkingHoursStatus(rows: seq<OpeningHour>, now: TimeOfDay, today: Weekday): (r: WorkingHoursStatus)
    ensures (forall i :: 0 <= i < |rows| ==> rows[i].dayOfWeek != today) ==> r == ClosedStatus
    ensures r.isOpenNow ==> exists i :: 0 <= i < |rows| && rows[i].dayOfWeek == today && InWindow(rows[i], now)
    ensures TodaysHours(rows, today).Some? ==> (r.isOpenNow <==> InWindow(TodaysHours(rows, today).value, now))
  {
    match TodaysHours(rows, today)
    case None => ClosedStatus
    case Some(h) => Evaluate(h, now)
  }

  /** Several rows on one day: only the earliest-opening one counts, so a place can be reported
      closed while `now` lies inside a later row's window. */
  lemma OnlyFirstRowCounts(a: OpeningHour, b: OpeningHour, now: TimeOfDay)
    requires a.dayOfWeek == b.dayOfWeek && a.openTime < b.openTime
    ensures GetWorkingHoursStatus([b, a], now, a.dayOfWeek) == Evaluate(a, now)
  {
    assert [b, a][1..] == [a];
    assert [a][1..] == [];
    assert TodaysHours([a], a.dayOfWeek) == Some(a);
  }

  /** A span within one day (`open <= close`): open exactly on `[open, close)`; before opening
      it reports the opening time; after closing it reports "Closed" with no next change. */
  lemma SameDaySpan(h: OpeningHour, now: TimeOfDay)
    requires h.openTime <= h.closeTime
    ensures Evaluate(h, now).isOpenNow <==> h.openTime <= now < h.closeTime
    ensures !Evaluate(h, now).isOpenNow && now < h.openTime ==>
      Evaluate(h, now) == WorkingHoursStatus(false, OpensAt(FormatHHMM(h.openTime)), Some(FormatHHMM(h.openTime)))
    ensures !Evaluate(h, now).isOpenNow && now >= h.openTime ==> Evaluate(h, now) == ClosedStatus
  {
  }

  /** A span past midnight (`close < open`): open exactly when `now >= open` or `now < close`;
      otherwise it always reports the opening time, never "Closed". */
  lemma OvernightSpan(h: OpeningHour, now: TimeOfDay)
    requires h.closeTime < h.openTime
    ensures Evaluate(h, now).isOpenNow <==> now >= h.openTime || now < h.closeTime
    ensures Evaluate(h, now).isOpenNow ==> Evaluate(h, now).nextChangeTime == Some(FormatHHMM(h.closeTime))
    ensures !Evaluate(h, now).isOpenNow ==> h.closeTime <= now < h.openTime
    ensures !Evaluate(h, now).isOpenNow ==>
      Evaluate(h, now) == WorkingHoursStatus(false, OpensAt(FormatHHMM(h.openTime)), Some(FormatHHMM(h.openTime)))
  {
  }

  /** Equal opening and closing times fall in the same-day branch and are never open. */
  lemma EqualTimesNeverOpen(h: OpeningHour, now: TimeOfDay)
    requires h.openTime == h.closeTime
    ensures !Evaluate(h, now).isOpenNow
  {
  }

  /** The reported next-change time is where the state next flips: while open, every second
      from now up to the closing time is open and the closing time is not; while waiting to
      open, every second up to the opening time is closed and the opening time is open (for a
      non-empty window); when "Closed", no second left in the day is open. */
  lemma NextChangeIsNextFlip(h: OpeningHour, now: TimeOfDay)
    ensures var r := Evaluate(h, now);
      r.isOpenNow ==>
        !InWindow(h, h.closeTime) &&
        forall t: TimeOfDay :: Forward(now, t) < Forward(now, h.closeTime) ==> InWindow(h, t)
    ensures var r := Evaluate(h, now);
      r.statusText.OpensAt? ==>
        (h.openTime != h.closeTime ==> InWindow(h, h.openTime)) &&
        forall t: TimeOfDay :: Forward(now, t) < Forward(now, h.openTime) ==> !InWindow(h, t)
    ensures var r := Evaluate(h, now);
      r.statusText == Closed ==> forall t :: now <= t < DaySeconds ==> !InWindow(h, t)
  {
  }
}
